=== FILE: README.md ===
# bedmakerGUI core in Dafny

This project models the data-shaping core of bedmakerGUI, a Flask application
that builds BED files (genomic interval lists) for a clinical genetics
laboratory, and proves properties of that model.

The modelled pipeline:

- **Lookup.** A user enters transcript identifiers, rsIDs or genomic
  coordinates. Each one is looked up in TARK (transcripts) or Ensembl (variants
  and gene overlaps).
- **Transcript choice.** The most relevant transcript is chosen by a priority
  rule: the version the user asked for, then GRCh38 MANE, then a GRCh37
  transcript anchored on a GRCh38 MANE transcript, then the highest version.
- **Expansion and trimming.** The chosen transcript becomes one record per
  exon. The untranslated regions (UTRs) are trimmed off by strand.
- **Padding.** Padding is recomputed from the stored original bounds.
- **Output.** Records are written as BED text in five layouts: raw, data,
  sambamba, exome_depth and cnv. Warnings are collected for review.
- **Approval.** Submitted files go through a small workflow of removal,
  authorisation and `_vN` versioning.

Modules, one per source file (all files sit directly in this directory):

| file | module | models |
|---|---|---|
| wrappers.dfy | Wrappers | `Option`, `Result` |
| strings.dfy | Strings | Python string operations used by the core (ASCII `\d`, `strip`, `split`, `lower`/`upper`, `int()`, `str()`, the `$` anchor) |
| lists.dfy | Lists | `next(...)` first index, `max(...)` first maximal index, filters |
| records.dfy | Records | the result dictionary, TARK transcripts, settings, Python exceptions |
| bed_generator.dfy | BedGenerator | app/bed_generator/bed_generator.py |
| validators.dfy | Validators | app/bed_generator/validators.py |
| api_coordinates.dfy | ApiCoordinates | app/bed_generator/api.py: coordinate parsing, overlap records, panel filter |
| api_selection.dfy | ApiSelection | app/bed_generator/api.py: transcript selection and expansion |
| utils.dfy | Utils | app/bed_generator/utils.py |
| transcript_processing.dfy | TranscriptProcessing | app/bed_generator/transcript_processing.py |
| generator_routes.dfy | GeneratorRoutes | app/bed_generator/routes.py |
| logic.dfy | Logic | app/bed_generator/logic.py |
| bulk_route.dfy | BulkRoute | app/bed_generator/routes.py: the `bulk_process` route |
| bed_manager.dfy | BedManager | app/bed_manager/routes.py |

How the source's constructs are represented:

- **Records.** Python dictionaries whose keys vary between producers become the
  flat `Records.Interval` datatype. A key that may be absent is an `Option`.
- **Exceptions.** Exceptions become `Failure` values of `Records.Fault`:
  TypeError, ValueError with its message, KeyError, IndexError and
  AttributeError.
- **Web services.** Calls to TARK, Ensembl and PanelApp are function-typed
  parameters standing for the service's answer.
- **Mutation in place.**
  - Loops that build lists are methods proved against prefix-recursive
    specification functions.
  - `adjust_padding` rewrites the result records in place, so it works on an
    `array`.
  - The approval workflow is a `BedManager.Store` class whose map of files the
    methods update.
- **Defects.** Where the code does not do what it evidently means, the plain
  name models the code as written and the pipeline is built on it; a twin
  with the suffix `Fixed` models the evident intent (see "## Findings").

`process_coordinate_data` exists twice:

- app/bed_generator/api.py:384-443
- app/bed_generator/transcript_processing.py:205-254

The two have the same code and differ only in their docstrings.
`ApiCoordinates.CoordinateRecords` and `ApiCoordinates.ProcessCoordinateData`
model both.

## Model

| member | source | states |
|---|---|---|
| BedGenerator.FormatBedLine | app/bed_generator/bed_generator.py:18-49 | a line is produced exactly for the layouts data, sambamba, exome_depth and cnv; any other layout raises ValueError("Invalid format type") |
| BedGenerator.FormatAll | app/bed_generator/bed_generator.py:53 | the comprehension succeeds iff there are no records or the layout is known, and then gives one line per record, in order, each the record's `format_bed_line` |
| BedGenerator.CreateBed | app/bed_generator/bed_generator.py:52-53 | succeeds iff there are no records or the layout is known; no records give the empty text |
| BedGenerator.CreateDataBed | app/bed_generator/bed_generator.py:56-57 | the data wrapper never raises |
| BedGenerator.CreateSambambaBed | app/bed_generator/bed_generator.py:60-61 | the sambamba wrapper never raises |
| BedGenerator.CreateExomeDepthBed | app/bed_generator/bed_generator.py:64-65 | the exome_depth wrapper never raises |
| BedGenerator.CreateCnvBed | app/bed_generator/bed_generator.py:68-69 | the cnv wrapper never raises |
| BedGenerator.CreateRawBed | app/bed_generator/bed_generator.py:72-83 | no records give the empty text |
| BedGenerator.CreateBedLines | app/bed_generator/bed_generator.py:53 | splitting the output on newlines gives back exactly one line per record, in order, each that record's `format_bed_line` (no trailing newline) |
| BedGenerator.CreateRawBedLines | app/bed_generator/bed_generator.py:83 | splitting the raw output on newlines gives back exactly one raw line per record, in order |
| BedGenerator.ColumnsOfLine | app/bed_generator/bed_generator.py:31-33 | read back on tabs, every padded layout's first column is `chr`+region iff the prefix is asked for, and its start and end are the record's bounds moved out by the same padding |
| BedGenerator.DataLineLayout | app/bed_generator/bed_generator.py:38-39 | a data line has exactly five columns: region, start, end, entrez id, `gene;accession` |
| BedGenerator.SambambaLineLayout | app/bed_generator/bed_generator.py:40-42 | a sambamba line has eight columns; the name is the unprefixed region with the padded bounds, the score is 0, the strand is `+` iff the strand (1 when absent) is positive |
| BedGenerator.ExomeDepthLineLayout | app/bed_generator/bed_generator.py:43-45 | an exome_depth line has four columns, the last `gene_` followed by the exon number, or nothing when there is none |
| BedGenerator.CnvLineLayout | app/bed_generator/bed_generator.py:46-47 | a cnv line has four columns, the last the accession |
| BedGenerator.RawLineLayout | app/bed_generator/bed_generator.py:83 | a raw line is region, start, end, gene with the record's own bounds: no padding |
| Validators.MatchGroupsSound | app/bed_generator/validators.py:22-23 | groups 2-4 found after the optional `chr` are a chromosome of the grammar and two digit strings that spell out the text |
| Validators.MatchGroupsComplete | app/bed_generator/validators.py:22-23 | every chromosome of the grammar with two digit strings is matched with exactly those groups |
| Validators.MatchSound | app/bed_generator/validators.py:22-23 | a match has well-formed groups that spell the whole input (less one final newline, which `$` allows) |
| Validators.MatchComplete | app/bed_generator/validators.py:22-23 | every well-formed coordinate (any-case `chr`, chromosome 1-99 without leading zero or X/Y/M, digits) matches, with or without a final newline |
| Validators.ValidateCoordinates | app/bed_generator/validators.py:11-34 | the format message exactly when the pattern does not match; otherwise None or the order message: the format check comes first |
| Validators.ValidateWellFormed | app/bed_generator/validators.py:28-34 | a matching coordinate is accepted iff start <= end (equal bounds accepted), else gets the order message; a final newline changes nothing |
| Validators.ValidateMalformed | app/bed_generator/validators.py:25-26 | a text no well-formed coordinate spells gets the format message |
| ApiCoordinates.EnsemblUrl | app/bed_generator/api.py:31-33 | the GRCh38 server iff the assembly is exactly 'GRCh38', the GRCh37 server otherwise |
| ApiCoordinates.ValidateCoordinates | app/bed_generator/api.py:503-526 | the copy in api.py gives the same answer as validators.py on every input |
| ApiCoordinates.SplitCoordinate | app/bed_generator/api.py:358-360 | on success the text had one ':' and the chromosome is the `lstrip('chr')` of the text before it |
| ApiCoordinates.ParseCoordinate | app/bed_generator/api.py:353-360 | a rejected coordinate raises ValueError with the validator's message before anything else; an accepted one always parses, with start <= end |
| ApiCoordinates.ParseCoordinateValid | app/bed_generator/api.py:353-360 | an accepted coordinate parses to the lstripped text before ':' and the two numbers of the match, start <= end |
| ApiCoordinates.SplitRenderedLocus | app/bed_generator/api.py:358-360 | splitting a well-formed coordinate (with or without a final newline) gives the lstripped chromosome and the two numbers |
| ApiCoordinates.UppercaseChrKept | app/bed_generator/api.py:358-359 | as written, a valid coordinate whose `chr` starts with a capital keeps its prefix in the chromosome, which is then not a chromosome of the grammar |
| ApiCoordinates.ParseCoordinateFixed | app/bed_generator/api.py:353-360 | the parse fails iff the validator rejects, with its message; a success is a chromosome of the grammar with start <= end |
| ApiCoordinates.ParseCoordinateFixedStrips | app/bed_generator/api.py:358-360 | the corrected parse drops the `chr` prefix in any case and keeps the two numbers |
| ApiCoordinates.LStripChr | app/bed_generator/api.py:359 | `lstrip('chr')` leaves a chromosome alone and removes a lowercase `chr` before it |
| ApiCoordinates.ParseCoordinateFixedAgrees | app/bed_generator/api.py:358-360 | with no prefix or a lowercase `chr`, the corrected parse equals the parse as written |
| ApiCoordinates.FeatureEntry | app/bed_generator/api.py:402-413 | a feature's record carries the queried region, its gene name or 'unknown_gene', an empty alert |
| ApiCoordinates.KnownEntries | app/bed_generator/api.py:398-419 | the named-gene records: no more than the features, each named and on the queried region with no alert |
| ApiCoordinates.UnknownEntries | app/bed_generator/api.py:398-419 | the unnamed records: no more than the features, each 'unknown_gene' and on the queried region with no alert |
| ApiCoordinates.SortFeatures | app/bed_generator/api.py:398-419 | the loop puts each feature's record in the named or unnamed list, in response order |
| ApiCoordinates.MarkAll | app/bed_generator/api.py:424-430 | the alert loop sets every record's alert to the message and changes nothing else, in order |
| ApiCoordinates.ProcessCoordinateData | app/bed_generator/api.py:384-443 | the method returns exactly the records `process_coordinate_data` specifies |
| ApiCoordinates.KnownEntriesEmpty | app/bed_generator/api.py:416-419 | no named record iff no feature has a gene name |
| ApiCoordinates.EntriesCount | app/bed_generator/api.py:416-419 | every feature lands in exactly one of the two lists |
| ApiCoordinates.EntriesFromData | app/bed_generator/api.py:401-419 | every record is the record of some feature of the response |
| ApiCoordinates.CoordinateRecordsRegion | app/bed_generator/api.py:384-443 | at least one record, all on the queried region; the 'none' placeholder iff nothing overlaps; otherwise no more records than features, all marked genomic |
| ApiCoordinates.CoordinateRecordsPriority | app/bed_generator/api.py:422-431 | named genes win: if any feature is named only named records return; otherwise every feature returns |
| ApiCoordinates.KnownChosen | app/bed_generator/api.py:422-426 | with a named feature, every record returned is named |
| ApiCoordinates.UnknownChosen | app/bed_generator/api.py:427-431 | with only unnamed features, all of them are returned |
| ApiCoordinates.CoordinateRecordsAlert | app/bed_generator/api.py:421-431 | the alert is empty iff one record is returned; with several, each carries its group's "multiple" message |
| ApiCoordinates.CoordinateInfo | app/bed_generator/api.py:341-382 | ValueError with the validator's message iff the coordinate is rejected; otherwise the no-response placeholder or the overlap records of the locus the written parse gives |
| ApiCoordinates.CoordinateInfoRegion | app/bed_generator/api.py:353-382 | an accepted coordinate gives at least one record, each on the text before ':' with leading lowercase c, h, r removed, between its two numbers, start <= end; that region is a chromosome of the grammar when `chr` is lowercase or absent, and not one when it begins with a capital |
| ApiCoordinates.FetchCoordinateInfo | app/bed_generator/api.py:341-382 | the method returns exactly what `CoordinateInfo` specifies |
| ApiCoordinates.WrittenRegion | app/bed_generator/api.py:358-360 | the written parse of an accepted coordinate is the lstripped text before ':' and the two numbers; a chromosome iff written with lowercase or no `chr` (not one with a capital) |
| ApiCoordinates.RecordsOnLocus | app/bed_generator/api.py:368-382 | an accepted coordinate gives at least one record, all on the parsed locus |
| ApiCoordinates.CoordinateInfoFixed | app/bed_generator/api.py:341-382 | with the fixed parse: ValueError iff rejected; otherwise at least one record, each on the coordinate's chromosome of the grammar, start <= end |
| ApiCoordinates.CoordinateInfoFixedAgrees | app/bed_generator/api.py:353-360 | the two lookups agree on every rejected coordinate and on every one written with lowercase or no `chr` |
| ApiCoordinates.ConfidenceLevels | app/bed_generator/api.py:499 | level 3 always; 2 iff amber is included; 1 iff red is included |
| ApiCoordinates.FilterPanelGenes | app/bed_generator/api.py:499-501 | a panel gene is kept iff its level is 3, or 2 with amber, or 1 with red; nothing else is kept |
| Records.VersionInt | app/bed_generator/api.py:231 | `int()` of a numeric version is that number; of null, TypeError |
| Records.VersionKey | app/bed_generator/api.py:243-247 | `get_version` is `int()` of the version, or 0 when `int()` raises |
| Records.SettingsGet | app/models.py:83-89 | the settings dictionary holds exactly the four padding keys |
| ApiSelection.AssemblyTranscripts | app/bed_generator/api.py:210 | exactly the NM/NR transcripts of the assembly |
| ApiSelection.ManeTranscripts | app/bed_generator/api.py:220 | exactly the candidates of MANE PLUS CLINICAL or MANE SELECT type |
| ApiSelection.WithStableId | app/bed_generator/api.py:229 | exactly the candidates with the anchor's stable id |
| ApiSelection.IntVersions | app/bed_generator/api.py:231 | every version's `int()`, or the exception of one that raises |
| ApiSelection.MaxByIntVersion | app/bed_generator/api.py:231 | `max(..., key=int(version))` succeeds iff every version is an integer, and then gives the first element of greatest version (an earlier element has a smaller version) |
| ApiSelection.MaxByVersionKey | app/bed_generator/api.py:243-249 | the first element of the list whose `get_version` no other element exceeds: every earlier element's is smaller |
| ApiSelection.Flagged | app/bed_generator/api.py:232-237 | the transcript with a `transcript_selection` warning naming its accession, nothing else changed |
| ApiSelection.AnchoredPick | app/bed_generator/api.py:229-238 | raises iff some namesake's version is not an integer; otherwise exactly one flagged namesake, the first of greatest version |
| ApiSelection.ChooseTranscripts | app/bed_generator/api.py:218-258 | only GRCh37 can raise; the choice is empty iff the assembly has no NM/NR transcript |
| ApiSelection.WithVersion | app/bed_generator/api.py:214 | as written, a candidate matches only if its version is that very text |
| ApiSelection.SelectTranscripts | app/bed_generator/api.py:197-258 | as written: when some candidate's version is that very text, exactly those candidates are returned, unflagged; otherwise the unversioned choice |
| ApiSelection.NumericVersionIgnored | app/bed_generator/api.py:212-216 | when TARK gives numeric versions, the requested version is ignored as written |
| ApiSelection.WithVersionFixed | app/bed_generator/api.py:214 | exactly the candidates whose `str(version)` is the requested one |
| ApiSelection.SelectTranscriptsFixed | app/bed_generator/api.py:197-258 | a version match returns all matches unflagged; otherwise the unversioned choice |
| ApiSelection.NumericVersionSelected | app/bed_generator/api.py:212-216 | with the version compared as `str()`, asking for an existing numeric version returns exactly the transcripts with it |
| ApiSelection.SelectTranscriptsFixedFromData | app/bed_generator/api.py:209-258 | the same for the corrected selection |
| ApiSelection.SelectTranscriptsFromData | app/bed_generator/api.py:209-258 | every transcript the selection as written returns is, up to its warning, an NM/NR transcript of the assembly in the response; none iff the response has none |
| ApiSelection.ChooseFromData | app/bed_generator/api.py:218-258 | every chosen transcript is, up to its warning, an NM/NR transcript of the assembly in the response |
| ApiSelection.Grch38ManePreferred | app/bed_generator/api.py:218-222 | a GRCh38 NM/NR MANE transcript means all of them, in order, are chosen |
| ApiSelection.Grch37Anchored | app/bed_generator/api.py:223-238 | with a first GRCh38 MANE NM anchor and a GRCh37 namesake, one namesake of greatest version is chosen, flagged |
| ApiSelection.HighestVersionFallback | app/bed_generator/api.py:240-256 | without MANE, the first candidate of greatest `get_version` is returned alone, flagged for review |
| ApiSelection.FirstGeneName | app/bed_generator/api.py:279 | the first non-empty gene name, or the identifier when there is none |
| ApiSelection.ExonRecords | app/bed_generator/api.py:275-307 | one record per exon, in order, numbered from 1, with the exon's bounds, strand and id, the transcript's accession, the first non-empty gene name (else the identifier), the first gene's stable id (else None), the transcript's warning and type fields, and both UTR dictionaries always present |
| ApiSelection.ProcessTranscripts | app/bed_generator/api.py:260-308 | the loop returns exactly the exon records of the present transcripts |
| ApiSelection.TranscriptRecordsCount | app/bed_generator/api.py:271-308 | as many records as the present transcripts have exons |
| ApiSelection.TranscriptRecordsExons | app/bed_generator/api.py:271-308 | every record is the record of some exon of a present transcript |
| ApiSelection.Grch37Items | app/bed_generator/api.py:331 | exactly the GRCh37 items of the response |
| ApiSelection.Grch37Pick | app/bed_generator/api.py:331 | None iff there is no GRCh37 item; raises iff some GRCh37 item's version is not an integer; otherwise the first GRCh37 item of greatest integer version |
| ApiSelection.DataGeneName | app/bed_generator/api.py:332 | the first non-empty gene name over the items' genes in order (every earlier name is empty), or None when there is none |
| ApiSelection.FetchWithHg38 | app/bed_generator/api.py:310-339 | the method returns exactly what the post-fetch selection specifies for TARK's answer |
| ApiSelection.Hg38RecordsShape | app/bed_generator/api.py:331-339 | raises iff the GRCh37 pick raises; otherwise one record per exon of the picked GRCh37 item (the first of greatest version), on its exon with its accession, all with the given warning; none without a GRCh37 item |
| ApiSelection.RequestedVersion | app/bed_generator/api.py:158 | a version is requested iff the identifier has a dot |
| ApiSelection.ManeSelectId | app/bed_generator/api.py:176-179 | the GRCh38 selection as written never raises; the anchor is the stable id of its first MANE SELECT transcript, None iff it has none or TARK returned nothing |
| ApiSelection.IdentifierParts | app/bed_generator/api.py:157-158 | `accession.version` splits into the two; a bare accession asks for no version |
| ApiSelection.FetchDataFromTark | app/bed_generator/api.py:146-195 | the method returns exactly what `fetch_data_from_tark` specifies for TARK's answers, the version compared as written |
| ApiSelection.TarkRecordsGrch38 | app/bed_generator/api.py:157-195 | None iff TARK has nothing; otherwise only exon records of transcripts the selection as written returns, each naming the base accession |
| ApiSelection.TarkRecordsGrch37Fallback | app/bed_generator/api.py:172-193 | with no GRCh37 choice, every record found through GRCh38 has an `assembly_mapping` warning naming the user's identifier |
| Utils.RsIdClassified | app/bed_generator/utils.py:56-60 | `rs` in any case followed by digits (and an optional final newline) is an rsID; other text is not |
| Utils.Clamped | app/bed_generator/utils.py:127-140 | only the bounds change and only inwards; on strand 1 the 5' end raises the start and the 3' start lowers the end, on other strands the other way round |
| Utils.TrimmedFixed | app/bed_generator/utils.py:123-142 | None iff the trimmed interval is empty; otherwise the trimmed record, with start < end |
| Utils.ProcessTarkData | app/bed_generator/utils.py:123-142 | the step-by-step overwrite gives the trimming as written: TypeError on an excluded UTR whose bound is None, else the trimmed record or None |
| Utils.TrimmedIncludeAll | app/bed_generator/utils.py:131-142 | including both UTRs never raises and keeps the record unchanged when its interval is non-empty |
| Utils.TrimmedInsideUtrs | app/bed_generator/utils.py:131-140 | UTRs inside the record are cut off by strand, without raising |
| Utils.Trimmed | app/bed_generator/utils.py:131-140 | as written, TypeError iff an excluded UTR's bound that is read is None |
| Utils.MissingUtrRaises | app/bed_generator/utils.py:131-140 | a transcript without a 5' UTR raises as written, though excluding nothing would be right |
| Utils.TrimmedAgrees | app/bed_generator/utils.py:131-140 | wherever no missing bound is read, the code as written and the corrected trimming agree |
| Utils.ProcessUtr | app/bed_generator/utils.py:144-161 | the opposite bound only when the UTR is excluded, its bound is truthy and equals the record's; otherwise the record's own bound |
| Utils.ProcessUtrMatchesTrim | app/bed_generator/utils.py:158-161 | on strand 1 a record starting at its excluded 5' UTR moves to where the trimming moves it |
| Utils.TrimEach | app/bed_generator/utils.py:66-74 | no trimming raises iff no record reads a missing UTR bound; the exception is TypeError; no more kept records than records |
| Utils.TrimEachStopped | app/bed_generator/utils.py:66-83 | once a trimming has raised, later records change nothing |
| Utils.TrimEachMembers | app/bed_generator/utils.py:66-74 | every kept record is a non-empty trimmed form of an input record; when nothing raised, every record whose trimmed form is not None is kept |
| Utils.TrimEachRaises | app/bed_generator/utils.py:66-83 | when a trimming raises, the kept records are exactly those of the records before the first that reads a missing bound |
| Utils.TrimEachBounds | app/bed_generator/utils.py:117-118 | every kept record lies inside some input record with start < end; with both UTRs included nothing raises and every non-empty record is kept |
| Utils.ProcessData | app/bed_generator/utils.py:104-121 | None gives [], a variant gives itself alone; a TARK list raises TypeError iff some record reads a missing UTR bound, else gives its kept trimmed records |
| Utils.FetchIdentifier | app/bed_generator/utils.py:98-102 | an rsID is looked up as a variant and never yields TARK data, anything else in TARK and never yields a variant; an rsID fails exactly when `fetch_variant_info` raises, with its exception |
| Utils.ProcessSingleIdentifier | app/bed_generator/utils.py:87-102 | the method returns exactly what `FetchIdentifier` specifies |
| Utils.AppendTrimmed | app/bed_generator/utils.py:69-74 | the inner loop appends the kept records trimmed before the first trimming that raises, and returns that exception |
| Utils.AbsorbInto | app/bed_generator/utils.py:63-83 | one iteration adds exactly what `Absorb` says: nothing for a lookup that raises, the identifier to the no-data list for falsy data, the variant, or the kept trimmed records up to a raising trimming |
| Utils.ProcessIdentifiers | app/bed_generator/utils.py:37-85 | the loop returns exactly the results and no-data list of the sequential aggregation, an exception from the trimming caught and dropped |
| Utils.AggregateNoData | app/bed_generator/utils.py:62-81 | the no-data list holds exactly the identifiers whose lookup succeeded with nothing, in order |
| Utils.AggregateStep | app/bed_generator/utils.py:64-83 | a `process_single_identifier` call that raises changes nothing; a found rsID adds its variant; an rsID not found is listed as no data; a TARK list adds the kept records trimmed before the first trimming that raises and leaves the no-data list alone |
| Utils.IdentifierLost | app/bed_generator/utils.py:64-83 | an identifier whose first TARK record reads a missing UTR bound changes neither list |
| Utils.ProcessCoordinates | app/bed_generator/utils.py:163-188 | the loop returns exactly the records of every successful lookup, in order |
| Utils.CoordinateResultsValid | app/bed_generator/utils.py:163-188 | every record lies on the locus the written parse gives for a valid coordinate of the input, start <= end |
| TranscriptProcessing.Versioned | app/bed_generator/transcript_processing.py:24 | exactly the NM/NR transcripts of the assembly whose `str(version)` is requested |
| TranscriptProcessing.VersionPicked | app/bed_generator/transcript_processing.py:26-35 | a `version_specified` warning naming the accession, MANE type removed, nothing else changed |
| TranscriptProcessing.SelectTranscripts | app/bed_generator/transcript_processing.py:15-78 | only GRCh37 raises; at most one transcript, unless several GRCh38 MANE transcripts |
| TranscriptProcessing.SelectUnversioned | app/bed_generator/transcript_processing.py:38-78 | the same for the choice without a matching version |
| TranscriptProcessing.UnversionedFallback | app/bed_generator/transcript_processing.py:60-78 | GRCh38 without MANE, GRCh37 whose anchor is missing or has no namesake, or another assembly: the first transcript of greatest `get_version` alone, flagged for review, or nothing without RefSeq transcripts |
| TranscriptProcessing.VersionSpecified | app/bed_generator/transcript_processing.py:23-36 | a requested version some candidate has gives exactly the first such, flagged |
| TranscriptProcessing.AgreesOnGrch38 | app/bed_generator/transcript_processing.py:38-42 | without a version match, GRCh38 choices of the two copies agree |
| TranscriptProcessing.Grch37Anchored | app/bed_generator/transcript_processing.py:43-58 | with a first GRCh38 MANE SELECT NM anchor and a namesake, one namesake of greatest version is chosen, warning naming the anchor |
| TranscriptProcessing.GeneId | app/bed_generator/transcript_processing.py:93-104 | the first gene with an Ensembl id or a stable id gives the id, its Ensembl id when it has one; None iff no gene has either |
| TranscriptProcessing.ExonRecordStatus | app/bed_generator/transcript_processing.py:106-155 | MANE fields only on GRCh38; status is the MANE category (any case), else the warning message, else None |
| TranscriptProcessing.VersionPickedStatus | app/bed_generator/transcript_processing.py:147-155 | a version-picked transcript's records carry "Version specified by user" as status |
| TranscriptProcessing.ExonRecords | app/bed_generator/transcript_processing.py:120-157 | one record per exon in exon order, numbered from 1, on its exon with its strand, the accession `stable_id.version`, the first non-empty gene name (else the identifier) and `GeneId` as Ensembl and Entrez id |
| TranscriptProcessing.ProcessTranscripts | app/bed_generator/transcript_processing.py:80-161 | the loop returns exactly the records or IndexError `TranscriptRecords` specifies |
| TranscriptProcessing.AppendExonRecords | app/bed_generator/transcript_processing.py:120-157 | the inner loop appends exactly the transcript's exon records |
| TranscriptProcessing.TranscriptRecordsIndexError | app/bed_generator/transcript_processing.py:85-161 | IndexError iff the first present transcript has no exons; otherwise one record per exon |
| TranscriptProcessing.Grch37Namesakes | app/bed_generator/transcript_processing.py:177-179 | exactly the GRCh37 transcripts with the anchor's stable id |
| TranscriptProcessing.MappedRecords | app/bed_generator/transcript_processing.py:184-185 | a mapping that does not raise always returns a list, never None |
| TranscriptProcessing.MappedRecordsShape | app/bed_generator/transcript_processing.py:184-185 | one record per exon with the mapping message as status; IndexError iff no exons |
| TranscriptProcessing.Grch38ManeSelect | app/bed_generator/transcript_processing.py:162-186 | a response without a GRCh38 MANE SELECT transcript gives None; any other outcome needs one |
| TranscriptProcessing.Grch38ManeSelectPick | app/bed_generator/transcript_processing.py:163-186 | None iff the first MANE SELECT has no GRCh37 namesake; otherwise a namesake of greatest version, mapped with the `assembly_mapping` warning |
| TranscriptProcessing.ManeSelectNone | app/bed_generator/transcript_processing.py:171-186 | no result iff no GRCh37 namesake of the first MANE SELECT transcript |
| TranscriptProcessing.ManeSelectMapped | app/bed_generator/transcript_processing.py:177-185 | a result maps a namesake of greatest version with the `assembly_mapping` warning |
| TranscriptProcessing.BaseAccessionPick | app/bed_generator/transcript_processing.py:188-203 | None iff no GRCh37 transcript; otherwise the one of greatest version, mapped with the base-accession warning |
| GeneratorRoutes.Captured | app/bed_generator/routes.py:76-77 | the originals are set to the current bounds and nothing else changes |
| GeneratorRoutes.CaptureAll | app/bed_generator/routes.py:74-77 | every result captures its bounds, in order; TypeError iff some result is a variant |
| GeneratorRoutes.CaptureOriginals | app/bed_generator/routes.py:74-77 | the loop returns exactly `CaptureAll` |
| GeneratorRoutes.AdjustPadding | app/bed_generator/routes.py:129-139 | in place, every reached result gets its bounds from the originals; KeyError iff a result lacks one |
| GeneratorRoutes.RepaddedBounds | app/bed_generator/routes.py:136-137 | start = original start - padding_5, end = original end + padding_3, nothing else changes |
| GeneratorRoutes.RepaddedTwice | app/bed_generator/routes.py:134-137 | adjusting twice equals adjusting once with the second paddings |
| GeneratorRoutes.RepaddedRestores | app/bed_generator/routes.py:134-137 | padding 0/0 after capture restores the captured bounds |
| GeneratorRoutes.CreateBedEntries | app/bed_generator/routes.py:319-341 | one row per result, in order, of the new file, with the current bounds moved out by the paddings |
| GeneratorRoutes.EntryOfAdjusted | app/bed_generator/routes.py:328-329 | the submission padding is added on top of the padding already applied |
| GeneratorRoutes.Summary | app/bed_generator/routes.py:343-361 | a summary has the review text and the details of the warned results |
| GeneratorRoutes.CollectWarnings | app/bed_generator/routes.py:343-361 | the loop returns exactly `Summary` |
| GeneratorRoutes.SummaryPresence | app/bed_generator/routes.py:347-361 | no summary iff no result has a warning; each detail is a warned result's |
| GeneratorRoutes.VersionSuffixSound | app/bed_generator/routes.py:367 | a found `_v(\d+)$` suffix splits the name into stem, `_v` and digits |
| GeneratorRoutes.VersionSuffixOf | app/bed_generator/routes.py:367 | every name ending in `_v` and digits has that suffix found |
| GeneratorRoutes.IncrementNumbered | app/bed_generator/routes.py:363-370 | `_vN` becomes `_v(N+1)`, also before a final newline; the stem is kept |
| GeneratorRoutes.IncrementAt | app/bed_generator/routes.py:367-370 | incrementing a name whose body has a suffix rewrites exactly its digits |
| GeneratorRoutes.IncrementNext | app/bed_generator/routes.py:367-370 | `_vN` goes to `_v(N+1)`, which is again versioned |
| GeneratorRoutes.IncrementUnnumbered | app/bed_generator/routes.py:371 | a name not ending in a digit gets `_v2` |
| GeneratorRoutes.IncrementUnversioned | app/bed_generator/routes.py:367-371 | a name without a version gets `_v2` |
| GeneratorRoutes.NormalizeAssembly | app/bed_generator/routes.py:238-240 | hg19 and GRCh37 map to GRCh37, hg38 and GRCh38 to GRCh38, anything else to UNKNOWN |
| GeneratorRoutes.NormalizeIdempotent | app/bed_generator/routes.py:238-240 | mapping twice equals mapping once |
| GeneratorRoutes.RouteLayout | app/bed_generator/routes.py:302-308 | every padded file type is written in a known layout |
| GeneratorRoutes.GeneratedFiles | app/bed_generator/routes.py:295-317 | as written, five files named `{filename}_{type}.bed` |
| GeneratorRoutes.GeneratedFilesFixed | app/bed_generator/routes.py:295-317 | five files: raw unpadded, each padded type in its layout with its own padding setting |
| GeneratorRoutes.SettingsIgnored | app/bed_generator/routes.py:311 | as written, the files are those of all-zero settings |
| GeneratorRoutes.DataPaddingDropped | app/bed_generator/routes.py:311 | a non-zero data padding setting changes the data file, yet not as written |
| Logic.DictsOf | app/bed_generator/logic.py:52 | exactly the dictionary results are kept: every kept record is a dictionary result and every dictionary result is kept |
| Logic.ProcessFormData | app/bed_generator/logic.py:22-59 | the method returns exactly the form outcome: whitespace-split identifiers, newline-split coordinates, dictionaries only |
| Logic.FormDropsVariant | app/bed_generator/logic.py:52 | a resolved rsID on the form path contributes no result |
| Logic.FormSkipsInvalid | app/bed_generator/logic.py:55-57 | an invalid coordinate line on the form path is skipped without an error |
| Logic.CoordinateListClean | app/bed_generator/logic.py:110 | every listed coordinate is non-empty and stripped; every non-blank piece is listed |
| Logic.FirstError | app/bed_generator/logic.py:111-114 | None iff every coordinate is valid; otherwise the message of an invalid one |
| Logic.CheckCoordinates | app/bed_generator/logic.py:111-114 | the loop stops at the first invalid coordinate with its message |
| Logic.FirstErrorAt | app/bed_generator/logic.py:111-114 | the first invalid coordinate gives the error |
| Logic.BulkData | app/bed_generator/logic.py:76-123 | ValueError with the first error iff some listed coordinate is invalid |
| Logic.ProcessBulkData | app/bed_generator/logic.py:76-123 | the method returns exactly `BulkData` |
| Logic.BulkDataFails | app/bed_generator/logic.py:109-114 | the bulk path raises iff some listed coordinate is invalid (the identifier lookups have run by then) |
| Logic.BulkDataOrder | app/bed_generator/logic.py:102-121 | identifier results come first, unchanged; every later result is on the locus the written parse gives for a listed coordinate |
| BulkRoute.BulkReply | app/bed_generator/routes.py:63-87 | as written, never 200 and nothing stored: 400 with the first validation message iff a listed coordinate is invalid, else 500 "An unexpected error occurred." |
| BulkRoute.BulkProcess | app/bed_generator/routes.py:63-87 | the method returns exactly `BulkReply` |
| BulkRoute.BulkReplyFixed | app/bed_generator/routes.py:63-87 | with the pair unpacked: 400 with the message iff a coordinate is invalid; 200 iff processing succeeds with dictionaries only, storing each result with its bounds captured; nothing stored otherwise |
| BulkRoute.BulkProcessFixed | app/bed_generator/routes.py:63-87 | the method returns exactly `BulkReplyFixed` |
| BulkRoute.EmptyRequestFails | app/bed_generator/routes.py:73-77 | an empty request answers 500 as written and 200 with an empty stored list once the pair is unpacked |
| Logic.ManePlusClinicalIdentifiers | app/bed_generator/logic.py:125-139 | exactly the genes of dictionary results typed exactly 'MANE PLUS CLINICAL'; empty iff none |
| Logic.GenerateBedFile | app/bed_generator/logic.py:141-168 | as written, only 'raw' succeeds; every other type raises AttributeError |
| Logic.GenerateBedFileFixed | app/bed_generator/logic.py:141-168 | a non-raw type succeeds iff there are no records or the type names a layout in any case (`exomeDepth` naming exome_depth); ValueError otherwise; the file name keeps the type as given |
| Logic.ExomeDepthDownload | app/bed_generator/logic.py:164-165 | 'exomeDepth' lowered is neither a layout nor a padding key; the corrected file is the exome_depth layout |
| Logic.GenerateBedFileLayouts | app/bed_generator/logic.py:164-166 | data, sambamba and cnv in any case get their own layout and padding |
| BedManager.PublishedNameVersioned | app/bed_manager/routes.py:106-110 | every name, once published, carries a version |
| BedManager.PreviousVersionInverse | app/bed_manager/routes.py:72-77 | a pending `_v(N+1)` file's previous version is `_vN`, whose increment is the file's name |
| BedManager.PreviousVersionOnlyPending | app/bed_manager/routes.py:72-77 | a previous version name exists iff the file is pending and versioned |
| BedManager.ComparisonBase | app/bed_manager/routes.py:215 | the base is a prefix of the name |
| BedManager.ComparisonBaseVersioned | app/bed_manager/routes.py:215 | a versioned name's base is its stem |
| BedManager.ComparisonBaseIncrement | app/bed_manager/routes.py:215 | a file's next version keeps its comparison base |
| BedManager.CopyEntries | app/bed_manager/routes.py:140-156 | every entry is copied field for field into the new file |
| BedManager.AuthoriseGuard | app/bed_manager/routes.py:86-100 | 403 for a non-authorizer first; passes iff authorizer, file found, not published, warnings acknowledged |
| BedManager.Store.Remove | app/bed_manager/routes.py:42-57 | 404 for an unknown file; authorizer or submitter deletes; anyone else gets 403 and nothing changes |
| BedManager.AuthoriseAsWritten | app/bed_manager/routes.py:84-100 | as written: 403 for a non-authorizer, 404 for an unknown file, 400 for a published one, and AttributeError for every other request, from the `warning` column the model class lacks |
| BedManager.AuthoriseNeverPublishes | app/bed_manager/routes.py:96 | every request the guards let through, which the intended route would act on, raises as written |
| BedManager.Store.Authorise | app/bed_manager/routes.py:84-167 | the intended route, with the `warning` column: a refused guard changes nothing; 'new' publishes under the versioned name; past the guards, an action `int()` rejects answers the int() error, a missing target 404, and an existing target always succeeds, creating its next version and drafting the file |
| BedManager.Store.Publish | app/bed_manager/routes.py:106-113 | the file is renamed, published and records the authorizer |
| BedManager.Store.PublishNextVersion | app/bed_manager/routes.py:128-159 | a new published file with copied entries; the pending file becomes draft |
| BedManager.Store.PreviousVersions | app/bed_manager/routes.py:70-77 | exactly the published files named with the file's previous version name; none without one |
| BedManager.Store.ComparisonCandidates | app/bed_manager/routes.py:214-219 | exactly the published files whose name starts with the file's comparison base; a published file is its own candidate |

## Left out

- Character handling is ASCII only. Regex `\d`, `str.lower`, `str.upper`, `str.strip` and `str.split` are ASCII; Unicode case folding and Unicode digits are not modelled.
- Network I/O is not modelled. `ApiClient.make_api_request` with its retry loop and sleeps, the Ensembl VEP request of `fetch_variant_info`, and PanelApp pagination in `fetch_panels_from_panelapp` are replaced by parameters that stand for the service's answer. For `fetch_variant_info` the parameter (`Records.VariantLookup`) stands for the whole function, its post-processing of the VEP answer included, so it may raise as that post-processing can (an empty `consequence_terms` list at api.py:142, say). An empty list stands for both "no answer" and "an empty answer", which the code treats alike.
- Concurrency is not modelled. The thread pools of `process_identifiers` and `process_coordinates` are a sequential fold in input order, so the model fixes one completion order.
- JSON shape details are not modelled. A JSON null and an absent key are one `None` wherever the code treats them alike. `json.dumps` of warnings and of the initial query is not modelled: a warning stays a datatype.
- Flask, the session and SQLAlchemy are not modelled. Tables are an in-memory map.
  - The `created_at` ordering that picks one comparison file in `compare_bed_files` is not modelled; `BedManager.Store.ComparisonCandidates` gives the candidate set.
  - The database exception and rollback paths of `remove_bed_file` and `authorise_bed_file` are not modelled.
  - The `int(selected_file_id)` lookup of `compare_bed_files` is not modelled.
- File writes are not modelled. `generate_bed_files` returns the files it would write as name and content pairs.
- The `str(e)` detail of Python's `int()` error is not modelled; only its fixed prefix, "invalid literal for int() with base 10", is.
- Unpacking errors in `fetch_coordinate_info` carry one fixed message, "too many values to unpack".
- `create_bed_entries` assumes the keys it indexes are present. The KeyError of a result missing `exon_id`, `transcript_biotype` and the like is not modelled: those fields are read with their defaults.
- The `int()` of the request's `padding_5`/`padding_3` in `adjust_padding` is taken as already done: the paddings are integers.
- `process_tark_data` and `adjust_padding` change the caller's dictionaries in place. `Utils.ProcessTarkData` returns the trimmed record (or its exception) instead, so aliasing of the same dictionary elsewhere is not captured. `GeneratorRoutes.AdjustPadding` keeps the in-place update on an array.
- The dictionaries `select_transcripts` mutates (`selected['warning']`, `pop('mane_transcript_type')`) are modelled as returned copies. The aliasing of that mutation into the caller's response list is not captured.
- transcript_processing.py cannot be imported, because line 13 imports `standardize_result`, which utils.py does not define. It is modelled anyway, as the text of its functions describes them.
- app/bed_generator/routes.py cannot be imported either: line 33 imports `update_settings` and `populate_form_with_settings` from logic.py, which defines neither. Its functions modelled here (`bulk_process`, `adjust_padding`, `generate_bed_files`, `create_bed_entries`, `collect_warnings`, `increment_version_number`) are modelled as their text describes them, as if the import succeeded.
- `get_mane_plus_clinical_identifiers` defaults the gene to 'Unknown' when the key is absent. In the model every result dictionary has a gene, so the default never applies.
- Debug prints and logging are not modelled. The one print that matters is `results[-1]` at transcript_processing.py:159, which is modelled as an IndexError.
- Parts of the wider repository are not part of this model: sensecheck.py, test.py, the panel and gene JSON storage in utils.py, the settings page, the authentication routes and `models.py` beyond `Settings.to_dict`.
- BedGenerator.CreateRawBed: its own contract states only the empty case; the line-by-line layout is stated by `BedGenerator.CreateRawBedLines` and `BedGenerator.RawLineLayout`, for records whose text fields contain no tab or newline.
- BedGenerator.CreateBedLines: stated for records whose text fields contain no tab or newline, since a tab or newline inside a field makes the output ambiguous to read back.
- ApiCoordinates.FeatureEntry: a JSON null `external_name` is read as absent, giving 'unknown_gene'; the code gives the gene None, which then counts as a named gene. The record's gene is a string in the model, so a None gene is not represented.
- ApiCoordinates.KnownEntries: a feature whose `external_name` is JSON null is counted as unnamed, as `FeatureEntry` reads it; the code counts it as named.
- ApiCoordinates.UnknownEntries: as for `KnownEntries`, a null `external_name` lands in the unnamed list.
- ApiCoordinates.CoordinateRecordsPriority: a feature whose `external_name` is null counts as unnamed, so the priority is stated for the model's reading of null.
- ApiSelection.ExonRecords: a JSON null `biotype` or `mane_transcript` becomes the empty text, the default for an absent key; the code stores None.
- TranscriptProcessing.ExonRecords: a JSON null `biotype`, or on GRCh38 a null `mane_transcript` or `mane_transcript_type`, becomes the empty text, the default for an absent key; the code stores None.
- TranscriptProcessing.Grch38ManeSelectPick: `int(x.get('stable_id_version', 0))` reads an absent version as 0 and raises TypeError only for a JSON null; the model has no absent version, so both raise.
- TranscriptProcessing.BaseAccessionPick: as for `Grch38ManeSelectPick`, an absent version raises in the model where the code reads it as 0.
- GeneratorRoutes.AdjustPadding: a result whose `original_loc_start` or `original_loc_end` is JSON null raises TypeError in `int(None)`; the model does not tell null from absent and answers KeyError for both.
- BedGenerator.FormatBedLine: a JSON null `loc_strand` makes `None > 0` raise TypeError in the sambamba layout; the model reads a null strand as absent, that is as 1.
- BedManager.Store.Authorise: the model assumes the `warning` column on `bed_file` and `bed_entry` that app/models.py:33-65 lacks, and so models the evidently intended route. As written, routes.py:96 raises AttributeError for every request past the 403, 404 and already-published checks; `BedManager.AuthoriseAsWritten` models that, and the row under "## Findings" gives both halves. The same applies to `BedManager.Store.PublishNextVersion` and `BedManager.CopyEntries`, whose copy of `entry.warning` (routes.py:154) is never reached as written.
- BedManager.Store.PreviousVersions: the route takes `.first()` of the query (routes.py:77), one file in database order; the model gives the whole set of candidates, and which of them is shown is not modelled.
- BedManager.Store.ComparisonCandidates: the prefix test is exact. SQLAlchemy's `startswith` is a LIKE pattern in which `_` and `%` in the base match any character, so for a base containing `_` the code may find more published files than the model lists.
- TranscriptProcessing.SelectTranscripts: its own contract states the shape of the result; which transcript is chosen is stated case by case by `TranscriptProcessing.VersionSpecified`, `TranscriptProcessing.AgreesOnGrch38`, `TranscriptProcessing.Grch37Anchored` and `TranscriptProcessing.UnversionedFallback`.
- TranscriptProcessing.SelectUnversioned: its own contract states the shape of the result; the choice is stated by `TranscriptProcessing.Grch37Anchored` and `TranscriptProcessing.UnversionedFallback`, and for GRCh38 with MANE transcripts by `TranscriptProcessing.AgreesOnGrch38` with `ApiSelection.Grch38ManePreferred`.

## Findings

| source | as written | input that shows it | evidently intended | confidence | as-written member | corrected member |
|---|---|---|---|---|---|---|
| app/bed_generator/api.py:358-359 | `chrom.lstrip('chr')` removes only lowercase c, h and r characters, though the validator accepts `chr` in any case | `CHR1:100-200` is accepted, and the region becomes `CHR1` | the validator's case-insensitive `chr` prefix is dropped, leaving the chromosome `1` | not executed | ApiCoordinates.UppercaseChrKept | ApiCoordinates.ParseCoordinateFixed |
| app/bed_generator/api.py:214 | `t['stable_id_version'] == version` compares TARK's version, a JSON number, with the requested version text | `NM_000059.3` against transcripts whose versions are the number 3: no match, so the requested version is ignored | compare `str(version)`, as transcript_processing.py:24 does | not executed | ApiSelection.NumericVersionIgnored | ApiSelection.NumericVersionSelected |
| app/bed_generator/utils.py:131-140 | `max`/`min` against a UTR bound that is None | a transcript with no 5' UTR gives `five_prime_utr: {'start': None, 'end': None}` (api.py:299-302); excluding the 5' UTR raises TypeError. `process_identifiers` catches it: the records appended before it stay, the rest of the identifier's records are dropped, and the identifier is not listed as lacking data (`Utils.IdentifierLost`: nothing at all when it is the first record) | a missing UTR bound trims nothing | not executed | Utils.MissingUtrRaises | Utils.TrimmedFixed |
| app/bed_generator/logic.py:164-165 | calls `BedGenerator.create_formatted_bed`, which does not exist; `'exomeDepth'.lower()` is neither a layout nor a settings key | `generate_bed_file('data', ...)` raises AttributeError; `'exomedepth'` would give no layout and no padding | dispatch to `create_bed` with the type's layout and its `{type}_padding` setting; latent while routes.py:33's import fails, since `download_bed` (routes.py:389) is its only caller | not executed | Logic.GenerateBedFile | Logic.GenerateBedFileFixed |
| app/bed_generator/routes.py:311 | `settings.get('padding', {})` reads a key that `Settings.to_dict` (app/models.py:83-89) never has | a `data_padding` setting of 10: the data file is still written unpadded | each padded file uses its own padding setting; latent while routes.py:33's import fails | not executed | GeneratorRoutes.DataPaddingDropped | GeneratorRoutes.GeneratedFilesFixed |
| app/bed_generator/routes.py:73 | `results = process_bulk_data(data)` binds the pair (results, identifiers without data) | a request with no identifiers and no coordinates: the loop's first item is the results list, `result['loc_start']` raises TypeError, and the reply is 500 | unpack the pair and capture the bounds of each result; latent while routes.py:33's import fails | not executed | BulkRoute.EmptyRequestFails | BulkRoute.BulkReplyFixed |
| app/bed_manager/routes.py:96 | `bed_file.warning` reads a column that `BedFile` (app/models.py:33-48) does not declare; `BedEntry` (app/models.py:49-65) has none either, read at routes.py:154 | any pending file authorised by an authorizer: AttributeError is raised before the `try` at routes.py:102, the request fails with 500, and nothing is published | a nullable `warning` text column on `bed_file` and `bed_entry`, so that unacknowledged warnings refuse and every other request publishes or creates the next version | not executed | BedManager.AuthoriseNeverPublishes | BedManager.Store.Authorise |

=== FILE: api_coordinates.dfy ===
/** The coordinate half of app/bed_generator/api.py: choosing the Ensembl
    server, parsing a validated `chromosome:start-end`, turning the genes an
    overlap query returns into result records, and the PanelApp confidence
    filter. The HTTP requests themselves are parameters. */
module ApiCoordinates {
  import opened Wrappers
  import opened Strings
  import opened Records
  import Validators

  /** The characters `lstrip('chr')` removes. */
  const ChrLetters: set<char> := {'c', 'h', 'r'}

  const EnsemblGrch38Url := "https://rest.ensembl.org"
  const EnsemblGrch37Url := "https://grch37.rest.ensembl.org"

  /** `get_ensembl_url`: the GRCh38 server for exactly 'GRCh38'. */
  function EnsemblUrl(assembly: string): (url: string)
    ensures url == EnsemblGrch38Url <==> assembly == "GRCh38"
    ensures url == EnsemblGrch37Url <==> assembly != "GRCh38"
  {
    if assembly == "GRCh38" then EnsemblGrch38Url else EnsemblGrch37Url
  }

  /** `validate_coordinates` of api.py, a copy of the one in validators.py. */
  function ValidateCoordinates(coordinates: string): (error: Option<string>)
    ensures error == Validators.ValidateCoordinates(coordinates)
  {
    match Validators.MatchCoordinate(coordinates)
    case None => Some(Validators.FormatError)
    case Some(m) =>
      if DigitsValue(m.start) > DigitsValue(m.end) then Some(Validators.OrderError) else None
  }

  /** A parsed coordinate: chromosome (without `chr`), start and end. */
  datatype Locus = Locus(chrom: string, start: int, end: int)

  /** The text before ':' of a match: the `chr` as written and the
      chromosome. */
  lemma HeadFree(m: Validators.CoordMatch)
    requires Validators.WellFormed(m)
    ensures Free(m.prefix + m.chrom, Validators.Delimiters)
  {
    forall i | 0 <= i < |m.prefix| ensures m.prefix[i] !in Validators.Delimiters {
      assert LowerChar(m.prefix[i]) in ChrLetters;
    }
    FreeConcat(m.prefix, m.chrom, Validators.Delimiters);
  }

  /** Splitting a matched coordinate on ':' and its second half on '-'
      gives back the groups of the match (the last one followed by the
      newline `$` lets through, if any). */
  lemma SplitRendered(m: Validators.CoordMatch, tail: string)
    requires Validators.WellFormed(m) && (tail == "" || tail == "\n")
    ensures Split(Validators.Render(m) + tail, Validators.Colon) == [m.prefix + m.chrom, m.start + "-" + (m.end + tail)]
    ensures Split(m.start + "-" + (m.end + tail), Validators.Dash) == [m.start, m.end + tail]
  {
    var seps := Validators.Delimiters;
    Validators.IsNumberFree(m.start, seps);
    Validators.IsNumberFree(m.end, seps);
    assert Free(tail, seps);
    FreeConcat(m.end, tail, seps);
    HeadFree(m);
    var second := m.start + "-" + (m.end + tail);
    assert Free("-", Validators.Colon);
    FreeConcat(m.start, "-", Validators.Colon);
    FreeConcat(m.start + "-", m.end + tail, Validators.Colon);
    assert Validators.Render(m) + tail == (m.prefix + m.chrom) + [':'] + second;
    SplitAt(m.prefix + m.chrom, second, ':', Validators.Colon);
    SplitFree(second, Validators.Colon);
    assert second == m.start + ['-'] + (m.end + tail);
    SplitAt(m.start, m.end + tail, '-', Validators.Dash);
    SplitFree(m.end + tail, Validators.Dash);
  }

  /** Lines 353-360 of `fetch_coordinate_info`, as written: a validation
      error becomes a ValueError; otherwise the coordinate is taken apart by
      `SplitCoordinate`. */
  function ParseCoordinate(coord: string): (r: Result<Locus, Fault>)
    ensures ValidateCoordinates(coord).Some? ==> r == Failure(ValueError(ValidateCoordinates(coord).value))
    ensures ValidateCoordinates(coord).None? ==> r.Success? && r.value.start <= r.value.end
  {
    match ValidateCoordinates(coord)
    case Some(error) => Failure(ValueError(error))
    case None =>
      var m := Validators.MatchCoordinate(coord).value;
      Validators.MatchSound(coord);
      assert coord == Validators.Render(m) + coord[|RegexBody(coord)|..];
      SplitRenderedLocus(m, coord[|RegexBody(coord)|..]);
      SplitCoordinate(coord)
  }

  /** Lines 358-360: the chromosome is the text before ':' with every
      leading lowercase `c`, `h` or `r` removed (`lstrip('chr')`), and start
      and end are the integers around '-'; unpacking the wrong number of
      pieces, or `int()` of a non-number, raises ValueError. */
  function SplitCoordinate(coord: string): (r: Result<Locus, Fault>)
    ensures r.Success? ==> (|Split(coord, Validators.Colon)| == 2
      && r.value.chrom == LStripChars(Split(coord, Validators.Colon)[0], ChrLetters))
  {
    var parts := Split(coord, Validators.Colon);
    if |parts| != 2 then Failure(ValueError("too many values to unpack"))
    else
      var chrom := LStripChars(parts[0], ChrLetters);
      var bounds := Split(parts[1], Validators.Dash);
      if |bounds| != 2 then Failure(ValueError("too many values to unpack"))
      else
        match (PyInt(bounds[0]), PyInt(bounds[1]))
        case (Some(start), Some(end)) => Success(Locus(chrom, start, end))
        case _ => Failure(ValueError(IntLiteralError))
  }

  /** On a valid coordinate the parse succeeds, with the `lstrip` of the
      text before ':' and the two numbers of the match, start <= end. */
  lemma ParseCoordinateValid(coord: string)
    requires ValidateCoordinates(coord).None?
    ensures var m := Validators.MatchCoordinate(coord).value;
      ParseCoordinate(coord) == Success(Locus(LStripChars(m.prefix + m.chrom, ChrLetters), DigitsValue(m.start), DigitsValue(m.end)))
      && DigitsValue(m.start) <= DigitsValue(m.end)
  {
    var m := Validators.MatchCoordinate(coord).value;
    Validators.MatchSound(coord);
    var tail := coord[|RegexBody(coord)|..];
    assert coord == Validators.Render(m) + tail;
    SplitRenderedLocus(m, tail);
  }

  lemma SplitRenderedLocus(m: Validators.CoordMatch, tail: string)
    requires Validators.WellFormed(m) && (tail == "" || tail == "\n")
    ensures SplitCoordinate(Validators.Render(m) + tail)
      == Success(Locus(LStripChars(m.prefix + m.chrom, ChrLetters), DigitsValue(m.start), DigitsValue(m.end)))
  {
    SplitRendered(m, tail);
    var parts := Split(Validators.Render(m) + tail, Validators.Colon);
    var bounds := Split(parts[1], Validators.Dash);
    assert bounds == [m.start, m.end + tail];
    PyIntDigits(m.start, "");
    assert m.start + "" == m.start;
    assert PyInt(bounds[0]) == Some(DigitsValue(m.start) as int);
    PyIntDigits(m.end, tail);
    assert PyInt(bounds[1]) == Some(DigitsValue(m.end) as int);
  }

  /** The defect of the as-written parse: a coordinate whose `chr` starts
      with a capital (`CHR1:100-200`, `Chr1:100-200`) passes the
      case-insensitive validator, but `lstrip('chr')` only removes lowercase
      letters, so the whole `CHR1` is sent to Ensembl as the region, which is
      not a chromosome name. */
  lemma UppercaseChrKept(m: Validators.CoordMatch)
    requires Validators.WellFormed(m) && DigitsValue(m.start) <= DigitsValue(m.end)
    requires m.prefix != "" && m.prefix[0] !in ChrLetters
    ensures ValidateCoordinates(Validators.Render(m)).None?
    ensures ParseCoordinate(Validators.Render(m)) == Success(Locus(m.prefix + m.chrom, DigitsValue(m.start), DigitsValue(m.end)))
    ensures !Validators.IsChromosome(m.prefix + m.chrom)
  {
    Validators.ValidateWellFormed(m);
    Validators.MatchComplete(m);
    ParseCoordinateValid(Validators.Render(m));
    var head := m.prefix + m.chrom;
    assert head[0] == m.prefix[0];
  }

  /** The parse as intended: the chromosome is the match's chromosome group,
      whatever the case of the `chr` written before it. */
  function ParseCoordinateFixed(coord: string): (r: Result<Locus, Fault>)
    ensures r.Failure? <==> ValidateCoordinates(coord).Some?
    ensures r.Failure? ==> r.error == ValueError(ValidateCoordinates(coord).value)
    ensures r.Success? ==> Validators.IsChromosome(r.value.chrom) && r.value.start <= r.value.end
  {
    match ValidateCoordinates(coord)
    case Some(error) => Failure(ValueError(error))
    case None =>
      var m := Validators.MatchCoordinate(coord).value;
      Validators.MatchSound(coord);
      Success(Locus(m.chrom, DigitsValue(m.start), DigitsValue(m.end)))
  }

  /** The fixed parse strips `chr` in every case: the chromosome it gives
      for `<chr in any case>` + c + `:s-e` is c, with the numbers s and e. */
  lemma ParseCoordinateFixedStrips(m: Validators.CoordMatch)
    requires Validators.WellFormed(m) && DigitsValue(m.start) <= DigitsValue(m.end)
    ensures ParseCoordinateFixed(Validators.Render(m)) == Success(Locus(m.chrom, DigitsValue(m.start), DigitsValue(m.end)))
  {
    Validators.MatchComplete(m);
  }

  /** `lstrip('chr')` removes a lowercase `chr` before a chromosome, and
      leaves a bare chromosome alone. */
  lemma LStripChr(chrom: string)
    requires Validators.IsChromosome(chrom)
    ensures LStripChars(chrom, ChrLetters) == chrom
    ensures LStripChars("chr" + chrom, ChrLetters) == chrom
  {
    assert chrom[0] !in ChrLetters;
    var s := "chr" + chrom;
    assert s[0] in ChrLetters && s[1..] == "hr" + chrom;
    var t := "hr" + chrom;
    assert t[0] in ChrLetters && t[1..] == "r" + chrom;
    var u := "r" + chrom;
    assert u[0] in ChrLetters && u[1..] == chrom;
    assert LStripChars(u, ChrLetters) == chrom;
    assert LStripChars(t, ChrLetters) == chrom;
  }

  /** The fixed parse agrees with the written one wherever the written one
      is right: a lowercase `chr` or none at all. */
  lemma ParseCoordinateFixedAgrees(coord: string)
    requires ValidateCoordinates(coord).None?
    requires Validators.MatchCoordinate(coord).value.prefix in {"", "chr"}
    ensures ParseCoordinateFixed(coord) == ParseCoordinate(coord)
  {
    var m := Validators.MatchCoordinate(coord).value;
    Validators.MatchSound(coord);
    ParseCoordinateValid(coord);
    LStripChr(m.chrom);
    if m.prefix == "" {
      assert m.prefix + m.chrom == m.chrom;
    }
  }

  // ---------------------------------------------------------------------
  // Overlap features -> result records
  // ---------------------------------------------------------------------

  /** A gene feature of an Ensembl overlap response; `None` where the key
      is absent. */
  datatype Feature = Feature(id: Option<string>, externalName: Option<string>, biotype: Option<string>, strand: Option<int>)

  const UnknownGene := "unknown_gene"

  /** The record built for one feature, before any alert. */
  function FeatureEntry(f: Feature, chrom: string, start: int, end: int): (e: Interval)
    ensures e.locRegion == chrom && e.locStart == start && e.locEnd == end
    ensures e.gene == f.externalName.GetOr(UnknownGene) && e.alert == Some("")
  {
    Interval(
      locRegion := chrom, locStart := start, locEnd := end,
      accession := f.id.GetOr("unknown_id"),
      gene := f.externalName.GetOr(UnknownGene),
      entrezId := Some(f.id.GetOr("unknown_id")),
      biotype := Some(f.biotype.GetOr("unknown_biotype")),
      strand := Some(SInt(f.strand.GetOr(1))),
      alert := Some(""),
      isGenomicCoordinate := true)
  }

  predicate IsKnown(f: Feature) { f.externalName.GetOr(UnknownGene) != UnknownGene }

  /** A record of the queried region with no alert yet. */
  predicate FreshAt(e: Interval, chrom: string, start: int, end: int) {
    e.locRegion == chrom && e.locStart == start && e.locEnd == end && e.alert == Some("") && e.isGenomicCoordinate
  }

  /** The records of the features with a gene name, in response order. */
  function KnownEntries(data: seq<Feature>, chrom: string, start: int, end: int): (es: seq<Interval>)
    ensures |es| <= |data|
    ensures forall k | 0 <= k < |es| :: es[k].gene != UnknownGene && FreshAt(es[k], chrom, start, end)
    decreases |data|
  {
    if |data| == 0 then []
    else
      var last := data[|data| - 1];
      KnownEntries(data[..|data| - 1], chrom, start, end) + (if IsKnown(last) then [FeatureEntry(last, chrom, start, end)] else [])
  }

  /** The records of the features without one, in response order. */
  function UnknownEntries(data: seq<Feature>, chrom: string, start: int, end: int): (es: seq<Interval>)
    ensures |es| <= |data|
    ensures forall k | 0 <= k < |es| :: es[k].gene == UnknownGene && FreshAt(es[k], chrom, start, end)
    decreases |data|
  {
    if |data| == 0 then []
    else
      var last := data[|data| - 1];
      UnknownEntries(data[..|data| - 1], chrom, start, end) + (if IsKnown(last) then [] else [FeatureEntry(last, chrom, start, end)])
  }

  function WithAlert(es: seq<Interval>, alert: string): (r: seq<Interval>)
    ensures |r| == |es|
    ensures forall k | 0 <= k < |es| :: r[k] == es[k].(alert := Some(alert))
  {
    seq(|es|, k requires 0 <= k < |es| => es[k].(alert := Some(alert)))
  }

  function MultipleGenesAlert(coord: string): string { "Coordinate " + coord + " overlaps multiple genes." }

  function MultipleRegionsAlert(coord: string): string {
    "Coordinate " + coord + " overlaps multiple uncharacterised genomic regions with the VEP API."
  }

  function NoGenesAlert(coord: string): string { "No genes found overlapping coordinate " + coord + "." }

  /** The placeholder returned when no feature overlaps. */
  function NoGenesRecord(chrom: string, start: int, end: int, coord: string): Interval {
    Interval(
      locRegion := chrom, locStart := start, locEnd := end,
      accession := "none", gene := "none", entrezId := Some("none"),
      biotype := Some("none"), strand := Some(SText("none")),
      alert := Some(NoGenesAlert(coord)))
  }

  /** What `process_coordinate_data` returns. */
  function CoordinateRecords(data: seq<Feature>, chrom: string, start: int, end: int, coord: string): seq<Interval> {
    var valid := KnownEntries(data, chrom, start, end);
    var unknown := UnknownEntries(data, chrom, start, end);
    if |valid| > 0 then
      if |valid| > 1 then WithAlert(valid, MultipleGenesAlert(coord)) else valid
    else if |unknown| > 0 then
      if |unknown| > 1 then WithAlert(unknown, MultipleRegionsAlert(coord)) else unknown
    else [NoGenesRecord(chrom, start, end, coord)]
  }

  /** `process_coordinate_data`: sorts the features into known and unknown
      genes, then marks every record of the chosen group when there is more
      than one. */
  method ProcessCoordinateData(data: seq<Feature>, chrom: string, start: int, end: int, coord: string)
    returns (records: seq<Interval>)
    ensures records == CoordinateRecords(data, chrom, start, end, coord)
  {
    var valid, unknown := SortFeatures(data, chrom, start, end);
    if |valid| > 0 {
      if |valid| > 1 {
        valid := MarkAll(valid, MultipleGenesAlert(coord));
      }
      records := valid;
    } else if |unknown| > 0 {
      if |unknown| > 1 {
        unknown := MarkAll(unknown, MultipleRegionsAlert(coord));
      }
      records := unknown;
    } else {
      records := [NoGenesRecord(chrom, start, end, coord)];
    }
  }

  /** The loop of `process_coordinate_data` that sorts the features into
      known and unknown genes. */
  method SortFeatures(data: seq<Feature>, chrom: string, start: int, end: int)
    returns (valid: seq<Interval>, unknown: seq<Interval>)
    ensures valid == KnownEntries(data, chrom, start, end)
    ensures unknown == UnknownEntries(data, chrom, start, end)
  {
    valid := [];
    unknown := [];
    var i := 0;
    while i < |data|
      invariant 0 <= i <= |data|
      invariant valid == KnownEntries(data[..i], chrom, start, end)
      invariant unknown == UnknownEntries(data[..i], chrom, start, end)
    {
      var entry := FeatureEntry(data[i], chrom, start, end);
      EntriesStep(data, i, chrom, start, end);
      if entry.gene != UnknownGene {
        valid := valid + [entry];
      } else {
        unknown := unknown + [entry];
      }
      i := i + 1;
    }
    assert data[..i] == data;
  }

  /** One more feature adds its record to exactly one of the two groups. */
  lemma EntriesStep(data: seq<Feature>, i: nat, chrom: string, start: int, end: int)
    requires i < |data|
    ensures var e := FeatureEntry(data[i], chrom, start, end);
      var known := KnownEntries(data[..i + 1], chrom, start, end);
      var unknown := UnknownEntries(data[..i + 1], chrom, start, end);
      (IsKnown(data[i]) ==>
         (known == KnownEntries(data[..i], chrom, start, end) + [e]
          && unknown == UnknownEntries(data[..i], chrom, start, end)))
      && (!IsKnown(data[i]) ==>
         (known == KnownEntries(data[..i], chrom, start, end)
          && unknown == UnknownEntries(data[..i], chrom, start, end) + [e]))
  {
    assert data[..i + 1][..i] == data[..i];
    var known := KnownEntries(data[..i], chrom, start, end);
    var unknown := UnknownEntries(data[..i], chrom, start, end);
    assert known + [] == known;
    assert unknown + [] == unknown;
  }

  /** The `for feature in ...: feature['alert'] = ...` loop. */
  method MarkAll(es: seq<Interval>, alert: string) returns (r: seq<Interval>)
    ensures r == WithAlert(es, alert)
  {
    r := es;
    var k := 0;
    while k < |r|
      invariant 0 <= k <= |r| && |r| == |es|
      invariant forall j | 0 <= j < k :: r[j] == es[j].(alert := Some(alert))
      invariant forall j | k <= j < |r| :: r[j] == es[j]
    {
      r := r[k := r[k].(alert := Some(alert))];
      k := k + 1;
    }
  }

  lemma KnownEntriesEmpty(data: seq<Feature>, chrom: string, start: int, end: int)
    ensures |KnownEntries(data, chrom, start, end)| == 0 <==> forall k | 0 <= k < |data| :: !IsKnown(data[k])
    decreases |data|
  {
    if |data| > 0 {
      KnownEntriesEmpty(data[..|data| - 1], chrom, start, end);
      assert forall k | 0 <= k < |data| - 1 :: data[..|data| - 1][k] == data[k];
    }
  }

  lemma {:induction false} EntriesCount(data: seq<Feature>, chrom: string, start: int, end: int)
    ensures |KnownEntries(data, chrom, start, end)| + |UnknownEntries(data, chrom, start, end)| == |data|
    decreases |data|
  {
    if |data| > 0 {
      EntriesCount(data[..|data| - 1], chrom, start, end);
    }
  }

  /** Every entry is the record of a feature of the response. */
  lemma {:induction false} EntriesFromData(data: seq<Feature>, chrom: string, start: int, end: int)
    ensures forall e | e in KnownEntries(data, chrom, start, end) + UnknownEntries(data, chrom, start, end) ::
      exists k | 0 <= k < |data| :: e == FeatureEntry(data[k], chrom, start, end)
    decreases |data|
  {
    if |data| > 0 {
      var init := data[..|data| - 1];
      var last := FeatureEntry(data[|data| - 1], chrom, start, end);
      var before := KnownEntries(init, chrom, start, end) + UnknownEntries(init, chrom, start, end);
      EntriesFromData(init, chrom, start, end);
      forall e | e in KnownEntries(data, chrom, start, end) + UnknownEntries(data, chrom, start, end)
        ensures exists k | 0 <= k < |data| :: e == FeatureEntry(data[k], chrom, start, end)
      {
        if e in before {
          var k :| 0 <= k < |init| && e == FeatureEntry(init[k], chrom, start, end);
          assert data[k] == init[k];
        } else {
          assert e == last;
        }
      }
    }
  }

  /** The records of a coordinate: at least one, all of the queried region;
      the placeholder exactly when nothing overlaps, otherwise no more
      records than features, all marked as genomic coordinates. */
  lemma CoordinateRecordsRegion(data: seq<Feature>, chrom: string, start: int, end: int, coord: string)
    ensures var rs := CoordinateRecords(data, chrom, start, end, coord);
      |rs| >= 1
      && (forall k | 0 <= k < |rs| :: rs[k].locRegion == chrom && rs[k].locStart == start && rs[k].locEnd == end)
      && (|data| == 0 <==> rs == [NoGenesRecord(chrom, start, end, coord)])
      && (|data| > 0 ==> |rs| <= |data| && forall k | 0 <= k < |rs| :: rs[k].isGenomicCoordinate)
  {
    EntriesCount(data, chrom, start, end);
    var valid := KnownEntries(data, chrom, start, end);
    var unknown := UnknownEntries(data, chrom, start, end);
    var rs := CoordinateRecords(data, chrom, start, end, coord);
    if |valid| > 0 {
      if |valid| > 1 {
        assert rs == WithAlert(valid, MultipleGenesAlert(coord));
      } else {
        assert rs == valid;
      }
      assert rs[0].isGenomicCoordinate;
    } else if |unknown| > 0 {
      if |unknown| > 1 {
        assert rs == WithAlert(unknown, MultipleRegionsAlert(coord));
      } else {
        assert rs == unknown;
      }
      assert rs[0].isGenomicCoordinate;
    } else {
      assert rs == [NoGenesRecord(chrom, start, end, coord)];
    }
  }

  /** Named genes take priority: if any feature has a gene name, only those
      features are returned; otherwise every feature is returned. */
  lemma CoordinateRecordsPriority(data: seq<Feature>, chrom: string, start: int, end: int, coord: string)
    ensures var rs := CoordinateRecords(data, chrom, start, end, coord);
      ((exists k | 0 <= k < |data| :: IsKnown(data[k])) ==> forall k | 0 <= k < |rs| :: rs[k].gene != UnknownGene)
      && ((forall k | 0 <= k < |data| :: !IsKnown(data[k])) && |data| > 0 ==>
            |rs| == |data| && forall k | 0 <= k < |rs| :: rs[k].gene == UnknownGene)
  {
    if exists k | 0 <= k < |data| :: IsKnown(data[k]) {
      KnownChosen(data, chrom, start, end, coord);
    } else if |data| > 0 {
      UnknownChosen(data, chrom, start, end, coord);
    }
  }

  lemma KnownChosen(data: seq<Feature>, chrom: string, start: int, end: int, coord: string)
    requires exists k | 0 <= k < |data| :: IsKnown(data[k])
    ensures var rs := CoordinateRecords(data, chrom, start, end, coord);
      forall k | 0 <= k < |rs| :: rs[k].gene != UnknownGene
  {
    KnownEntriesEmpty(data, chrom, start, end);
    var valid := KnownEntries(data, chrom, start, end);
    var rs := CoordinateRecords(data, chrom, start, end, coord);
    if |valid| > 1 {
      assert rs == WithAlert(valid, MultipleGenesAlert(coord));
    } else {
      assert rs == valid;
    }
  }

  lemma UnknownChosen(data: seq<Feature>, chrom: string, start: int, end: int, coord: string)
    requires |data| > 0 && forall k | 0 <= k < |data| :: !IsKnown(data[k])
    ensures var rs := CoordinateRecords(data, chrom, start, end, coord);
      |rs| == |data| && forall k | 0 <= k < |rs| :: rs[k].gene == UnknownGene
  {
    KnownEntriesEmpty(data, chrom, start, end);
    EntriesCount(data, chrom, start, end);
    assert |KnownEntries(data, chrom, start, end)| == 0;
    var unknown := UnknownEntries(data, chrom, start, end);
    var rs := CoordinateRecords(data, chrom, start, end, coord);
    if |unknown| > 1 {
      assert rs == WithAlert(unknown, MultipleRegionsAlert(coord));
    } else {
      assert rs == unknown;
    }
  }

  /** The alert: empty on a lone record, and the "multiple" message of the
      chosen group on every record when there are several. */
  lemma CoordinateRecordsAlert(data: seq<Feature>, chrom: string, start: int, end: int, coord: string)
    requires |data| > 0
    ensures var rs := CoordinateRecords(data, chrom, start, end, coord);
      forall k | 0 <= k < |rs| ::
        (rs[k].alert == Some("") <==> |rs| == 1)
        && (|rs| > 1 && rs[k].gene != UnknownGene ==> rs[k].alert == Some(MultipleGenesAlert(coord)))
        && (|rs| > 1 && rs[k].gene == UnknownGene ==> rs[k].alert == Some(MultipleRegionsAlert(coord)))
  {
    EntriesCount(data, chrom, start, end);
  }

  // ---------------------------------------------------------------------
  // fetch_coordinate_info
  // ---------------------------------------------------------------------

  /** The overlap query of `fetch_coordinate_info`. */
  function OverlapUrl(assembly: string, locus: Locus): string {
    EnsemblUrl(assembly) + "/overlap/region/human/" + locus.chrom + ":" + IntToString(locus.start) + "-" + IntToString(locus.end)
      + "?feature=gene;content-type=application/json"
  }

  /** The record returned when the overlap query gives nothing. */
  function NoResponseRecord(locus: Locus): Interval {
    Interval(
      locRegion := locus.chrom, locStart := locus.start, locEnd := locus.end,
      accession := "N/A", gene := "N/A", entrezId := Some("N/A"),
      biotype := Some("N/A"), strand := Some(SText("N/A")))
  }

  /** What `fetch_coordinate_info` returns, the Ensembl response given by
      `overlap` (an empty list standing for no or an empty response): the
      validator's message as a ValueError before any request, else the
      placeholder or the overlap records of the region the written parse
      gives (see `UppercaseChrKept`). */
  function CoordinateInfo(coord: string, assembly: string, overlap: string -> seq<Feature>): (r: Result<seq<Interval>, Fault>)
    ensures r.Failure? <==> ValidateCoordinates(coord).Some?
    ensures r.Failure? ==> r.error == ValueError(ValidateCoordinates(coord).value)
    ensures r.Success? ==> var locus := ParseCoordinate(coord).value;
      var data := overlap(OverlapUrl(assembly, locus));
      r.value == if |data| == 0 then [NoResponseRecord(locus)]
                 else CoordinateRecords(data, locus.chrom, locus.start, locus.end, coord)
  {
    match ParseCoordinate(coord)
    case Failure(e) => Failure(e)
    case Success(locus) =>
      var data := overlap(OverlapUrl(assembly, locus));
      if |data| == 0 then Success([NoResponseRecord(locus)])
      else Success(CoordinateRecords(data, locus.chrom, locus.start, locus.end, coord))
  }

  /** A record placed on a locus. */
  predicate OnLocus(rec: Interval, locus: Locus) {
    rec.locRegion == locus.chrom && rec.locStart == locus.start && rec.locEnd == locus.end
  }

  /** A valid coordinate gives at least one record, and every record lies
      on the text before ':' with leading lowercase `c`, `h`, `r` removed,
      between the two numbers of the coordinate, start <= end. That region
      is a chromosome of the grammar when `chr` was written in lowercase
      or not at all, and is not one when it was written with a capital. */
  lemma CoordinateInfoRegion(coord: string, assembly: string, overlap: string -> seq<Feature>)
    ensures var r := CoordinateInfo(coord, assembly, overlap);
      r.Success? ==> var m := Validators.MatchCoordinate(coord).value;
        var locus := Locus(LStripChars(m.prefix + m.chrom, ChrLetters), DigitsValue(m.start), DigitsValue(m.end));
        |r.value| >= 1 && (forall k | 0 <= k < |r.value| :: OnLocus(r.value[k], locus))
        && locus.start <= locus.end
        && (m.prefix in {"", "chr"} ==> Validators.IsChromosome(locus.chrom))
        && (m.prefix != "" && m.prefix[0] !in ChrLetters ==> !Validators.IsChromosome(locus.chrom))
  {
    if ValidateCoordinates(coord).None? {
      WrittenRegion(coord);
      RecordsOnLocus(coord, assembly, overlap);
    }
  }

  lemma RecordsOnLocus(coord: string, assembly: string, overlap: string -> seq<Feature>)
    requires ValidateCoordinates(coord).None?
    ensures var rs := CoordinateInfo(coord, assembly, overlap).value;
      |rs| >= 1 && forall k | 0 <= k < |rs| :: OnLocus(rs[k], ParseCoordinate(coord).value)
  {
    var locus := ParseCoordinate(coord).value;
    CoordinateRecordsRegion(overlap(OverlapUrl(assembly, locus)), locus.chrom, locus.start, locus.end, coord);
  }

  /** The locus the written parse gives for a valid coordinate. */
  lemma WrittenRegion(coord: string)
    requires ValidateCoordinates(coord).None?
    ensures var m := Validators.MatchCoordinate(coord).value;
      var locus := ParseCoordinate(coord).value;
      locus == Locus(LStripChars(m.prefix + m.chrom, ChrLetters), DigitsValue(m.start), DigitsValue(m.end))
      && locus.start <= locus.end
      && (m.prefix in {"", "chr"} ==> Validators.IsChromosome(locus.chrom))
      && (m.prefix != "" && m.prefix[0] !in ChrLetters ==> !Validators.IsChromosome(locus.chrom))
  {
    var m := Validators.MatchCoordinate(coord).value;
    ParseCoordinateValid(coord);
    Validators.MatchSound(coord);
    if m.prefix in {"", "chr"} {
      ParseCoordinateFixedAgrees(coord);
    }
    if m.prefix != "" && m.prefix[0] !in ChrLetters {
      UppercaseChrKept(m);
    }
  }

  /** `fetch_coordinate_info`. */
  method FetchCoordinateInfo(coord: string, assembly: string, overlap: string -> seq<Feature>)
    returns (r: Result<seq<Interval>, Fault>)
    ensures r == CoordinateInfo(coord, assembly, overlap)
  {
    match ParseCoordinate(coord)
    case Failure(e) => r := Failure(e);
    case Success(locus) =>
      var data := overlap(OverlapUrl(assembly, locus));
      if |data| == 0 {
        r := Success([NoResponseRecord(locus)]);
      } else {
        var records := ProcessCoordinateData(data, locus.chrom, locus.start, locus.end, coord);
        r := Success(records);
      }
  }

  /** `fetch_coordinate_info` with the fixed parse: every record lies on the
      coordinate's chromosome, whatever the case of its `chr`. */
  function CoordinateInfoFixed(coord: string, assembly: string, overlap: string -> seq<Feature>): (r: Result<seq<Interval>, Fault>)
    ensures r.Failure? <==> ValidateCoordinates(coord).Some?
    ensures r.Failure? ==> r.error == ValueError(ValidateCoordinates(coord).value)
    ensures r.Success? ==> |r.value| >= 1 && forall k | 0 <= k < |r.value| ::
      r.value[k].locRegion == ParseCoordinateFixed(coord).value.chrom
      && Validators.IsChromosome(r.value[k].locRegion) && r.value[k].locStart <= r.value[k].locEnd
  {
    match ParseCoordinateFixed(coord)
    case Failure(e) => Failure(e)
    case Success(locus) =>
      var data := overlap(OverlapUrl(assembly, locus));
      CoordinateRecordsRegion(data, locus.chrom, locus.start, locus.end, coord);
      if |data| == 0 then Success([NoResponseRecord(locus)])
      else Success(CoordinateRecords(data, locus.chrom, locus.start, locus.end, coord))
  }

  /** The two lookups agree on every coordinate the written parse reads
      right, and on every invalid one. */
  lemma CoordinateInfoFixedAgrees(coord: string, assembly: string, overlap: string -> seq<Feature>)
    ensures ValidateCoordinates(coord).Some? ==> CoordinateInfoFixed(coord, assembly, overlap) == CoordinateInfo(coord, assembly, overlap)
    ensures ValidateCoordinates(coord).None? && Validators.MatchCoordinate(coord).value.prefix in {"", "chr"} ==>
      CoordinateInfoFixed(coord, assembly, overlap) == CoordinateInfo(coord, assembly, overlap)
  {
    if ValidateCoordinates(coord).None? && Validators.MatchCoordinate(coord).value.prefix in {"", "chr"} {
      ParseCoordinateFixedAgrees(coord);
    }
  }

  // ---------------------------------------------------------------------
  // PanelApp confidence filter
  // ---------------------------------------------------------------------

  /** A gene of a PanelApp panel: its symbol and confidence level text. */
  datatype PanelGene = PanelGene(symbol: string, confidence: string)

  /** `confidence_levels` of `fetch_genes_for_panel`. */
  function ConfidenceLevels(includeAmber: bool, includeRed: bool): (levels: seq<string>)
    ensures "3" in levels
    ensures "2" in levels <==> includeAmber
    ensures "1" in levels <==> includeRed
  {
    ["3"] + (if includeAmber then ["2"] else []) + (if includeRed then ["1"] else [])
  }

  /** The genes of the panel kept by the filter, in panel order. */
  function FilterPanelGenes(genes: seq<PanelGene>, includeAmber: bool, includeRed: bool): (kept: seq<PanelGene>)
    ensures forall g | g in kept :: g in genes
    ensures forall g | g in genes ::
      g in kept <==> (g.confidence == "3" || (g.confidence == "2" && includeAmber) || (g.confidence == "1" && includeRed))
    decreases |genes|
  {
    if |genes| == 0 then []
    else
      var rest := FilterPanelGenes(genes[1..], includeAmber, includeRed);
      if genes[0].confidence in ConfidenceLevels(includeAmber, includeRed) then [genes[0]] + rest else rest
  }
}

=== FILE: api_selection.dfy ===
/** The transcript half of app/bed_generator/api.py: choosing transcripts
    from a TARK search response, turning them into one record per exon, and
    the GRCh37 fallbacks that go through GRCh38. The TARK search endpoint
    is a parameter. */
module ApiSelection {
  import opened Wrappers
  import opened Strings
  import opened Records
  import opened Lists

  // ---------------------------------------------------------------------
  // select_transcripts
  // ---------------------------------------------------------------------

  /** The RefSeq transcripts (NM or NR) of one assembly, in response order. */
  function AssemblyTranscripts(data: seq<Transcript>, assembly: string): (at: seq<Transcript>)
    ensures forall t | t in at :: t in data && t.assembly == assembly && IsRefSeq(t)
    ensures forall t | t in data && t.assembly == assembly && IsRefSeq(t) :: t in at
  {
    Filter(data, (t: Transcript) => t.assembly == assembly && IsRefSeq(t))
  }

  /** `mane_transcript_type` is MANE Plus Clinical or MANE Select. */
  predicate IsMane(t: Transcript) {
    t.maneTranscriptType == Some("MANE PLUS CLINICAL") || t.maneTranscriptType == Some("MANE SELECT")
  }

  /** The GRCh38 MANE NM transcript a GRCh37 selection is anchored on. */
  predicate IsGrch38ManeNm(t: Transcript) {
    t.assembly == "GRCh38" && IsMane(t) && StartsWith(t.stableId, "NM")
  }

  function ManeTranscripts(at: seq<Transcript>): (r: seq<Transcript>)
    ensures forall t | t in r :: t in at && IsMane(t)
    ensures forall t | t in at && IsMane(t) :: t in r
  {
    Filter(at, IsMane)
  }

  function WithStableId(at: seq<Transcript>, id: string): (r: seq<Transcript>)
    ensures forall t | t in r :: t in at && t.stableId == id
    ensures forall t | t in at && t.stableId == id :: t in r
  {
    Filter(at, (t: Transcript) => t.stableId == id)
  }

  /** `int()` of every version, in order, or the first exception raised. */
  function IntVersions(ts: seq<Transcript>): (r: Result<seq<int>, Fault>)
    ensures r.Success? ==> |r.value| == |ts| && forall k | 0 <= k < |ts| :: VersionInt(ts[k].stableIdVersion) == Success(r.value[k])
    ensures r.Failure? ==> exists k | 0 <= k < |ts| :: VersionInt(ts[k].stableIdVersion) == Failure(r.error)
    ensures r.Success? <==> forall k | 0 <= k < |ts| :: VersionInt(ts[k].stableIdVersion).Success?
    decreases |ts|
  {
    if |ts| == 0 then Success([])
    else
      match IntVersions(ts[..|ts| - 1])
      case Failure(e) => Failure(e)
      case Success(keys) =>
        match VersionInt(ts[|ts| - 1].stableIdVersion)
        case Failure(e) => Failure(e)
        case Success(n) => Success(keys + [n])
  }

  /** `max(ts, key=lambda x: int(x['stable_id_version']))`: the first
      transcript with the greatest integer version, or the exception the
      key raised. */
  function MaxByIntVersion(ts: seq<Transcript>): (r: Result<Transcript, Fault>)
    requires |ts| > 0
    ensures r.Success? <==> forall k | 0 <= k < |ts| :: VersionInt(ts[k].stableIdVersion).Success?
    ensures r.Success? ==> (r.value in ts
      && forall j | 0 <= j < |ts| :: VersionKey(ts[j].stableIdVersion) <= VersionKey(r.value.stableIdVersion))
    ensures r.Success? ==> exists k | 0 <= k < |ts| :: (r.value == ts[k]
      && forall j | 0 <= j < k :: VersionKey(ts[j].stableIdVersion) < VersionKey(r.value.stableIdVersion))
  {
    match IntVersions(ts)
    case Failure(e) => Failure(e)
    case Success(keys) =>
      var k := FirstMaxIndex(keys);
      assert forall j | 0 <= j < |ts| :: VersionKey(ts[j].stableIdVersion) == keys[j];
      Success(ts[k])
  }

  /** `max(ts, key=get_version)`, where `get_version` falls back to 0
      instead of raising. */
  function MaxByVersionKey(ts: seq<Transcript>): (t: Transcript)
    requires |ts| > 0
    ensures t in ts
    ensures forall j | 0 <= j < |ts| :: VersionKey(ts[j].stableIdVersion) <= VersionKey(t.stableIdVersion)
    ensures exists k | 0 <= k < |ts| :: (t == ts[k]
      && forall j | 0 <= j < k :: VersionKey(ts[j].stableIdVersion) < VersionKey(t.stableIdVersion))
  {
    var keys := seq(|ts|, k requires 0 <= k < |ts| => VersionKey(ts[k].stableIdVersion));
    var best := FirstMaxIndex(keys);
    assert forall j | 0 <= j < |ts| :: keys[j] == VersionKey(ts[j].stableIdVersion);
    ts[best]
  }

  const AnchorMessage := "Transcript selected based on best available GRCh38 MANE transcript match"
  const HighestVersionMessage := "No MANE transcript available. Selected highest version number - clinical review recommended"

  /** The transcript with a `transcript_selection` warning naming it. */
  function Flagged(t: Transcript, message: string): (r: Transcript)
    ensures r.warning == Some(Warning(message, AccessionOf(t), "transcript_selection"))
    ensures r.(warning := t.warning) == t
  {
    t.(warning := Some(Warning(message, AccessionOf(t), "transcript_selection")))
  }

  /** Lines 229-238: the namesake with the greatest integer version,
      flagged for review with `message`, or the exception `int()` raised. */
  function AnchoredPick(matching: seq<Transcript>, message: string): (r: Result<seq<Transcript>, Fault>)
    requires |matching| > 0
    ensures r.Failure? <==> exists j | 0 <= j < |matching| :: VersionInt(matching[j].stableIdVersion).Failure?
    ensures r.Success? ==> exists s | s in matching :: (r.value == [Flagged(s, message)]
      && forall j | 0 <= j < |matching| :: VersionKey(matching[j].stableIdVersion) <= VersionKey(s.stableIdVersion))
    ensures r.Success? ==> exists k | 0 <= k < |matching| :: (r.value == [Flagged(matching[k], message)]
      && forall j | 0 <= j < k :: VersionKey(matching[j].stableIdVersion) < VersionKey(matching[k].stableIdVersion))
  {
    match MaxByIntVersion(matching)
    case Failure(e) => Failure(e)
    case Success(t) => Success([Flagged(t, message)])
  }

  /** Lines 218-258 of `select_transcripts`, used when no version was asked
      for or none matched: GRCh38 prefers its MANE transcripts; GRCh37 takes
      the highest integer version of the GRCh37 transcript with the stable
      id of the first GRCh38 MANE NM transcript of the response; otherwise
      the transcript with the highest version is flagged for review. */
  function ChooseTranscripts(data: seq<Transcript>, assembly: string): (r: Result<seq<Transcript>, Fault>)
    ensures r.Failure? ==> assembly == "GRCh37"
    ensures r.Success? ==> (|r.value| == 0 <==> |AssemblyTranscripts(data, assembly)| == 0)
  {
    var at := AssemblyTranscripts(data, assembly);
    var mane := ManeTranscripts(at);
    var anchor := FirstIndex(data, IsGrch38ManeNm);
    var matching := if anchor.Some? then WithStableId(at, data[anchor.value].stableId) else [];
    if assembly == "GRCh38" && |mane| > 0 then Success(mane)
    else if assembly == "GRCh37" && |matching| > 0 then AnchoredPick(matching, AnchorMessage)
    else if |at| > 0 then Success([Flagged(MaxByVersionKey(at), HighestVersionMessage)])
    else Success([])
  }

  /** The transcripts of `version_transcripts` as written: `stable_id_version`
      compared with the version text as it stands, so a version TARK sends
      as a JSON number never matches. */
  function WithVersion(at: seq<Transcript>, version: string): (r: seq<Transcript>)
    ensures forall t | t in r :: t in at && t.stableIdVersion == VText(version)
    ensures forall t | t in at && t.stableIdVersion == VText(version) :: t in r
  {
    Filter(at, (t: Transcript) => t.stableIdVersion == VText(version))
  }

  /** `select_transcripts` as written (lines 197-258). */
  function SelectTranscripts(data: seq<Transcript>, assembly: string, version: Option<string>): (r: Result<seq<Transcript>, Fault>)
    ensures Truthy(version) && |WithVersion(AssemblyTranscripts(data, assembly), version.value)| > 0 ==>
      r == Success(WithVersion(AssemblyTranscripts(data, assembly), version.value))
    ensures !(Truthy(version) && |WithVersion(AssemblyTranscripts(data, assembly), version.value)| > 0) ==>
      r == ChooseTranscripts(data, assembly)
  {
    var at := AssemblyTranscripts(data, assembly);
    var vt := if Truthy(version) then WithVersion(at, version.value) else [];
    if |vt| > 0 then Success(vt) else ChooseTranscripts(data, assembly)
  }

  /** The defect: when TARK sends versions as numbers, the version the user
      typed (`NM_000059.3`) is ignored, and the result is what a query
      without a version gives (MANE, or the highest version). */
  lemma NumericVersionIgnored(data: seq<Transcript>, assembly: string, version: Option<string>)
    requires forall t | t in data :: t.stableIdVersion.VInt?
    ensures SelectTranscripts(data, assembly, version) == SelectTranscripts(data, assembly, None)
  {
    var at := AssemblyTranscripts(data, assembly);
    if Truthy(version) {
      HeadIn(WithVersion(at, version.value));
    }
  }

  /** The transcripts whose version, written as Python's `str()` writes it,
      is the requested one. */
  function WithVersionFixed(at: seq<Transcript>, version: string): (r: seq<Transcript>)
    ensures forall t | t in r :: t in at && VersionStr(t.stableIdVersion) == version
    ensures forall t | t in at && VersionStr(t.stableIdVersion) == version :: t in r
  {
    Filter(at, (t: Transcript) => VersionStr(t.stableIdVersion) == version)
  }

  /** `select_transcripts` with the version compared as text (as the older
      copy in transcript_processing.py does with `str()`). */
  function SelectTranscriptsFixed(data: seq<Transcript>, assembly: string, version: Option<string>): (r: Result<seq<Transcript>, Fault>)
    ensures Truthy(version) && |WithVersionFixed(AssemblyTranscripts(data, assembly), version.value)| > 0 ==>
      r == Success(WithVersionFixed(AssemblyTranscripts(data, assembly), version.value))
    ensures !(Truthy(version) && |WithVersionFixed(AssemblyTranscripts(data, assembly), version.value)| > 0) ==>
      r == ChooseTranscripts(data, assembly)
  {
    var at := AssemblyTranscripts(data, assembly);
    var vt := if Truthy(version) then WithVersionFixed(at, version.value) else [];
    if |vt| > 0 then Success(vt) else ChooseTranscripts(data, assembly)
  }

  lemma IntToStringInjective(m: int, n: int)
    requires IntToString(m) == IntToString(n)
    ensures m == n
  {
    IntToStringRoundTrip(m);
    IntToStringRoundTrip(n);
  }

  /** The corrected selection honours a numeric version: asking for
      version n returns exactly the assembly's RefSeq transcripts whose
      version is n, whenever there is one. */
  lemma NumericVersionSelected(data: seq<Transcript>, assembly: string, n: int)
    requires exists t | t in data :: t.assembly == assembly && IsRefSeq(t) && t.stableIdVersion == VInt(n)
    requires forall t | t in data :: t.stableIdVersion.VInt?
    ensures var r := SelectTranscriptsFixed(data, assembly, Some(IntToString(n)));
      r.Success? && |r.value| > 0
      && (forall t | t in r.value :: t in data && t.assembly == assembly && IsRefSeq(t) && t.stableIdVersion == VInt(n))
      && (forall t | t in data && t.assembly == assembly && IsRefSeq(t) && t.stableIdVersion == VInt(n) :: t in r.value)
  {
    var v := IntToString(n);
    var at := AssemblyTranscripts(data, assembly);
    var w := WithVersionFixed(at, v);
    var t :| t in data && t.assembly == assembly && IsRefSeq(t) && t.stableIdVersion == VInt(n);
    assert t in w;
    forall u | u in w ensures u.stableIdVersion == VInt(n) {
      IntToStringInjective(u.stableIdVersion.n, n);
    }
  }

  /** What any selection returns: RefSeq transcripts of the requested
      assembly taken from the response, at most a selection warning added;
      nothing exactly when the response has no such transcript. */
  lemma SelectTranscriptsFromData(data: seq<Transcript>, assembly: string, version: Option<string>)
    ensures var r := SelectTranscripts(data, assembly, version);
      r.Success? ==> ((|r.value| == 0 <==> |AssemblyTranscripts(data, assembly)| == 0)
      && forall t | t in r.value :: exists u | u in data :: u == t.(warning := u.warning) && u.assembly == assembly && IsRefSeq(u))
  {
    var at := AssemblyTranscripts(data, assembly);
    var r := SelectTranscripts(data, assembly, version);
    var w := if Truthy(version) then WithVersion(at, version.value) else [];
    if r.Success? {
      forall t | t in r.value
        ensures exists u | u in data :: u == t.(warning := u.warning) && u.assembly == assembly && IsRefSeq(u)
      {
        if |w| > 0 {
          assert t in at && t == t.(warning := t.warning);
        } else {
          ChooseFromData(data, assembly, t);
        }
      }
      if |w| > 0 {
        assert w[0] in at;
      }
    }
  }

  /** The same for the corrected selection. */
  lemma SelectTranscriptsFixedFromData(data: seq<Transcript>, assembly: string, version: Option<string>)
    ensures var r := SelectTranscriptsFixed(data, assembly, version);
      r.Success? ==> ((|r.value| == 0 <==> |AssemblyTranscripts(data, assembly)| == 0)
      && forall t | t in r.value :: exists u | u in data :: u == t.(warning := u.warning) && u.assembly == assembly && IsRefSeq(u))
  {
    var at := AssemblyTranscripts(data, assembly);
    var r := SelectTranscriptsFixed(data, assembly, version);
    var w := if Truthy(version) then WithVersionFixed(at, version.value) else [];
    if r.Success? {
      forall t | t in r.value
        ensures exists u | u in data :: u == t.(warning := u.warning) && u.assembly == assembly && IsRefSeq(u)
      {
        if |w| > 0 {
          assert t in at && t == t.(warning := t.warning);
        } else {
          ChooseFromData(data, assembly, t);
        }
      }
      if |w| > 0 {
        assert w[0] in at;
      }
    }
  }

  lemma ChooseFromData(data: seq<Transcript>, assembly: string, t: Transcript)
    requires ChooseTranscripts(data, assembly).Success? && t in ChooseTranscripts(data, assembly).value
    ensures exists u | u in data :: u == t.(warning := u.warning) && u.assembly == assembly && IsRefSeq(u)
  {
    var at := AssemblyTranscripts(data, assembly);
    var mane := ManeTranscripts(at);
    var anchor := FirstIndex(data, IsGrch38ManeNm);
    var matching := if anchor.Some? then WithStableId(at, data[anchor.value].stableId) else [];
    if assembly == "GRCh38" && |mane| > 0 {
      assert t in at && t == t.(warning := t.warning);
    } else if assembly == "GRCh37" && |matching| > 0 {
      var s := MaxByIntVersion(matching).value;
      assert s in at && s == t.(warning := s.warning);
    } else {
      var s := MaxByVersionKey(at);
      assert s in at && s == t.(warning := s.warning);
    }
  }

  /** GRCh38 prefers MANE: without a matching requested version, a GRCh38
      response with MANE RefSeq transcripts gives exactly those. */
  lemma Grch38ManePreferred(data: seq<Transcript>)
    requires exists t | t in data :: t.assembly == "GRCh38" && IsRefSeq(t) && IsMane(t)
    ensures ChooseTranscripts(data, "GRCh38") == Success(ManeTranscripts(AssemblyTranscripts(data, "GRCh38")))
  {
    var t :| t in data && t.assembly == "GRCh38" && IsRefSeq(t) && IsMane(t);
    assert t in ManeTranscripts(AssemblyTranscripts(data, "GRCh38"));
  }

  /** The GRCh37 choice anchored on GRCh38 MANE: when the first GRCh38 MANE
      NM transcript of the response has GRCh37 RefSeq namesakes, the result
      is the one of them with the greatest integer version, flagged for
      review; any version `int()` rejects makes the whole selection fail. */
  lemma Grch37Anchored(data: seq<Transcript>, k: nat, i: nat)
    requires k < |data| && IsGrch38ManeNm(data[k]) && forall j | 0 <= j < k :: !IsGrch38ManeNm(data[j])
    requires i < |data| && data[i].assembly == "GRCh37" && IsRefSeq(data[i]) && data[i].stableId == data[k].stableId
    ensures var same := WithStableId(AssemblyTranscripts(data, "GRCh37"), data[k].stableId);
      |same| > 0 && ChooseTranscripts(data, "GRCh37") == AnchoredPick(same, AnchorMessage)
  {
    var at := AssemblyTranscripts(data, "GRCh37");
    assert data[i] in at;
    var same := WithStableId(at, data[k].stableId);
    assert data[i] in same;
    AnchorFound(data, k);
    ChooseAnchored(data, k);
  }

  /** The GRCh37 branch of `ChooseTranscripts` once the anchor is known and
      has namesakes. */
  lemma ChooseAnchored(data: seq<Transcript>, k: nat)
    requires FirstIndex(data, IsGrch38ManeNm) == Some(k)
    requires |WithStableId(AssemblyTranscripts(data, "GRCh37"), data[k].stableId)| > 0
    ensures ChooseTranscripts(data, "GRCh37") == AnchoredPick(WithStableId(AssemblyTranscripts(data, "GRCh37"), data[k].stableId), AnchorMessage)
  {
    assert "GRCh37" != "GRCh38" by { assert "GRCh37"[5] != "GRCh38"[5]; }
  }

  lemma AnchorFound(data: seq<Transcript>, k: nat)
    requires k < |data| && IsGrch38ManeNm(data[k]) && forall j | 0 <= j < k :: !IsGrch38ManeNm(data[j])
    ensures FirstIndex(data, IsGrch38ManeNm) == Some(k)
  {
  }

  /** Without MANE to go by, the transcript with the highest version (0 for
      a version `int()` rejects) is returned alone, flagged for review. */
  lemma HighestVersionFallback(data: seq<Transcript>, assembly: string)
    requires |AssemblyTranscripts(data, assembly)| > 0
    requires assembly == "GRCh38" ==> forall t | t in data :: !IsMane(t)
    requires assembly == "GRCh37" ==> forall t | t in data :: !IsGrch38ManeNm(t)
    ensures var r := ChooseTranscripts(data, assembly);
      var at := AssemblyTranscripts(data, assembly);
      r.Success? && |r.value| == 1
      && exists k | 0 <= k < |at| :: (r.value[0] == Flagged(at[k], HighestVersionMessage)
           && (forall j | 0 <= j < |at| :: VersionKey(at[j].stableIdVersion) <= VersionKey(at[k].stableIdVersion))
           && (forall j | 0 <= j < k :: VersionKey(at[j].stableIdVersion) < VersionKey(at[k].stableIdVersion)))
  {
    var at := AssemblyTranscripts(data, assembly);
    if assembly == "GRCh38" {
      HeadIn(ManeTranscripts(at));
    }
    var u := MaxByVersionKey(at);
    assert u in at;
  }

  // ---------------------------------------------------------------------
  // process_transcripts
  // ---------------------------------------------------------------------

  /** `next((gene['name'] for gene in genes if gene['name']), default)`. */
  function FirstGeneName(genes: seq<Gene>, default: string): (name: string)
    ensures (forall k | 0 <= k < |genes| :: !Truthy(genes[k].name)) ==> name == default
    ensures (exists k | 0 <= k < |genes| :: Truthy(genes[k].name)) ==>
      exists k | 0 <= k < |genes| :: Truthy(genes[k].name) && name == genes[k].name.value
        && forall j | 0 <= j < k :: !Truthy(genes[j].name)
  {
    match FirstIndex(genes, (g: Gene) => Truthy(g.name))
    case None => default
    case Some(k) => genes[k].name.value
  }

  /** The record of exon `k` of a transcript (numbered from 1). */
  function ExonRecord(t: Transcript, k: nat, identifier: string): (r: Interval)
    requires k < |t.exons|
  {
    var exon := t.exons[k];
    Interval(
      locRegion := exon.locRegion, locStart := exon.locStart, locEnd := exon.locEnd,
      locStrand := Some(exon.locStrand),
      accession := AccessionOf(t),
      gene := FirstGeneName(t.genes, identifier),
      entrezId := if |t.genes| > 0 then t.genes[0].stableId else None,
      exonId := Some(exon.stableId),
      exonNumber := Some(k + 1),
      transcriptBiotype := Some(t.biotype.GetOr("")),
      maneTranscript := Some(t.maneTranscript.GetOr("")),
      maneTranscriptType := Some(t.maneTranscriptType.GetOr("")),
      warning := t.warning,
      identifier := Some(identifier),
      fivePrimeUtr := Some(UtrBounds(t.fivePrimeUtrStart, t.fivePrimeUtrEnd)),
      threePrimeUtr := Some(UtrBounds(t.threePrimeUtrStart, t.threePrimeUtrEnd)))
  }

  /** One record per exon, in exon order, numbered 1, 2, ...; each carries
      its exon's place and strand, the transcript's accession, first gene
      name (else the identifier), first gene's stable id, type fields,
      warning and UTR bounds, the UTR dictionaries always present. */
  function ExonRecords(t: Transcript, identifier: string): (rs: seq<Interval>)
    ensures |rs| == |t.exons|
    ensures forall k | 0 <= k < |rs| ::
      rs[k].exonNumber == Some(k + 1) && rs[k].exonId == Some(t.exons[k].stableId)
      && rs[k].locRegion == t.exons[k].locRegion && rs[k].locStart == t.exons[k].locStart
      && rs[k].locEnd == t.exons[k].locEnd && rs[k].locStrand == Some(t.exons[k].locStrand)
      && rs[k].accession == AccessionOf(t)
      && rs[k].warning == t.warning && rs[k].identifier == Some(identifier)
    ensures forall k | 0 <= k < |rs| ::
      rs[k].gene == FirstGeneName(t.genes, identifier)
      && rs[k].entrezId == (if |t.genes| > 0 then t.genes[0].stableId else None)
      && rs[k].transcriptBiotype == Some(t.biotype.GetOr(""))
      && rs[k].maneTranscript == Some(t.maneTranscript.GetOr(""))
      && rs[k].maneTranscriptType == Some(t.maneTranscriptType.GetOr(""))
      && rs[k].fivePrimeUtr == Some(UtrBounds(t.fivePrimeUtrStart, t.fivePrimeUtrEnd))
      && rs[k].threePrimeUtr == Some(UtrBounds(t.threePrimeUtrStart, t.threePrimeUtrEnd))
  {
    seq(|t.exons|, k requires 0 <= k < |t.exons| => ExonRecord(t, k, identifier))
  }

  /** What `process_transcripts` returns: the exon records of every
      transcript that is present, in order. */
  function TranscriptRecords(ts: seq<Option<Transcript>>, identifier: string): seq<Interval>
    decreases |ts|
  {
    if |ts| == 0 then []
    else
      TranscriptRecords(ts[..|ts| - 1], identifier)
        + match ts[|ts| - 1] case None => [] case Some(t) => ExonRecords(t, identifier)
  }

  /** `process_transcripts`. */
  method ProcessTranscripts(ts: seq<Option<Transcript>>, identifier: string) returns (results: seq<Interval>)
    ensures results == TranscriptRecords(ts, identifier)
  {
    results := [];
    var i := 0;
    while i < |ts|
      invariant 0 <= i <= |ts|
      invariant results == TranscriptRecords(ts[..i], identifier)
    {
      assert ts[..i + 1][..i] == ts[..i];
      match ts[i] {
        case None =>
        case Some(t) =>
          var index := 0;
          ghost var before := results;
          while index < |t.exons|
            invariant 0 <= index <= |t.exons|
            invariant results == before + ExonRecords(t, identifier)[..index]
          {
            assert ExonRecords(t, identifier)[..index + 1] == ExonRecords(t, identifier)[..index] + [ExonRecord(t, index, identifier)];
            results := results + [ExonRecord(t, index, identifier)];
            index := index + 1;
          }
          assert ExonRecords(t, identifier)[..index] == ExonRecords(t, identifier);
      }
      i := i + 1;
    }
    assert ts[..i] == ts;
  }

  /** The number of exons of the present transcripts. */
  function ExonTotal(ts: seq<Option<Transcript>>): nat
    decreases |ts|
  {
    if |ts| == 0 then 0
    else ExonTotal(ts[..|ts| - 1]) + match ts[|ts| - 1] case None => 0 case Some(t) => |t.exons|
  }

  /** One record per exon of every present transcript, and nothing else:
      each record is exon k of some present transcript, numbered k + 1. */
  lemma {:induction false} TranscriptRecordsCount(ts: seq<Option<Transcript>>, identifier: string)
    ensures |TranscriptRecords(ts, identifier)| == ExonTotal(ts)
    decreases |ts|
  {
    if |ts| > 0 {
      TranscriptRecordsCount(ts[..|ts| - 1], identifier);
    }
  }

  lemma {:induction false} TranscriptRecordsExons(ts: seq<Option<Transcript>>, identifier: string)
    ensures forall r | r in TranscriptRecords(ts, identifier) ::
      exists i: nat, k: nat | i < |ts| && ts[i].Some? && k < |ts[i].value.exons| :: r == ExonRecord(ts[i].value, k, identifier)
    decreases |ts|
  {
    if |ts| > 0 {
      var init := ts[..|ts| - 1];
      TranscriptRecordsExons(init, identifier);
      forall r | r in TranscriptRecords(ts, identifier)
        ensures exists i: nat, k: nat | i < |ts| && ts[i].Some? && k < |ts[i].value.exons| :: r == ExonRecord(ts[i].value, k, identifier)
      {
        if r in TranscriptRecords(init, identifier) {
          var i: nat, k: nat :| i < |init| && init[i].Some? && k < |init[i].value.exons| && r == ExonRecord(init[i].value, k, identifier);
          assert ts[i] == init[i];
        } else {
          var t := ts[|ts| - 1].value;
          var rs := ExonRecords(t, identifier);
          var k :| 0 <= k < |rs| && rs[k] == r;
          assert r == ExonRecord(t, k, identifier);
        }
      }
    }
  }

  // ---------------------------------------------------------------------
  // fetch_data_from_tark_with_hg38 and fetch_data_from_tark
  // ---------------------------------------------------------------------

  /** A TARK transcript search: `identifier_field` and, when sent,
      `assembly_name`. */
  datatype TarkQuery = TarkQuery(identifier: string, assemblyName: Option<string>)

  function Grch37Items(data: seq<Transcript>): (r: seq<Transcript>)
    ensures forall t | t in r :: t in data && t.assembly == "GRCh37"
    ensures forall t | t in data && t.assembly == "GRCh37" :: t in r
  {
    Filter(data, (t: Transcript) => t.assembly == "GRCh37")
  }

  /** `max(GRCh37 items, key=int(version), default=None)`. */
  function Grch37Pick(data: seq<Transcript>): (r: Result<Option<Transcript>, Fault>)
    ensures r == Success(None) <==> |Grch37Items(data)| == 0
    ensures r.Success? && r.value.Some? ==> r.value.value in data && r.value.value.assembly == "GRCh37"
    ensures r.Failure? <==> exists t | t in Grch37Items(data) :: VersionInt(t.stableIdVersion).Failure?
    ensures r.Success? && r.value.Some? ==> var items := Grch37Items(data);
      exists k | 0 <= k < |items| :: (r.value.value == items[k]
        && (forall j | 0 <= j < |items| :: VersionKey(items[j].stableIdVersion) <= VersionKey(items[k].stableIdVersion))
        && (forall j | 0 <= j < k :: VersionKey(items[j].stableIdVersion) < VersionKey(items[k].stableIdVersion)))
  {
    var items := Grch37Items(data);
    if |items| == 0 then Success(None)
    else match MaxByIntVersion(items) case Failure(e) => Failure(e) case Success(t) => Success(Some(t))
  }

  /** The genes of all items, in order. */
  function AllGenes(data: seq<Transcript>): seq<Gene>
    decreases |data|
  {
    if |data| == 0 then [] else data[0].genes + AllGenes(data[1..])
  }

  /** `next((gene['name'] for item in data for gene in item['genes'] if gene['name']), None)`. */
  function DataGeneName(data: seq<Transcript>): (name: Option<string>)
    ensures name.Some? ==> name.value != "" && exists g | g in AllGenes(data) :: g.name == name
    ensures name.None? ==> forall g | g in AllGenes(data) :: !Truthy(g.name)
    ensures name.Some? ==> var genes := AllGenes(data);
      exists k | 0 <= k < |genes| :: genes[k].name == name && forall j | 0 <= j < k :: !Truthy(genes[j].name)
  {
    var genes := AllGenes(data);
    match FirstIndex(genes, (g: Gene) => Truthy(g.name))
    case None => None
    case Some(k) => genes[k].name
  }

  /** The transcripts handed to `process_transcripts`: the GRCh37 pick,
      with the warning attached when there is one. */
  function Hg38Transcripts(data: seq<Transcript>, warning: Option<Warning>): Result<seq<Option<Transcript>>, Fault> {
    match Grch37Pick(data)
    case Failure(e) => Failure(e)
    case Success(None) => Success([None])
    case Success(Some(t)) => Success([Some(if warning.Some? then t.(warning := warning) else t)])
  }

  /** What `fetch_data_from_tark_with_hg38` returns for the response `data`. */
  function Hg38Records(hg38Identifier: string, warning: Option<Warning>, data: seq<Transcript>): Result<Option<seq<Interval>>, Fault> {
    if |data| == 0 then Success(None)
    else match Hg38Transcripts(data, warning)
      case Failure(e) => Failure(e)
      case Success(ts) => Success(Some(TranscriptRecords(ts, DataGeneName(data).GetOr(hg38Identifier))))
  }

  /** `fetch_data_from_tark_with_hg38`: searches TARK for the identifier in
      every assembly and keeps the GRCh37 transcript with the highest
      version. */
  method FetchWithHg38(hg38Identifier: string, warning: Option<Warning>, tark: TarkQuery -> seq<Transcript>)
    returns (r: Result<Option<seq<Interval>>, Fault>)
    ensures r == Hg38Records(hg38Identifier, warning, tark(TarkQuery(hg38Identifier, None)))
  {
    var data := tark(TarkQuery(hg38Identifier, None));
    if |data| == 0 {
      return Success(None);
    }
    var transcripts := Hg38Transcripts(data, warning);
    if transcripts.Failure? {
      return Failure(transcripts.error);
    }
    var identifier := DataGeneName(data).GetOr(hg38Identifier);
    var records := ProcessTranscripts(transcripts.value, identifier);
    r := Success(Some(records));
  }

  /** `rs` holds one record per exon of `t`, in exon order, each on its
      exon and carrying the transcript's accession. */
  predicate ExonsOf(rs: seq<Interval>, t: Transcript) {
    |rs| == |t.exons|
    && forall k | 0 <= k < |t.exons| :: rs[k].accession == AccessionOf(t) && rs[k].locRegion == t.exons[k].locRegion
         && rs[k].locStart == t.exons[k].locStart && rs[k].locEnd == t.exons[k].locEnd
  }

  /** The GRCh37 records found through GRCh38 are the exons of the GRCh37
      transcript `Grch37Pick` keeps (the first of greatest integer
      version), all carrying the warning given; the lookup raises iff that
      pick raises, and gives no records when the response has no GRCh37
      transcript. */
  lemma Hg38RecordsShape(hg38Identifier: string, warning: Warning, data: seq<Transcript>)
    requires |data| > 0
    ensures var r := Hg38Records(hg38Identifier, Some(warning), data);
      var pick := Grch37Pick(data);
      (r.Failure? <==> pick.Failure?)
      && (r.Success? ==> (r.value.Some? && forall rec | rec in r.value.value :: rec.warning == Some(warning)))
      && (pick == Success(None) ==> r == Success(Some([])))
      && (pick.Success? && pick.value.Some? ==> r.Success? && ExonsOf(r.value.value, pick.value.value))
  {
    var r := Hg38Records(hg38Identifier, Some(warning), data);
    if r.Success? {
      var ts := Hg38Transcripts(data, Some(warning)).value;
      var id := DataGeneName(data).GetOr(hg38Identifier);
      SingleTranscriptRecords(ts[0], id);
      assert ts == [ts[0]];
      if ts[0].Some? {
        var t := Grch37Pick(data).value.value;
        assert ts[0].value == t.(warning := Some(warning));
        assert AccessionOf(ts[0].value) == AccessionOf(t);
      }
    }
  }

  lemma SingleTranscriptRecords(t: Option<Transcript>, identifier: string)
    ensures TranscriptRecords([t], identifier) == match t case None => [] case Some(u) => ExonRecords(u, identifier)
  {
    assert [t][..0] == [];
  }

  const ManeMappingPrefix := "No direct GRCh37 transcript found. Using GRCh38 MANE SELECT transcript "
  const ManeMappingSuffix := " to find matching GRCh37 version"
  const BaseMappingMessage := "No MANE SELECT transcript found. Using base accession for GRCh37 lookup - clinical review recommended"

  /** `identifier.split('.')[0]`. */
  function BaseAccession(identifier: string): string {
    Split(identifier, Dot)[0]
  }

  const Dot: set<char> := {'.'}

  /** `identifier.split('.')[1] if '.' in identifier else None`. */
  function RequestedVersion(identifier: string): (v: Option<string>)
    ensures v.Some? <==> '.' in identifier
  {
    if '.' in identifier then
      SplitSeparated(identifier, Dot, '.');
      Some(Split(identifier, Dot)[1])
    else None
  }

  /** The first GRCh38 transcript selected with type MANE SELECT, if any
      (a GRCh38 selection never raises). */
  function ManeSelectId(grch38: seq<Transcript>, version: Option<string>): (id: Option<string>)
    ensures id.Some? ==> |grch38| > 0 && exists t | t in grch38 :: t.maneTranscriptType == Some("MANE SELECT") && t.stableId == id.value
    ensures SelectTranscripts(grch38, "GRCh38", version).Success?
    ensures |grch38| > 0 ==> var selected := SelectTranscripts(grch38, "GRCh38", version).value;
      (id.None? <==> forall t | t in selected :: t.maneTranscriptType != Some("MANE SELECT"))
      && (id.Some? ==> exists k | 0 <= k < |selected| :: (selected[k].stableId == id.value
            && selected[k].maneTranscriptType == Some("MANE SELECT")
            && forall j | 0 <= j < k :: selected[j].maneTranscriptType != Some("MANE SELECT")))
  {
    Grch38Selects(grch38, version);
    if |grch38| == 0 then None
    else
      var selected := SelectTranscripts(grch38, "GRCh38", version).value;
      SelectTranscriptsFromData(grch38, "GRCh38", version);
      match FirstIndex(selected, (t: Transcript) => t.maneTranscriptType == Some("MANE SELECT"))
      case None => None
      case Some(k) =>
        assert selected[k] in selected;
        Some(selected[k].stableId)
  }

  /** A GRCh38 selection never raises. */
  lemma Grch38Selects(data: seq<Transcript>, version: Option<string>)
    ensures SelectTranscripts(data, "GRCh38", version).Success?
  {
    assert "GRCh38" != "GRCh37" by { assert "GRCh38"[5] != "GRCh37"[5]; }
  }

  /** The wrapping of a list of transcripts as present entries. */
  function Present(ts: seq<Transcript>): (r: seq<Option<Transcript>>)
    ensures |r| == |ts| && forall k | 0 <= k < |ts| :: r[k] == Some(ts[k])
  {
    seq(|ts|, k requires 0 <= k < |ts| => Some(ts[k]))
  }

  /** The GRCh37 fallback of lines 172-193. */
  function Grch37Fallback(identifier: string, tark: TarkQuery -> seq<Transcript>): Result<Option<seq<Interval>>, Fault> {
    var base := BaseAccession(identifier);
    match ManeSelectId(tark(TarkQuery(base, Some("GRCh38"))), RequestedVersion(identifier))
    case Some(id) =>
      Hg38Records(id, Some(Warning(ManeMappingPrefix + id + ManeMappingSuffix, identifier, "assembly_mapping")), tark(TarkQuery(id, None)))
    case None =>
      Hg38Records(base, Some(Warning(BaseMappingMessage, identifier, "assembly_mapping")), tark(TarkQuery(base, None)))
  }

  /** What `fetch_data_from_tark` returns: nothing when TARK has nothing
      for the base accession; the GRCh37 fallback when GRCh37 selects no
      transcript; otherwise the exon records of the selected transcripts. */
  function TarkRecords(identifier: string, assembly: string, tark: TarkQuery -> seq<Transcript>): Result<Option<seq<Interval>>, Fault> {
    var base := BaseAccession(identifier);
    var data := tark(TarkQuery(base, Some(if assembly == "GRCh38" then "GRCh38" else "GRCh37")));
    if |data| == 0 then Success(None)
    else match SelectTranscripts(data, assembly, RequestedVersion(identifier))
      case Failure(e) => Failure(e)
      case Success(transcripts) =>
        if |transcripts| == 0 && assembly == "GRCh37" then Grch37Fallback(identifier, tark)
        else Success(Some(TranscriptRecords(Present(transcripts), base)))
  }

  /** `fetch_data_from_tark`, with the version compared as the code
      compares it (see `NumericVersionIgnored`). */
  method FetchDataFromTark(identifier: string, assembly: string, tark: TarkQuery -> seq<Transcript>)
    returns (r: Result<Option<seq<Interval>>, Fault>)
    ensures r == TarkRecords(identifier, assembly, tark)
  {
    var base := BaseAccession(identifier);
    var version := RequestedVersion(identifier);
    var data := tark(TarkQuery(base, Some(if assembly == "GRCh38" then "GRCh38" else "GRCh37")));
    if |data| == 0 {
      return Success(None);
    }
    var selected := SelectTranscripts(data, assembly, version);
    if selected.Failure? {
      return Failure(selected.error);
    }
    var transcripts := selected.value;
    if |transcripts| == 0 && assembly == "GRCh37" {
      var grch38 := ManeSelectId(tark(TarkQuery(base, Some("GRCh38"))), version);
      if grch38.Some? {
        var id := grch38.value;
        var warning := Warning(ManeMappingPrefix + id + ManeMappingSuffix, identifier, "assembly_mapping");
        r := FetchWithHg38(id, Some(warning), tark);
      } else {
        var warning := Warning(BaseMappingMessage, identifier, "assembly_mapping");
        r := FetchWithHg38(base, Some(warning), tark);
      }
      return;
    }
    var records := ProcessTranscripts(Present(transcripts), base);
    r := Success(Some(records));
  }

  /** An identifier `accession.version` is taken apart into the two. */
  lemma IdentifierParts(accession: string, version: string)
    requires '.' !in accession && '.' !in version
    ensures BaseAccession(accession + "." + version) == accession
    ensures RequestedVersion(accession + "." + version) == Some(version)
    ensures BaseAccession(accession) == accession && RequestedVersion(accession) == None
  {
    assert Free(accession, Dot) && Free(version, Dot);
    assert accession + "." + version == accession + ['.'] + version;
    SplitAt(accession, version, '.', Dot);
    SplitFree(version, Dot);
    SplitFree(accession, Dot);
    assert (accession + "." + version)[|accession|] == '.';
  }

  /** A GRCh38 lookup: nothing when TARK has nothing; otherwise exon
      records of the selected transcripts only, each naming the base
      accession as its identifier. */
  lemma TarkRecordsGrch38(identifier: string, tark: TarkQuery -> seq<Transcript>)
    ensures var data := tark(TarkQuery(BaseAccession(identifier), Some("GRCh38")));
      var r := TarkRecords(identifier, "GRCh38", tark);
      (|data| == 0 <==> r == Success(None))
      && (|data| > 0 ==> (r.Success? && r.value.Some?
          && forall rec | rec in r.value.value :: rec.identifier == Some(BaseAccession(identifier))
               && exists t, k: nat | t in SelectTranscripts(data, "GRCh38", RequestedVersion(identifier)).value
                    && k < |t.exons| :: rec == ExonRecord(t, k, BaseAccession(identifier))))
  {
    var base := BaseAccession(identifier);
    var data := tark(TarkQuery(base, Some("GRCh38")));
    if |data| > 0 {
      var selected := SelectTranscripts(data, "GRCh38", RequestedVersion(identifier)).value;
      var ts := Present(selected);
      TranscriptRecordsExons(ts, base);
      forall rec | rec in TranscriptRecords(ts, base)
        ensures rec.identifier == Some(base)
        ensures exists t, k: nat | t in selected && k < |t.exons| :: rec == ExonRecord(t, k, base)
      {
        var i: nat, k: nat :| i < |ts| && ts[i].Some? && k < |ts[i].value.exons| && rec == ExonRecord(ts[i].value, k, base);
        assert selected[i] in selected;
      }
    }
  }

  /** When GRCh37 has no transcript to select, whatever is found through
      GRCh38 carries an `assembly_mapping` warning naming the identifier
      the user gave. */
  lemma TarkRecordsGrch37Fallback(identifier: string, tark: TarkQuery -> seq<Transcript>)
    requires var data := tark(TarkQuery(BaseAccession(identifier), Some("GRCh37")));
      |data| > 0 && SelectTranscripts(data, "GRCh37", RequestedVersion(identifier)) == Success([])
    ensures var r := TarkRecords(identifier, "GRCh37", tark);
      r.Success? && r.value.Some? ==> forall rec | rec in r.value.value ::
        rec.warning.Some? && rec.warning.value.kind == "assembly_mapping" && rec.warning.value.identifier == identifier
  {
    var base := BaseAccession(identifier);
    assert TarkRecords(identifier, "GRCh37", tark) == Grch37Fallback(identifier, tark);
    match ManeSelectId(tark(TarkQuery(base, Some("GRCh38"))), RequestedVersion(identifier))
    case Some(id) =>
      var data := tark(TarkQuery(id, None));
      var warning := Warning(ManeMappingPrefix + id + ManeMappingSuffix, identifier, "assembly_mapping");
      assert Grch37Fallback(identifier, tark) == Hg38Records(id, Some(warning), data);
      if |data| > 0 {
        Hg38RecordsShape(id, warning, data);
      }
    case None =>
      var data := tark(TarkQuery(base, None));
      var warning := Warning(BaseMappingMessage, identifier, "assembly_mapping");
      assert Grch37Fallback(identifier, tark) == Hg38Records(base, Some(warning), data);
      if |data| > 0 {
        Hg38RecordsShape(base, warning, data);
      }
  }
}

=== FILE: bed_generator.dfy ===
/** BED serialisation of result records (`BedGenerator` in
    app/bed_generator/bed_generator.py): five layouts of tab-separated
    columns, one line per record, lines joined by a newline. */
module BedGenerator {
  import opened Wrappers
  import opened Strings
  import opened Records

  /** The first column: the region, with `chr` in front when asked for. */
  function RegionColumn(r: Interval, addChrPrefix: bool): string {
    if addChrPrefix then "chr" + r.locRegion else r.locRegion
  }

  /** An optional text as an f-string writes it (`None` for Python's None). */
  function OptText(s: Option<string>): string {
    match s
    case Some(t) => t
    case None => "None"
  }

  /** `r.get('exon_number', '')` as an f-string writes it. */
  function ExonNumberText(r: Interval): string {
    match r.exonNumber
    case Some(n) => IntToString(n)
    case None => ""
  }

  /** The strand column: `r.get('loc_strand', 1) > 0`. */
  function StrandText(r: Interval): string {
    if r.locStrand.GetOr(1) > 0 then "+" else "-"
  }

  /** The layouts `format_bed_line` knows. */
  predicate IsFormat(formatType: string) {
    formatType == "data" || formatType == "sambamba" || formatType == "exome_depth" || formatType == "cnv"
  }

  /** The message of the ValueError raised for an unknown layout. */
  const InvalidFormat := "Invalid format type"

  /** The columns `format_bed_line` writes for a known layout. */
  function LineColumns(r: Interval, padding: int, formatType: string, addChrPrefix: bool): seq<string>
    requires IsFormat(formatType)
  {
    var region := RegionColumn(r, addChrPrefix);
    var start := r.locStart - padding;
    var end := r.locEnd + padding;
    var columns := [region, IntToString(start), IntToString(end)];
    if formatType == "data" then
      columns + [OptText(r.entrezId), r.gene + ";" + r.accession]
    else if formatType == "sambamba" then
      var name := r.locRegion + "-" + IntToString(start) + "-" + IntToString(end);
      columns + [name, "0", StrandText(r), r.gene + ";" + r.accession, OptText(r.entrezId)]
    else if formatType == "exome_depth" then
      columns + [r.gene + "_" + ExonNumberText(r)]
    else
      columns + [r.accession]
  }

  /** `format_bed_line`: one record in one layout, both ends moved outwards
      by `padding`, columns separated by tabs; an unknown layout raises
      ValueError. */
  function FormatBedLine(r: Interval, padding: int, formatType: string, addChrPrefix: bool): (line: Result<string, Fault>)
    ensures line.Success? <==> IsFormat(formatType)
    ensures line.Failure? ==> line.error == ValueError(InvalidFormat)
  {
    if IsFormat(formatType) then Success(Join(LineColumns(r, padding, formatType, addChrPrefix), '\t'))
    else Failure(ValueError(InvalidFormat))
  }

  /** The list comprehension of `create_bed`: every line, or the first
      exception raised. */
  function FormatAll(results: seq<Interval>, padding: int, formatType: string, addChrPrefix: bool): (lines: Result<seq<string>, Fault>)
    ensures lines.Success? <==> (|results| == 0 || IsFormat(formatType))
    ensures lines.Success? ==> |lines.value| == |results|
    ensures lines.Success? ==> forall i | 0 <= i < |results| ::
      FormatBedLine(results[i], padding, formatType, addChrPrefix) == Success(lines.value[i])
    decreases |results|
  {
    if |results| == 0 then Success([])
    else
      match FormatBedLine(results[0], padding, formatType, addChrPrefix)
      case Failure(e) => Failure(e)
      case Success(line) =>
        match FormatAll(results[1..], padding, formatType, addChrPrefix)
        case Failure(e) => Failure(e)
        case Success(rest) => Success([line] + rest)
  }

  /** `create_bed`: the lines joined by newlines. */
  function CreateBed(results: seq<Interval>, padding: int, formatType: string, addChrPrefix: bool): (bed: Result<string, Fault>)
    ensures bed.Success? <==> (|results| == 0 || IsFormat(formatType))
    ensures |results| == 0 ==> bed == Success("")
  {
    match FormatAll(results, padding, formatType, addChrPrefix)
    case Failure(e) => Failure(e)
    case Success(lines) => Success(Join(lines, '\n'))
  }

  function CreateDataBed(results: seq<Interval>, padding: int, addChrPrefix: bool): (bed: Result<string, Fault>)
    ensures bed.Success?
  {
    CreateBed(results, padding, "data", addChrPrefix)
  }

  function CreateSambambaBed(results: seq<Interval>, padding: int, addChrPrefix: bool): (bed: Result<string, Fault>)
    ensures bed.Success?
  {
    CreateBed(results, padding, "sambamba", addChrPrefix)
  }

  function CreateExomeDepthBed(results: seq<Interval>, padding: int, addChrPrefix: bool): (bed: Result<string, Fault>)
    ensures bed.Success?
  {
    CreateBed(results, padding, "exome_depth", addChrPrefix)
  }

  function CreateCnvBed(results: seq<Interval>, padding: int, addChrPrefix: bool): (bed: Result<string, Fault>)
    ensures bed.Success?
  {
    CreateBed(results, padding, "cnv", addChrPrefix)
  }

  /** The columns of one line of `create_raw_bed`: region, start, end,
      gene. */
  function RawColumns(r: Interval, addChrPrefix: bool): seq<string> {
    [(if addChrPrefix then "chr" else "") + r.locRegion, IntToString(r.locStart), IntToString(r.locEnd), r.gene]
  }

  function RawLine(r: Interval, addChrPrefix: bool): string {
    Join(RawColumns(r, addChrPrefix), '\t')
  }

  function RawLines(results: seq<Interval>, addChrPrefix: bool): (lines: seq<string>)
    ensures |lines| == |results|
    ensures forall i | 0 <= i < |results| :: lines[i] == RawLine(results[i], addChrPrefix)
  {
    seq(|results|, i requires 0 <= i < |results| => RawLine(results[i], addChrPrefix))
  }

  /** `create_raw_bed`. */
  function CreateRawBed(results: seq<Interval>, addChrPrefix: bool): (bed: string)
    ensures |results| == 0 ==> bed == ""
  {
    Join(RawLines(results, addChrPrefix), '\n')
  }

  // ---------------------------------------------------------------------
  // Reading the output back
  // ---------------------------------------------------------------------

  /** Text that can sit inside one column of one line. */
  predicate Plain(s: string) { Free(s, {'\t', '\n'}) }

  /** The text fields of a record that reach a BED line are plain. */
  predicate PlainRecord(r: Interval) {
    Plain(r.locRegion) && Plain(r.gene) && Plain(r.accession) && Plain(OptText(r.entrezId))
  }

  /** The columns of one line. */
  function Columns(line: string): seq<string> { Split(line, {'\t'}) }

  lemma PlainInt(i: int)
    ensures Plain(IntToString(i))
  {
    var s := IntToString(i);
    forall k | 0 <= k < |s| ensures s[k] !in {'\t', '\n'} {
      assert s[k] == '-' || IsDigit(s[k]);
    }
  }

  lemma PlainConcat(a: string, b: string)
    requires Plain(a) && Plain(b)
    ensures Plain(a + b)
  {
    var s := a + b;
    forall k | 0 <= k < |s| ensures s[k] !in {'\t', '\n'} {
      if k < |a| { assert s[k] == a[k]; } else { assert s[k] == b[k - |a|]; }
    }
  }

  /** Splitting a line of plain columns on tabs gives the columns back. */
  lemma ColumnsOfJoin(cols: seq<string>)
    requires |cols| >= 1 && forall k | 0 <= k < |cols| :: Plain(cols[k])
    ensures Columns(Join(cols, '\t')) == cols
  {
    forall k | 0 <= k < |cols| ensures Free(cols[k], {'\t'}) {
      assert Plain(cols[k]);
    }
    SplitJoin(cols, '\t', {'\t'});
  }

  /** The three leading columns every padded layout shares: the region
      (with `chr` iff asked for), then start and end each moved outwards by
      exactly `padding`. */
  predicate PaddedColumns(f: seq<string>, r: Interval, padding: int, addChrPrefix: bool) {
    |f| >= 3
    && (f[0] == "chr" + r.locRegion <==> addChrPrefix)
    && (!addChrPrefix ==> f[0] == r.locRegion)
    && ParseInt(f[1]) == Some(r.locStart - padding)
    && ParseInt(f[2]) == Some(r.locEnd + padding)
  }

  lemma PaddedColumnsHold(f: seq<string>, r: Interval, padding: int, addChrPrefix: bool)
    requires |f| >= 3 && f[0] == RegionColumn(r, addChrPrefix)
    requires f[1] == IntToString(r.locStart - padding) && f[2] == IntToString(r.locEnd + padding)
    ensures PaddedColumns(f, r, padding, addChrPrefix)
  {
    IntToStringRoundTrip(r.locStart - padding);
    IntToStringRoundTrip(r.locEnd + padding);
    if !addChrPrefix {
      assert |f[0]| < |"chr" + r.locRegion|;
    }
  }

  lemma LineColumnsPlain(r: Interval, padding: int, formatType: string, addChrPrefix: bool)
    requires PlainRecord(r) && IsFormat(formatType)
    ensures var cols := LineColumns(r, padding, formatType, addChrPrefix);
      |cols| >= 4 && forall k | 0 <= k < |cols| :: Plain(cols[k])
  {
    var s, e := IntToString(r.locStart - padding), IntToString(r.locEnd + padding);
    PlainInt(r.locStart - padding);
    PlainInt(r.locEnd + padding);
    PlainConcat("chr", r.locRegion);
    PlainConcat(r.gene, ";");
    PlainConcat(r.gene + ";", r.accession);
    PlainConcat(r.locRegion, "-");
    PlainConcat(r.locRegion + "-", s);
    PlainConcat(r.locRegion + "-" + s, "-");
    PlainConcat(r.locRegion + "-" + s + "-", e);
    PlainConcat(r.gene, "_");
    if r.exonNumber.Some? {
      PlainInt(r.exonNumber.value);
    }
    PlainConcat(r.gene + "_", ExonNumberText(r));
  }

  /** The columns a known layout writes are the ones read back. */
  lemma ColumnsOfLine(r: Interval, padding: int, formatType: string, addChrPrefix: bool)
    requires PlainRecord(r) && IsFormat(formatType)
    ensures var f := Columns(FormatBedLine(r, padding, formatType, addChrPrefix).value);
      f == LineColumns(r, padding, formatType, addChrPrefix) && PaddedColumns(f, r, padding, addChrPrefix)
  {
    var cols := LineColumns(r, padding, formatType, addChrPrefix);
    LineColumnsPlain(r, padding, formatType, addChrPrefix);
    ColumnsOfJoin(cols);
    PaddedColumnsHold(cols, r, padding, addChrPrefix);
  }

  /** A data line is exactly region, start, end, entrez id, `gene;accession`. */
  lemma DataLineLayout(r: Interval, padding: int, addChrPrefix: bool)
    requires PlainRecord(r)
    ensures var f := Columns(FormatBedLine(r, padding, "data", addChrPrefix).value);
      |f| == 5 && PaddedColumns(f, r, padding, addChrPrefix)
      && f[3] == OptText(r.entrezId) && f[4] == r.gene + ";" + r.accession
  {
    ColumnsOfLine(r, padding, "data", addChrPrefix);
  }

  /** A sambamba line has eight columns: the name is the UNPREFIXED region
      with the padded bounds, the score is 0, the strand is `+` iff the
      record's strand (1 when absent) is positive. */
  lemma SambambaLineLayout(r: Interval, padding: int, addChrPrefix: bool)
    requires PlainRecord(r)
    ensures var f := Columns(FormatBedLine(r, padding, "sambamba", addChrPrefix).value);
      |f| == 8 && PaddedColumns(f, r, padding, addChrPrefix)
      && f[3] == r.locRegion + "-" + f[1] + "-" + f[2]
      && f[4] == "0"
      && (f[5] == "+" <==> r.locStrand.GetOr(1) > 0)
      && f[6] == r.gene + ";" + r.accession && f[7] == OptText(r.entrezId)
  {
    ColumnsOfLine(r, padding, "sambamba", addChrPrefix);
  }

  /** An exome_depth line has four columns, the last `gene_exonNumber`
      (empty exon number when the record has none). */
  lemma ExomeDepthLineLayout(r: Interval, padding: int, addChrPrefix: bool)
    requires PlainRecord(r)
    ensures var f := Columns(FormatBedLine(r, padding, "exome_depth", addChrPrefix).value);
      |f| == 4 && PaddedColumns(f, r, padding, addChrPrefix)
      && |f[3]| > |r.gene| && f[3][..|r.gene| + 1] == r.gene + "_"
      && (r.exonNumber.None? ==> f[3] == r.gene + "_")
      && (r.exonNumber.Some? ==> ParseInt(f[3][|r.gene| + 1..]) == r.exonNumber)
  {
    ColumnsOfLine(r, padding, "exome_depth", addChrPrefix);
    var last := r.gene + "_" + ExonNumberText(r);
    assert last[..|r.gene| + 1] == r.gene + "_";
    if r.exonNumber.Some? {
      IntToStringRoundTrip(r.exonNumber.value);
      assert last[|r.gene| + 1..] == ExonNumberText(r);
    }
  }

  /** A cnv line has four columns, the last the accession. */
  lemma CnvLineLayout(r: Interval, padding: int, addChrPrefix: bool)
    requires PlainRecord(r)
    ensures var f := Columns(FormatBedLine(r, padding, "cnv", addChrPrefix).value);
      |f| == 4 && PaddedColumns(f, r, padding, addChrPrefix) && f[3] == r.accession
  {
    ColumnsOfLine(r, padding, "cnv", addChrPrefix);
  }

  lemma RawColumnsPlain(r: Interval, addChrPrefix: bool)
    requires PlainRecord(r)
    ensures var cols := RawColumns(r, addChrPrefix); forall k | 0 <= k < |cols| :: Plain(cols[k])
  {
    PlainInt(r.locStart);
    PlainInt(r.locEnd);
    PlainConcat("chr", r.locRegion);
    assert "" + r.locRegion == r.locRegion;
  }

  /** A raw line is region, start, end, gene with the record's own bounds:
      raw output is never padded. */
  lemma RawLineLayout(r: Interval, addChrPrefix: bool)
    requires PlainRecord(r)
    ensures var f := Columns(RawLine(r, addChrPrefix));
      |f| == 4 && PaddedColumns(f, r, 0, addChrPrefix) && f[3] == r.gene
  {
    var cols := RawColumns(r, addChrPrefix);
    RawColumnsPlain(r, addChrPrefix);
    assert "" + r.locRegion == r.locRegion;
    ColumnsOfJoin(cols);
    PaddedColumnsHold(cols, r, 0, addChrPrefix);
  }

  lemma PlainLine(r: Interval, padding: int, formatType: string, addChrPrefix: bool)
    requires PlainRecord(r) && IsFormat(formatType)
    ensures Free(FormatBedLine(r, padding, formatType, addChrPrefix).value, {'\n'})
  {
    var cols := LineColumns(r, padding, formatType, addChrPrefix);
    LineColumnsPlain(r, padding, formatType, addChrPrefix);
    forall k | 0 <= k < |cols| ensures Free(cols[k], {'\n'}) {
      assert Plain(cols[k]);
    }
    JoinColumnsFree(cols);
  }

  /** A line contains a newline only inside one of its columns. */
  lemma JoinColumnsFree(cols: seq<string>)
    requires forall k | 0 <= k < |cols| :: Free(cols[k], {'\n'})
    ensures Free(Join(cols, '\t'), {'\n'})
    decreases |cols|
  {
    if |cols| > 1 {
      JoinColumnsFree(cols[1..]);
      var s := Join(cols, '\t');
      var a, b := cols[0] + ['\t'], Join(cols[1..], '\t');
      assert s == a + b;
      forall k | 0 <= k < |s| ensures s[k] !in {'\n'} {
        if k < |cols[0]| { assert s[k] == cols[0][k]; }
        else if k == |cols[0]| { assert s[k] == '\t'; }
        else { assert s[k] == b[k - |a|]; }
      }
    }
  }

  /** `create_bed` writes exactly one line per record, in record order:
      splitting its output on newlines gives `format_bed_line` of each
      record. */
  lemma CreateBedLines(results: seq<Interval>, padding: int, formatType: string, addChrPrefix: bool)
    requires |results| >= 1 && IsFormat(formatType)
    requires forall i | 0 <= i < |results| :: PlainRecord(results[i])
    ensures var lines := Split(CreateBed(results, padding, formatType, addChrPrefix).value, {'\n'});
      |lines| == |results|
      && forall i | 0 <= i < |results| :: FormatBedLine(results[i], padding, formatType, addChrPrefix) == Success(lines[i])
  {
    var lines := FormatAll(results, padding, formatType, addChrPrefix).value;
    forall k | 0 <= k < |lines| ensures Free(lines[k], {'\n'}) {
      PlainLine(results[k], padding, formatType, addChrPrefix);
    }
    SplitJoin(lines, '\n', {'\n'});
  }

  /** `create_raw_bed` writes exactly one line per record, in record order. */
  lemma CreateRawBedLines(results: seq<Interval>, addChrPrefix: bool)
    requires |results| >= 1
    requires forall i | 0 <= i < |results| :: PlainRecord(results[i])
    ensures var lines := Split(CreateRawBed(results, addChrPrefix), {'\n'});
      |lines| == |results| && forall i | 0 <= i < |results| :: lines[i] == RawLine(results[i], addChrPrefix)
  {
    var lines := RawLines(results, addChrPrefix);
    forall k | 0 <= k < |lines| ensures Free(lines[k], {'\n'}) {
      var cols := RawColumns(results[k], addChrPrefix);
      RawColumnsPlain(results[k], addChrPrefix);
      forall j | 0 <= j < |cols| ensures Free(cols[j], {'\n'}) {
        assert Plain(cols[j]);
      }
      JoinColumnsFree(cols);
    }
    SplitJoin(lines, '\n', {'\n'});
  }
}

=== FILE: bed_manager.dfy ===
/** The BED file approval workflow (app/bed_manager/routes.py): removing a
    file, authorising it (publishing it as it is, or publishing a copy of
    its entries as the next version of another file), and the `_vN`
    filename rules used to find a file's previous version and the
    published file it is compared with. The `bed_file` and `bed_entry`
    tables are an in-memory map from file id to the file and its entries. */
module BedManager {
  import opened Wrappers
  import opened Strings
  import opened Records
  import GeneratorRoutes

  /** The logged-in user. */
  datatype User = User(id: int, isAuthorizer: bool)

  /** A row of the `bed_file` table with its entries. `warning` stands for
      the `bed_file.warning` the routes read, the JSON text of the
      collected warnings (`None` when there were none); the `BedFile`
      model class declares no such column (see `AuthoriseAsWritten`). */
  datatype BedFile = BedFile(
    filename: string,
    status: string,
    submitterId: int,
    authorizerId: Option<int>,
    initialQuery: string,
    assembly: string,
    warning: Option<string>,
    entries: seq<BedEntry>)

  /** An HTTP status with the `success` flag and the message (or error) of
      the JSON body. */
  datatype Response = Response(code: int, success: bool, message: string)

  const Published := "published"
  const Pending := "pending"
  const Draft := "draft"

  const NoRemovePermission := "You do not have permission to remove this file."
  const NoAuthorisePermission := "You do not have permission to authorise files."
  const AlreadyPublished := "This file is already published."
  const AcknowledgeWarnings := "You must acknowledge the warnings before authorising this file."
  const IncrementTargetMissing := "Selected file for increment not found."
  const NotFound := "Not Found"

  // ---------------------------------------------------------------------
  // The `_vN` filename rules
  // ---------------------------------------------------------------------

  /** The name a file is published under by the 'new' action: `_v1` is
      appended unless the name already ends in `_v` and digits. */
  function PublishedName(filename: string): string {
    if GeneratorRoutes.VersionOf(filename).Some? then filename else filename + "_v1"
  }

  /** A published name always carries a version. */
  lemma PublishedNameVersioned(filename: string)
    ensures GeneratorRoutes.VersionOf(PublishedName(filename)).Some?
  {
    if GeneratorRoutes.VersionOf(filename).None? {
      var name := filename + "_v1";
      assert name == filename + "_v" + "1";
      GeneratorRoutes.VersionSuffixOf(filename, "1");
      assert name[|name| - 1] == '1';
      assert RegexBody(name) == name;
    }
  }

  /** The name `bed_file_details` looks up as the previous version of a
      pending file ending in `_vN`: the same name ending in `_v(N-1)`. */
  function PreviousVersionName(f: BedFile): Option<string> {
    if f.status != Pending then None
    else
      var body := RegexBody(f.filename);
      match GeneratorRoutes.VersionSuffix(body)
      case Some((stem, digits)) => Some(stem + "_v" + IntToString(DigitsValue(digits) - 1) + f.filename[|body|..])
      case None => None
  }

  /** The previous version of a pending `_vN` file (N >= 1) is the name
      whose increment is the file's own name. */
  lemma PreviousVersionInverse(f: BedFile, stem: string, n: nat)
    requires f.status == Pending && f.filename == stem + "_v" + NatToString(n + 1)
    ensures PreviousVersionName(f) == Some(stem + "_v" + NatToString(n))
    ensures GeneratorRoutes.IncrementVersionNumber(PreviousVersionName(f).value) == f.filename
  {
    var digits := NatToString(n + 1);
    var s := f.filename;
    assert s[|s| - 1] == digits[|digits| - 1];
    assert IsDigit(digits[|digits| - 1]);
    assert RegexBody(s) == s;
    GeneratorRoutes.VersionSuffixOf(stem, digits);
    NatToStringValue(n + 1);
    assert IntToString(DigitsValue(digits) - 1) == NatToString(n);
    assert s[|s|..] == [];
    assert PreviousVersionName(f) == Some(stem + "_v" + NatToString(n) + []);
    assert stem + "_v" + NatToString(n) + [] == stem + "_v" + NatToString(n);
    GeneratorRoutes.IncrementNext(stem, n);
  }

  /** Only pending files with a version suffix have a previous version. */
  lemma PreviousVersionOnlyPending(f: BedFile)
    ensures PreviousVersionName(f).Some? <==> (f.status == Pending && GeneratorRoutes.VersionOf(f.filename).Some?)
  {
  }

  /** `_v` starts at position `j` of `name`. */
  predicate MarkAt(name: string, j: int) {
    0 <= j && j + 2 <= |name| && name[j] == '_' && name[j + 1] == 'v'
  }

  /** The position of the last `_v` in `name`. */
  function LastVersionMark(name: string): (i: Option<nat>)
    ensures i.Some? ==> MarkAt(name, i.value)
    ensures i.Some? ==> forall j | i.value < j :: !MarkAt(name, j)
    ensures i.None? ==> forall j :: !MarkAt(name, j)
    decreases |name|
  {
    if |name| < 2 then None
    else if MarkAt(name, |name| - 2) then Some(|name| - 2)
    else
      var front := name[..|name| - 1];
      assert forall j | MarkAt(name, j) :: MarkAt(front, j);
      LastVersionMark(front)
  }

  /** `filename.rsplit('_v', 1)[0]`: the text before the last `_v`, or the
      whole name when it has none. */
  function ComparisonBase(name: string): (base: string)
    ensures StartsWith(name, base)
  {
    match LastVersionMark(name)
    case Some(i) => name[..i]
    case None => name
  }

  /** The base of a versioned name is the name without its version, so a
      file and its next version have the same base. */
  lemma {:induction false} ComparisonBaseVersioned(stem: string, digits: string)
    requires AllDigits(digits)
    ensures ComparisonBase(stem + "_v" + digits) == stem
    decreases |digits|
  {
    var name := stem + "_v" + digits;
    if |digits| == 0 {
      assert MarkAt(name, |name| - 2);
      assert name[..|name| - 2] == stem;
    } else {
      var front := digits[..|digits| - 1];
      ComparisonBaseVersioned(stem, front);
      assert name[..|name| - 1] == stem + "_v" + front;
      assert name[|name| - 1] == digits[|digits| - 1];
      assert !MarkAt(name, |name| - 2);
    }
  }

  /** A file's next version keeps its comparison base. */
  lemma ComparisonBaseIncrement(stem: string, n: nat)
    ensures ComparisonBase(GeneratorRoutes.IncrementVersionNumber(stem + "_v" + NatToString(n))) == stem
  {
    GeneratorRoutes.IncrementNext(stem, n);
    ComparisonBaseVersioned(stem, NatToString(n + 1));
  }

  // ---------------------------------------------------------------------
  // The files
  // ---------------------------------------------------------------------

  /** The entries of the pending file copied, column for column, into the
      new file `newId`. */
  method CopyEntries(entries: seq<BedEntry>, newId: int) returns (copied: seq<BedEntry>)
    ensures |copied| == |entries|
    ensures forall k | 0 <= k < |entries| :: copied[k].bedFileId == newId && copied[k].(bedFileId := entries[k].bedFileId) == entries[k]
  {
    copied := [];
    var i := 0;
    while i < |entries|
      invariant 0 <= i <= |entries|
      invariant |copied| == i
      invariant forall k | 0 <= k < i :: copied[k] == entries[k].(bedFileId := newId)
    {
      copied := copied + [entries[i].(bedFileId := newId)];
      i := i + 1;
    }
  }

  /** The entries of `entries` moved to the file `newId`. */
  function Moved(entries: seq<BedEntry>, newId: int): (moved: seq<BedEntry>)
    ensures |moved| == |entries|
    ensures forall e | e in moved :: e.bedFileId == newId
  {
    seq(|entries|, k requires 0 <= k < |entries| => entries[k].(bedFileId := newId))
  }

  /** The file the increment action creates under `name` (the next
      version of the chosen file's name): published by `authorizer`,
      submitted by the pending file's submitter, with the pending file's
      query, assembly and entries (no warning). */
  function NextVersion(name: string, pending: BedFile, authorizer: User, newId: int): BedFile {
    BedFile(name, Published, pending.submitterId,
            Some(authorizer.id), pending.initialQuery, pending.assembly, None, Moved(pending.entries, newId))
  }

  /** The checks `authorise_bed_file` makes before acting, in their order. */
  function AuthoriseGuard(user: User, file: Option<BedFile>, acknowledged: bool): (refusal: Option<Response>)
    ensures !user.isAuthorizer ==> refusal == Some(Response(403, false, NoAuthorisePermission))
    ensures refusal.None? <==> (user.isAuthorizer && file.Some? && file.value.status != Published
      && (!Truthy(file.value.warning) || acknowledged))
  {
    if !user.isAuthorizer then Some(Response(403, false, NoAuthorisePermission))
    else if file.None? then Some(Response(404, false, NotFound))
    else if file.value.status == Published then Some(Response(400, false, AlreadyPublished))
    else if Truthy(file.value.warning) && !acknowledged then Some(Response(400, false, AcknowledgeWarnings))
    else None
  }

  /** `authorise_bed_file` as written: after the 403, 404 and
      already-published checks, `bed_file.warning` names a column the
      `BedFile` model class does not declare, so the attribute read raises
      AttributeError outside the `try`, and the request fails (Flask
      answers 500) with nothing changed. */
  function AuthoriseAsWritten(user: User, file: Option<BedFile>): (r: Result<Response, Fault>)
    ensures r.Success? <==> (!user.isAuthorizer || file.None? || file.value.status == Published)
    ensures r.Success? ==> !r.value.success && r.value.code in {403, 404, 400}
    ensures r.Failure? ==> r.error == AttributeError
  {
    if !user.isAuthorizer then Success(Response(403, false, NoAuthorisePermission))
    else if file.None? then Success(Response(404, false, NotFound))
    else if file.value.status == Published then Success(Response(400, false, AlreadyPublished))
    else Failure(AttributeError)
  }

  /** The defect: every request the guards let through, one that
      `Store.Authorise` would publish or version, raises as written. */
  lemma AuthoriseNeverPublishes(user: User, file: BedFile, acknowledged: bool)
    requires AuthoriseGuard(user, Some(file), acknowledged).None?
    ensures AuthoriseAsWritten(user, Some(file)) == Failure(AttributeError)
  {
  }

  /** The published-file table: every file keyed by an id below `nextId`,
      holding only entries that point back at it. */
  class Store {
    var files: map<int, BedFile>
    var nextId: int

    ghost predicate Valid()
      reads this
    {
      (forall id | id in files :: id < nextId)
      && (forall id | id in files :: forall e | e in files[id].entries :: e.bedFileId == id)
    }

    constructor ()
      ensures Valid() && files == map[] && nextId == 1
    {
      files := map[];
      nextId := 1;
    }

    /** `remove_bed_file`: an authorizer or the file's submitter deletes it;
        anyone else is refused with 403 and nothing changes. */
    method Remove(user: User, fileId: int) returns (resp: Response)
      requires Valid()
      modifies this
      ensures Valid() && nextId == old(nextId)
      ensures fileId !in old(files) ==> resp == Response(404, false, NotFound) && files == old(files)
      ensures fileId in old(files) && (user.isAuthorizer || user.id == old(files)[fileId].submitterId) ==>
        resp == Response(200, true, "") && files == old(files) - {fileId}
      ensures fileId in old(files) && !user.isAuthorizer && user.id != old(files)[fileId].submitterId ==>
        resp == Response(403, false, NoRemovePermission) && files == old(files)
    {
      if fileId !in files {
        return Response(404, false, NotFound);
      }
      if user.isAuthorizer || user.id == files[fileId].submitterId {
        files := files - {fileId};
        return Response(200, true, "");
      }
      return Response(403, false, NoRemovePermission);
    }

    /** `authorise_bed_file`. After the guards, the 'new' action publishes
        the file under its versioned name; any other action names the file
        whose next version is created from this file's entries, and this
        file goes back to draft. An action that is not a number fails
        without a change, and an unknown file id gives 404. */
    method Authorise(user: User, fileId: int, acknowledged: bool, fileAction: string) returns (resp: Response)
      requires Valid()
      modifies this
      ensures Valid()
      ensures var guard := AuthoriseGuard(user, if fileId in old(files) then Some(old(files)[fileId]) else None, acknowledged);
        guard.Some? ==> resp == guard.value && files == old(files) && nextId == old(nextId)
      ensures !resp.success ==> files == old(files) && nextId == old(nextId)
      ensures resp.success ==> (fileId in old(files)
        && AuthoriseGuard(user, Some(old(files)[fileId]), acknowledged).None?)
      ensures resp.success && fileAction == "new" ==>
        var f := old(files)[fileId];
        files == old(files)[fileId := f.(filename := PublishedName(f.filename), status := Published, authorizerId := Some(user.id))]
        && nextId == old(nextId)
      ensures fileAction == "new" && fileId in old(files) ==>
        (resp.success <==> AuthoriseGuard(user, Some(old(files)[fileId]), acknowledged).None?)
      ensures fileAction != "new" && fileId in old(files) && AuthoriseGuard(user, Some(old(files)[fileId]), acknowledged).None? ==>
        (PyInt(fileAction).None? ==> resp == Response(200, false, IntLiteralError))
        && (PyInt(fileAction).Some? && PyInt(fileAction).value !in old(files) ==> resp == Response(404, false, IncrementTargetMissing))
        && (PyInt(fileAction).Some? && PyInt(fileAction).value in old(files) ==> resp.success)
      ensures resp.success && fileAction != "new" ==>
        PyInt(fileAction).Some? && PyInt(fileAction).value in old(files)
        && var f := old(files)[fileId];
        var existing := old(files)[PyInt(fileAction).value];
        nextId == old(nextId) + 1
        && files == old(files)[fileId := f.(status := Draft)][old(nextId) := NextVersion(GeneratorRoutes.IncrementVersionNumber(existing.filename), f, user, old(nextId))]
    {
      var file := if fileId in files then Some(files[fileId]) else None;
      var guard := AuthoriseGuard(user, file, acknowledged);
      if guard.Some? {
        return guard.value;
      }
      if fileAction == "new" {
        var name := PublishedName(files[fileId].filename);
        Publish(fileId, user, name);
        return Response(200, true, "The new BED file \"" + name + "\" was successfully published and is now available for analysis.");
      }
      var target := PyInt(fileAction);
      if target.None? {
        return Response(200, false, IntLiteralError);
      }
      if target.value !in files {
        return Response(404, false, IncrementTargetMissing);
      }
      var name := GeneratorRoutes.IncrementVersionNumber(files[target.value].filename);
      PublishNextVersion(fileId, name, user);
      return Response(200, true, "A new version of the BED file (" + name + ") was created and published.");
    }

    /** The 'new' action: the file is published as `name` with `user` as
        its authorizer. */
    method Publish(fileId: int, user: User, name: string)
      requires Valid() && fileId in files
      modifies this
      ensures Valid() && nextId == old(nextId)
      ensures var f := old(files)[fileId];
        files == old(files)[fileId := f.(filename := name, status := Published, authorizerId := Some(user.id))]
    {
      var f := files[fileId];
      var published := f.(filename := name, status := Published, authorizerId := Some(user.id));
      assert published.entries == f.entries;
      files := files[fileId := published];
    }

    /** The increment action: a new published file called `name`
        receives copies of the entries of file `fileId`, which goes back
        to draft. */
    method PublishNextVersion(fileId: int, name: string, user: User)
      requires Valid() && fileId in files
      modifies this
      ensures Valid() && nextId == old(nextId) + 1
      ensures var f := old(files)[fileId];
        files == old(files)[fileId := f.(status := Draft)][old(nextId) := NextVersion(name, f, user, old(nextId))]
    {
      var f := files[fileId];
      var newId := nextId;
      var copied := CopyEntries(f.entries, newId);
      assert copied == Moved(f.entries, newId);
      var created := BedFile(name, Published, f.submitterId, Some(user.id), f.initialQuery, f.assembly, None, copied);
      files := files[fileId := f.(status := Draft)][newId := created];
      nextId := nextId + 1;
    }

    /** The published files `bed_file_details` may show as the previous
        version of file `fileId`. */
    function PreviousVersions(fileId: int): (ids: set<int>)
      reads this
      ensures forall id | id in ids :: id in files && files[id].status == Published
      ensures fileId in files && PreviousVersionName(files[fileId]).None? ==> ids == {}
      ensures forall id :: id in ids <==> (fileId in files && PreviousVersionName(files[fileId]).Some?
        && id in files && files[id].filename == PreviousVersionName(files[fileId]).value && files[id].status == Published)
    {
      if fileId !in files then {}
      else
        match PreviousVersionName(files[fileId])
        case None => {}
        case Some(name) => set id | id in files && files[id].filename == name && files[id].status == Published
    }

    /** The published files `compare_bed_files` chooses from when no file
        is selected: those whose name starts with the comparison base. */
    function ComparisonCandidates(fileId: int): (ids: set<int>)
      reads this
      ensures forall id | id in ids :: id in files && files[id].status == Published
      ensures fileId in files && files[fileId].status == Published ==> fileId in ids
      ensures forall id :: id in ids <==> (fileId in files && id in files && files[id].status == Published
        && StartsWith(files[id].filename, ComparisonBase(files[fileId].filename)))
    {
      if fileId !in files then {}
      else
        var base := ComparisonBase(files[fileId].filename);
        set id | id in files && StartsWith(files[id].filename, base) && files[id].status == Published
    }
  }
}

=== FILE: bulk_route.dfy ===
/** The `bulk_process` route of app/bed_generator/routes.py: the JSON body
    is processed by `process_bulk_data`, the original bounds of every
    result are captured, and the results are stored in the session. The
    reply is 200 with a success message, 400 with the message of a
    ValueError, and 500 with a fixed message for any other exception.

    The body's fields are parameters: `identifiers`, the `coordinates`
    text (empty when absent), `assembly` and the two UTR flags. */
module BulkRoute {
  import opened Wrappers
  import opened Records
  import Utils
  import ApiCoordinates
  import Logic
  import GeneratorRoutes

  /** A JSON reply: its HTTP status, its `success` field and its message
      or error text. */
  datatype Response = Response(status: int, success: bool, message: string)

  /** The reply and the results stored in the session, if any. */
  datatype Reply = Reply(response: Response, stored: Option<seq<Interval>>)

  const ProcessedMessage := "Data processed successfully"
  const UnexpectedError := "An unexpected error occurred."

  /** The two `except` clauses: a ValueError answers 400 with its message,
      any other exception 500. */
  function ErrorReply(e: Fault): Reply {
    match e
    case ValueError(message) => Reply(Response(400, false, message), None)
    case _ => Reply(Response(500, false, UnexpectedError), None)
  }

  /** The coordinate text holds a coordinate that fails validation. */
  predicate BadCoordinates(coordinates: string) {
    coordinates != "" && Logic.FirstError(Logic.CoordinateList(coordinates)).Some?
  }

  /** `bulk_process` as written: `results = process_bulk_data(data)` binds
      the pair (results, identifiers without data), so the loop's first
      item is the results list, and `result['loc_start']` on a list raises
      TypeError. Every request that gets past the coordinate check answers
      500, and nothing is stored. */
  function BulkReply(identifiers: seq<string>, coordinates: string, assembly: string,
                     include5utr: bool, include3utr: bool,
                     variant: VariantLookup,
                     tark: Utils.ApiSelection.TarkQuery -> seq<Transcript>,
                     overlap: string -> seq<ApiCoordinates.Feature>): (reply: Reply)
    ensures reply.stored.None? && !reply.response.success
    ensures reply.response.status == 400 <==> BadCoordinates(coordinates)
    ensures reply.response.status == 400 ==>
      reply.response.message == Logic.FirstError(Logic.CoordinateList(coordinates)).value
    ensures reply.response.status != 400 ==> reply.response == Response(500, false, UnexpectedError)
  {
    match Logic.BulkData(identifiers, coordinates, assembly, include5utr, include3utr, variant, tark, overlap)
    case Failure(e) => ErrorReply(e)
    case Success(_) => ErrorReply(TypeError)
  }

  /** `bulk_process`. */
  method BulkProcess(identifiers: seq<string>, coordinates: string, assembly: string,
                     include5utr: bool, include3utr: bool,
                     variant: VariantLookup,
                     tark: Utils.ApiSelection.TarkQuery -> seq<Transcript>,
                     overlap: string -> seq<ApiCoordinates.Feature>)
    returns (reply: Reply)
    ensures reply == BulkReply(identifiers, coordinates, assembly, include5utr, include3utr, variant, tark, overlap)
  {
    var processed := Logic.ProcessBulkData(identifiers, coordinates, assembly, include5utr, include3utr, variant, tark, overlap);
    if processed.Failure? {
      return ErrorReply(processed.error);
    }
    // The loop walks the pair; its first item is a list, which cannot be
    // indexed by 'loc_start'.
    return ErrorReply(TypeError);
  }

  /** `bulk_process` with the pair unpacked: 400 for an invalid coordinate;
      otherwise the results with their original bounds captured are
      stored and the reply is 200, unless a variant among them makes the
      capture raise, which answers 500. */
  function BulkReplyFixed(identifiers: seq<string>, coordinates: string, assembly: string,
                          include5utr: bool, include3utr: bool,
                          variant: VariantLookup,
                          tark: Utils.ApiSelection.TarkQuery -> seq<Transcript>,
                          overlap: string -> seq<ApiCoordinates.Feature>): (reply: Reply)
    ensures reply.response.status == 400 <==> BadCoordinates(coordinates)
    ensures reply.response.status == 400 ==>
      reply.response.message == Logic.FirstError(Logic.CoordinateList(coordinates)).value
    ensures var r := Logic.BulkData(identifiers, coordinates, assembly, include5utr, include3utr, variant, tark, overlap);
      reply.response.status == 200 <==> (r.Success? && forall k | 0 <= k < |r.value.results| :: r.value.results[k].Dict?)
    ensures reply.response.status == 200 ==> reply.response == Response(200, true, ProcessedMessage)
    ensures var r := Logic.BulkData(identifiers, coordinates, assembly, include5utr, include3utr, variant, tark, overlap);
      reply.response.status == 200 ==> (reply.stored.Some? && |reply.stored.value| == |r.value.results|
        && forall k | 0 <= k < |r.value.results| :: reply.stored.value[k] == GeneratorRoutes.Captured(r.value.results[k].d))
    ensures reply.response.status != 200 ==> reply.stored.None?
  {
    match Logic.BulkData(identifiers, coordinates, assembly, include5utr, include3utr, variant, tark, overlap)
    case Failure(e) => ErrorReply(e)
    case Success(outcome) =>
      match GeneratorRoutes.CaptureAll(outcome.results)
      case Failure(e) => ErrorReply(e)
      case Success(captured) => Reply(Response(200, true, ProcessedMessage), Some(captured))
  }

  /** `bulk_process` with the pair unpacked. */
  method BulkProcessFixed(identifiers: seq<string>, coordinates: string, assembly: string,
                          include5utr: bool, include3utr: bool,
                          variant: VariantLookup,
                          tark: Utils.ApiSelection.TarkQuery -> seq<Transcript>,
                          overlap: string -> seq<ApiCoordinates.Feature>)
    returns (reply: Reply)
    ensures reply == BulkReplyFixed(identifiers, coordinates, assembly, include5utr, include3utr, variant, tark, overlap)
  {
    var processed := Logic.ProcessBulkData(identifiers, coordinates, assembly, include5utr, include3utr, variant, tark, overlap);
    if processed.Failure? {
      return ErrorReply(processed.error);
    }
    var captured := GeneratorRoutes.CaptureOriginals(processed.value.results);
    if captured.Failure? {
      return ErrorReply(captured.error);
    }
    return Reply(Response(200, true, ProcessedMessage), Some(captured.value));
  }

  /** The defect on the smallest request: with no identifiers and no
      coordinates the route as written answers 500, while unpacking the
      pair answers 200 and stores an empty results list. */
  lemma EmptyRequestFails(assembly: string, include5utr: bool, include3utr: bool,
                          variant: VariantLookup,
                          tark: Utils.ApiSelection.TarkQuery -> seq<Transcript>,
                          overlap: string -> seq<ApiCoordinates.Feature>)
    ensures BulkReply([], "", assembly, include5utr, include3utr, variant, tark, overlap).response
      == Response(500, false, UnexpectedError)
    ensures BulkReplyFixed([], "", assembly, include5utr, include3utr, variant, tark, overlap)
      == Reply(Response(200, true, ProcessedMessage), Some([]))
  {
    assert Logic.BulkData([], "", assembly, include5utr, include3utr, variant, tark, overlap) == Success(Utils.Outcome([], []));
  }
}

=== FILE: generator_routes.dfy ===
/** The data-shaping steps inside the BED generator's HTTP routes
    (app/bed_generator/routes.py): capturing the original bounds of fresh
    results, recomputing padding from them, turning results into
    `bed_entry` rows, summarising warnings, the `_vN` filename rule, the
    assembly-name mapping and the set of draft files written for a
    submission. The request and response plumbing around them is not
    modelled. */
module GeneratorRoutes {
  import opened Wrappers
  import opened Strings
  import opened Records
  import opened Lists
  import BedGenerator

  // ---------------------------------------------------------------------
  // bulk_process: original bounds
  // ---------------------------------------------------------------------

  /** A result with `original_loc_start`/`original_loc_end` set to its
      current bounds; nothing else changes. */
  function Captured(r: Interval): (c: Interval)
    ensures c.originalLocStart == Some(r.locStart) && c.originalLocEnd == Some(r.locEnd)
    ensures c.(originalLocStart := r.originalLocStart, originalLocEnd := r.originalLocEnd) == r
  {
    r.(originalLocStart := Some(r.locStart), originalLocEnd := Some(r.locEnd))
  }

  /** What the loop of `bulk_process` makes of a results list: every
      result with its original bounds captured; a variant dataclass among
      them cannot be subscripted, so the loop raises TypeError. */
  function CaptureAll(results: seq<Item>): (r: Result<seq<Interval>, Fault>)
    ensures r.Success? <==> forall k | 0 <= k < |results| :: results[k].Dict?
    ensures r.Failure? ==> r.error == TypeError
    ensures r.Success? ==> (|r.value| == |results|
      && forall k | 0 <= k < |results| :: r.value[k] == Captured(results[k].d))
    decreases |results|
  {
    if |results| == 0 then Success([])
    else
      var init := results[..|results| - 1];
      var last := results[|results| - 1];
      assert forall k | 0 <= k < |init| :: init[k] == results[k];
      match CaptureAll(init)
      case Failure(e) => Failure(e)
      case Success(prev) => if last.Variant? then Failure(TypeError) else Success(prev + [Captured(last.d)])
  }

  /** The loop of `bulk_process` over the processed results, stopping at
      the first variant. */
  method CaptureOriginals(results: seq<Item>) returns (r: Result<seq<Interval>, Fault>)
    ensures r == CaptureAll(results)
  {
    var captured: seq<Interval> := [];
    var i := 0;
    while i < |results|
      invariant 0 <= i <= |results|
      invariant |captured| == i
      invariant forall k | 0 <= k < i :: results[k].Dict? && captured[k] == Captured(results[k].d)
    {
      if results[i].Variant? {
        return Failure(TypeError);
      }
      captured := captured + [Captured(results[i].d)];
      i := i + 1;
    }
    assert captured == CaptureAll(results).value;
    return Success(captured);
  }

  // ---------------------------------------------------------------------
  // adjust_padding
  // ---------------------------------------------------------------------

  /** A result that lacks one of the stored original bounds. */
  predicate MissingOriginal(r: Interval) {
    r.originalLocStart.None? || r.originalLocEnd.None?
  }

  /** What one pass of the `adjust_padding` loop body leaves in a result:
      `loc_start` is rewritten from `original_loc_start`, then `loc_end`
      from `original_loc_end`; a missing original stops the body (KeyError)
      at that assignment, after the ones before it. */
  function Repadded(r: Interval, padding5: int, padding3: int): Interval {
    match r.originalLocStart
    case None => r
    case Some(s) =>
      match r.originalLocEnd
      case None => r.(locStart := s - padding5)
      case Some(e) => r.(locStart := s - padding5, locEnd := e + padding3)
  }

  /** The loop of `adjust_padding` reaches the result at `k`: no earlier
      result lacks an original bound. */
  predicate Reached(results: seq<Interval>, k: int) {
    var f := FirstIndex(results, MissingOriginal);
    f.None? || k <= f.value
  }

  /** `adjust_padding`: every result, in place, gets its bounds recomputed
      from the stored originals, start moved down by `padding5` and end up
      by `padding3`. The first result without an original raises KeyError;
      the results after it keep their old bounds. */
  method AdjustPadding(results: array<Interval>, padding5: int, padding3: int) returns (fault: Option<Fault>)
    modifies results
    ensures fault.None? <==> forall k | 0 <= k < results.Length :: !MissingOriginal(old(results[k]))
    ensures fault.Some? ==> fault.value == KeyError
    ensures forall k | 0 <= k < results.Length ::
      results[k] == if Reached(old(results[..]), k) then Repadded(old(results[k]), padding5, padding3) else old(results[k])
  {
    ghost var before := results[..];
    var i := 0;
    while i < results.Length
      invariant 0 <= i <= results.Length
      invariant forall k | 0 <= k < i :: !MissingOriginal(before[k]) && results[k] == Repadded(before[k], padding5, padding3)
      invariant forall k | i <= k < results.Length :: results[k] == before[k]
    {
      var r := results[i];
      if MissingOriginal(r) {
        results[i] := Repadded(r, padding5, padding3);
        assert FirstIndex(before, MissingOriginal) == Some(i);
        return Some(KeyError);
      }
      results[i] := Repadded(r, padding5, padding3);
      i := i + 1;
    }
    assert FirstIndex(before, MissingOriginal).None?;
    return None;
  }

  /** A result with both originals gets exactly the padded originals as
      bounds, and nothing else about it changes. */
  lemma RepaddedBounds(r: Interval, padding5: int, padding3: int)
    requires !MissingOriginal(r)
    ensures var p := Repadded(r, padding5, padding3);
      p.locStart == r.originalLocStart.value - padding5 && p.locEnd == r.originalLocEnd.value + padding3
      && p.(locStart := r.locStart, locEnd := r.locEnd) == r
  {
  }

  /** Padding is computed from the originals only: adjusting twice is the
      same as adjusting once with the second amounts. */
  lemma RepaddedTwice(r: Interval, padding5: int, padding3: int, again5: int, again3: int)
    ensures Repadded(Repadded(r, padding5, padding3), again5, again3) == Repadded(r, again5, again3)
  {
  }

  /** Padding 0/0 after `bulk_process` gives back the bounds it captured. */
  lemma RepaddedRestores(r: Interval)
    ensures Repadded(Captured(r), 0, 0) == Captured(r)
  {
  }

  // ---------------------------------------------------------------------
  // create_bed_entries
  // ---------------------------------------------------------------------

  /** The `bed_entry` row `create_bed_entries` builds for one result. */
  function Entry(bedFileId: int, r: Interval, padding5: int, padding3: int): BedEntry {
    BedEntry(bedFileId, r.locRegion, r.locStart - padding5, r.locEnd + padding3, r.entrezId, r.gene,
             r.accession, r.exonId, r.exonNumber, r.transcriptBiotype, r.maneTranscript,
             r.maneTranscriptType, r.warning)
  }

  /** `create_bed_entries`: one row per result, in result order, each
      belonging to the new file, with start and end the CURRENT bounds
      moved outwards by `padding5` and `padding3`, and the other columns
      copied from the result. */
  method CreateBedEntries(bedFileId: int, results: seq<Interval>, padding5: int, padding3: int)
    returns (entries: seq<BedEntry>)
    ensures |entries| == |results|
    ensures forall k | 0 <= k < |results| ::
      entries[k].bedFileId == bedFileId
      && entries[k].start == results[k].locStart - padding5
      && entries[k].end == results[k].locEnd + padding3
      && entries[k] == Entry(bedFileId, results[k], padding5, padding3)
  {
    entries := [];
    var i := 0;
    while i < |results|
      invariant 0 <= i <= |results|
      invariant |entries| == i
      invariant forall k | 0 <= k < i :: entries[k] == Entry(bedFileId, results[k], padding5, padding3)
    {
      entries := entries + [Entry(bedFileId, results[i], padding5, padding3)];
      i := i + 1;
    }
  }

  /** The row of a result that went through `bulk_process` and then
      `adjust_padding`: the submission's padding is added on top of the
      padding already applied to the bounds. */
  lemma EntryOfAdjusted(bedFileId: int, r: Interval, adjust5: int, adjust3: int, padding5: int, padding3: int)
    ensures var e := Entry(bedFileId, Repadded(Captured(r), adjust5, adjust3), padding5, padding3);
      e.start == r.locStart - adjust5 - padding5 && e.end == r.locEnd + adjust3 + padding3
  {
  }

  // ---------------------------------------------------------------------
  // collect_warnings
  // ---------------------------------------------------------------------

  /** One item of the `details` list. */
  datatype WarningDetail = WarningDetail(identifier: Option<string>, message: string, kind: string)

  /** The summary `collect_warnings` serialises to JSON. */
  datatype WarningSummary = WarningSummary(summary: string, details: seq<WarningDetail>)

  const ReviewSummary := "Some transcripts require clinical review"

  function Detail(r: Interval): WarningDetail
    requires r.warning.Some?
  {
    WarningDetail(r.identifier, r.warning.value.message, r.warning.value.kind)
  }

  /** The details of the results in order: one per result with a warning. */
  function Details(results: seq<Interval>): seq<WarningDetail>
    decreases |results|
  {
    if |results| == 0 then []
    else
      var last := results[|results| - 1];
      Details(results[..|results| - 1]) + (if last.warning.Some? then [Detail(last)] else [])
  }

  /** What `collect_warnings` returns: no summary when no result has a
      warning, otherwise the review summary over all their details. */
  function Summary(results: seq<Interval>): (w: Option<WarningSummary>)
    ensures w.Some? ==> w.value.summary == ReviewSummary && w.value.details == Details(results)
  {
    var details := Details(results);
    if |details| == 0 then None else Some(WarningSummary(ReviewSummary, details))
  }

  /** `collect_warnings`. */
  method CollectWarnings(results: seq<Interval>) returns (w: Option<WarningSummary>)
    ensures w == Summary(results)
  {
    var details: seq<WarningDetail> := [];
    var i := 0;
    while i < |results|
      invariant 0 <= i <= |results|
      invariant details == Details(results[..i])
    {
      assert results[..i + 1][..i] == results[..i];
      if results[i].warning.Some? {
        details := details + [Detail(results[i])];
      }
      i := i + 1;
    }
    assert results[..i] == results;
    if |details| > 0 {
      return Some(WarningSummary(ReviewSummary, details));
    }
    return None;
  }

  /** Details of consecutive result lists are the concatenation of their
      details. */
  lemma {:induction false} DetailsConcat(a: seq<Interval>, b: seq<Interval>)
    ensures Details(a + b) == Details(a) + Details(b)
    decreases |b|
  {
    if |b| > 0 {
      var b' := b[..|b| - 1];
      assert (a + b)[..|a + b| - 1] == a + b';
      assert (a + b)[|a + b| - 1] == b[|b| - 1];
      DetailsConcat(a, b');
    } else {
      assert a + b == a;
    }
  }

  /** One result contributes its own detail iff it has a warning. */
  lemma DetailsSingle(r: Interval)
    ensures Details([r]) == if r.warning.Some? then [Detail(r)] else []
  {
    assert [r][..0] == [];
  }

  /** There is no summary exactly when no result carries a warning; every
      detail belongs to a warned result, and every warned result has its
      detail, in result order. */
  lemma {:induction false} SummaryPresence(results: seq<Interval>)
    ensures Summary(results).None? <==> forall k | 0 <= k < |results| :: results[k].warning.None?
    ensures |Details(results)| <= |results|
    ensures forall d | d in Details(results) :: exists k | 0 <= k < |results| :: results[k].warning.Some? && d == Detail(results[k])
    decreases |results|
  {
    if |results| > 0 {
      var front := results[..|results| - 1];
      SummaryPresence(front);
      forall d | d in Details(results)
        ensures exists k | 0 <= k < |results| :: results[k].warning.Some? && d == Detail(results[k])
      {
        if d in Details(front) {
          var k :| 0 <= k < |front| && front[k].warning.Some? && d == Detail(front[k]);
          assert results[k] == front[k];
        } else {
          assert results[|results| - 1].warning.Some? && d == Detail(results[|results| - 1]);
        }
      }
      if forall k | 0 <= k < |results| :: results[k].warning.None? {
        assert forall k | 0 <= k < |front| :: front[k].warning.None?;
      }
    }
  }

  // ---------------------------------------------------------------------
  // increment_version_number and the `_vN` suffix
  // ---------------------------------------------------------------------

  /** The longest run of ASCII digits at the end of `s`. */
  function TrailingDigits(s: string): (d: string)
    ensures |d| <= |s| && d == s[|s| - |d|..] && AllDigits(d)
    ensures |d| < |s| ==> !IsDigit(s[|s| - |d| - 1])
    decreases |s|
  {
    if |s| > 0 && IsDigit(s[|s| - 1]) then TrailingDigits(s[..|s| - 1]) + [s[|s| - 1]] else ""
  }

  /** A match of `_v(\d+)` at the end of `s`: the text before `_v` and the
      digits. */
  function VersionSuffix(s: string): Option<(string, string)> {
    var digits := TrailingDigits(s);
    var rest := s[..|s| - |digits|];
    if |digits| > 0 && |rest| >= 2 && rest[|rest| - 2..] == "_v" then Some((rest[..|rest| - 2], digits))
    else None
  }

  /** A suffix that is found splits the name into the stem, `_v` and a
      non-empty run of digits. */
  lemma VersionSuffixSound(s: string)
    ensures var v := VersionSuffix(s);
      v.Some? ==> s == v.value.0 + "_v" + v.value.1 && |v.value.1| > 0 && AllDigits(v.value.1)
  {
    var digits := TrailingDigits(s);
    var rest := s[..|s| - |digits|];
    if |digits| > 0 && |rest| >= 2 && rest[|rest| - 2..] == "_v" {
      assert s == rest + digits;
      assert rest == rest[..|rest| - 2] + "_v";
    }
  }

  /** Every name that ends in `_v` and digits has its suffix found, and
      split exactly there. */
  lemma VersionSuffixOf(stem: string, digits: string)
    requires |digits| > 0 && AllDigits(digits)
    ensures VersionSuffix(stem + "_v" + digits) == Some((stem, digits))
  {
    var s := stem + "_v" + digits;
    TrailingDigitsOf(stem + "_v", digits);
    assert s[..|s| - |digits|] == stem + "_v";
  }

  /** The trailing digits of a text ending in a non-digit followed by
      digits are exactly those digits. */
  lemma {:induction false} TrailingDigitsOf(x: string, digits: string)
    requires |x| > 0 && !IsDigit(x[|x| - 1]) && AllDigits(digits)
    ensures TrailingDigits(x + digits) == digits
    decreases |digits|
  {
    if |digits| == 0 {
      assert x + digits == x;
    } else {
      var front := digits[..|digits| - 1];
      assert (x + digits)[..|x + digits| - 1] == x + front;
      TrailingDigitsOf(x, front);
      assert front + [digits[|digits| - 1]] == digits;
    }
  }

  /** The version in a name ending in `_v` and digits, with an optional
      final newline (`$` matches before it). */
  function VersionOf(filename: string): Option<nat> {
    match VersionSuffix(RegexBody(filename))
    case Some((_, digits)) => Some(DigitsValue(digits))
    case None => None
  }

  /** `increment_version_number`: a final `_vN` becomes `_v(N+1)`, and a name
      without one gets `_v2` appended. */
  function IncrementVersionNumber(filename: string): string {
    var body := RegexBody(filename);
    match VersionSuffix(body)
    case Some((stem, digits)) => stem + "_v" + IntToString(DigitsValue(digits) + 1) + filename[|body|..]
    case None => filename + "_v2"
  }

  /** A versioned name keeps everything before its `_v` and gets the next
      number, with or without a final newline (leading zeros are read as
      `int()` reads them). */
  lemma IncrementNumbered(stem: string, digits: string)
    requires |digits| > 0 && AllDigits(digits)
    ensures IncrementVersionNumber(stem + "_v" + digits) == stem + "_v" + NatToString(DigitsValue(digits) + 1)
    ensures IncrementVersionNumber(stem + "_v" + digits + "\n") == stem + "_v" + NatToString(DigitsValue(digits) + 1) + "\n"
  {
    VersionSuffixOf(stem, digits);
    var s := stem + "_v" + digits;
    assert s[|s| - 1] == digits[|digits| - 1];
    assert IntToString(DigitsValue(digits) + 1) == NatToString(DigitsValue(digits) + 1);
    assert RegexBody(s) == s;
    IncrementAt(s, stem, digits);
    assert s[|s|..] == [];
    var t := s + "\n";
    assert t[..|t| - 1] == s;
    assert RegexBody(t) == s;
    IncrementAt(t, stem, digits);
    assert t[|s|..] == "\n";
  }

  /** Incrementing a name whose regex body has a version suffix. */
  lemma IncrementAt(name: string, stem: string, digits: string)
    requires VersionSuffix(RegexBody(name)) == Some((stem, digits))
    ensures IncrementVersionNumber(name) == stem + "_v" + IntToString(DigitsValue(digits) + 1) + name[|RegexBody(name)|..]
  {
  }

  /** Incrementing `_vN` gives `_v(N+1)`. */
  lemma IncrementNext(stem: string, n: nat)
    ensures IncrementVersionNumber(stem + "_v" + NatToString(n)) == stem + "_v" + NatToString(n + 1)
    ensures VersionOf(stem + "_v" + NatToString(n + 1)) == Some(n + 1)
  {
    NatToStringValue(n);
    NatToStringValue(n + 1);
    IncrementNumbered(stem, NatToString(n));
    var s := stem + "_v" + NatToString(n + 1);
    VersionSuffixOf(stem, NatToString(n + 1));
    assert s[|s| - 1] == NatToString(n + 1)[|NatToString(n + 1)| - 1];
    assert RegexBody(s) == s;
  }

  /** A name that does not end in a digit or a newline gets `_v2`. */
  lemma IncrementUnnumbered(filename: string)
    requires |filename| > 0 && !IsDigit(filename[|filename| - 1]) && filename[|filename| - 1] != '\n'
    ensures IncrementVersionNumber(filename) == filename + "_v2"
  {
    assert RegexBody(filename) == filename;
    assert TrailingDigits(filename) == "";
    IncrementUnversioned(filename);
  }

  /** A name without a version gets `_v2`. */
  lemma IncrementUnversioned(filename: string)
    requires VersionOf(filename).None?
    ensures IncrementVersionNumber(filename) == filename + "_v2"
  {
  }

  // ---------------------------------------------------------------------
  // submit_for_review: the assembly name
  // ---------------------------------------------------------------------

  const Grch37 := "GRCh37"
  const Grch38 := "GRCh38"
  const UnknownAssembly := "UNKNOWN"

  /** The `assembly_mapping` lookup of `submit_for_review`. */
  function NormalizeAssembly(assembly: string): (a: string)
    ensures a == Grch37 <==> (assembly == "hg19" || assembly == Grch37)
    ensures a == Grch38 <==> (assembly == "hg38" || assembly == Grch38)
    ensures a == Grch37 || a == Grch38 || a == UnknownAssembly
  {
    if assembly == "hg19" || assembly == Grch37 then Grch37
    else if assembly == "hg38" || assembly == Grch38 then Grch38
    else UnknownAssembly
  }

  /** Mapping a mapped name again changes nothing. */
  lemma NormalizeIdempotent(assembly: string)
    ensures NormalizeAssembly(NormalizeAssembly(assembly)) == NormalizeAssembly(assembly)
  {
  }

  // ---------------------------------------------------------------------
  // generate_bed_files
  // ---------------------------------------------------------------------

  /** A file written to the draft directory. */
  datatype OutputFile = OutputFile(name: string, content: string)

  /** The keys of the `bed_types` dictionary of `generate_bed_files`, in
      order. */
  const RouteBedTypes: seq<string> := ["raw", "data", "sambamba", "exomeDepth", "CNV"]

  /** The layout `BedGenerator` writes each padded file type in. */
  function RouteLayout(bedType: string): (layout: string)
    ensures bedType in RouteBedTypes[1..] ==> BedGenerator.IsFormat(layout)
  {
    if bedType == "exomeDepth" then "exome_depth" else if bedType == "CNV" then "cnv" else bedType
  }

  /** The content of one file type: the raw file is never padded, the
      others in their own layout with the given padding on both sides. */
  function FileContent(bedType: string, results: seq<Interval>, padding: int): string
    requires bedType in RouteBedTypes
  {
    if bedType == "raw" then BedGenerator.CreateRawBed(results, false)
    else BedGenerator.CreateBed(results, padding, RouteLayout(bedType), false).value
  }

  /** `generate_bed_files` as written: `settings.get('padding', {})` finds no
      `padding` key in the settings dictionary, so every file is written
      with padding 0. */
  function GeneratedFiles(filename: string, results: seq<Interval>, settings: Settings): (files: seq<OutputFile>)
    ensures |files| == |RouteBedTypes|
    ensures forall k | 0 <= k < |files| :: files[k].name == filename + "_" + RouteBedTypes[k] + ".bed"
  {
    assert SettingsGet(settings, "padding").None?;
    seq(|RouteBedTypes|, k requires 0 <= k < |RouteBedTypes| =>
      OutputFile(filename + "_" + RouteBedTypes[k] + ".bed", FileContent(RouteBedTypes[k], results, 0)))
  }

  /** The padding setting of a file type. */
  function FilePadding(settings: Settings, bedType: string): int {
    if bedType == "data" then settings.dataPadding
    else if bedType == "sambamba" then settings.sambambaPadding
    else if bedType == "exomeDepth" then settings.exomeDepthPadding
    else if bedType == "CNV" then settings.cnvPadding
    else 0
  }

  /** `generate_bed_files` with each padded file taking its own padding
      setting. */
  function GeneratedFilesFixed(filename: string, results: seq<Interval>, settings: Settings): (files: seq<OutputFile>)
    ensures |files| == |RouteBedTypes|
    ensures forall k | 0 <= k < |files| :: files[k].name == filename + "_" + RouteBedTypes[k] + ".bed"
    ensures files[0].content == BedGenerator.CreateRawBed(results, false)
    ensures forall k | 1 <= k < |files| ::
      BedGenerator.CreateBed(results, FilePadding(settings, RouteBedTypes[k]), RouteLayout(RouteBedTypes[k]), false)
        == Success(files[k].content)
  {
    seq(|RouteBedTypes|, k requires 0 <= k < |RouteBedTypes| =>
      OutputFile(filename + "_" + RouteBedTypes[k] + ".bed",
                 FileContent(RouteBedTypes[k], results, FilePadding(settings, RouteBedTypes[k]))))
  }

  /** As written, the files do not depend on the settings, and they are
      the intended files for all-zero settings. */
  lemma SettingsIgnored(filename: string, results: seq<Interval>, settings: Settings)
    ensures GeneratedFiles(filename, results, settings) == GeneratedFilesFixed(filename, results, Settings(0, 0, 0, 0))
  {
  }

  /** A one-record data file: a non-zero `data_padding` setting moves the
      start column, but the file as written keeps the unpadded start. */
  lemma DataPaddingDropped(filename: string, r: Interval, settings: Settings)
    requires BedGenerator.PlainRecord(r) && settings.dataPadding != 0
    ensures GeneratedFiles(filename, [r], settings)[1].content != GeneratedFilesFixed(filename, [r], settings)[1].content
  {
    var p := settings.dataPadding;
    var plain := BedGenerator.FormatBedLine(r, 0, "data", false).value;
    var padded := BedGenerator.FormatBedLine(r, p, "data", false).value;
    assert [r][1..] == [];
    assert BedGenerator.CreateBed([r], 0, "data", false) == Success(plain);
    assert BedGenerator.CreateBed([r], p, "data", false) == Success(padded);
    BedGenerator.DataLineLayout(r, 0, false);
    BedGenerator.DataLineLayout(r, p, false);
    assert BedGenerator.Columns(plain)[1] != BedGenerator.Columns(padded)[1];
  }
}

=== FILE: lists.dfy ===
/** List helpers with the meaning of the Python built-ins they stand for. */
module Lists {
  import opened Wrappers

  /** Python's `max(xs, key=f)` picks the FIRST element whose key is
      maximal (`max` replaces its running best only on a strictly greater
      key). */
  function FirstMaxIndex(keys: seq<int>): (k: nat)
    requires |keys| > 0
    ensures k < |keys|
    ensures forall j | 0 <= j < |keys| :: keys[j] <= keys[k]
    ensures forall j | 0 <= j < k :: keys[j] < keys[k]
    decreases |keys|
  {
    if |keys| == 1 then 0
    else
      var best := FirstMaxIndex(keys[..|keys| - 1]);
      if keys[|keys| - 1] > keys[best] then |keys| - 1 else best
  }

  /** `[x for x in xs if p(x)]`. */
  function Filter<T>(xs: seq<T>, p: T -> bool): (r: seq<T>)
    ensures |r| <= |xs|
    ensures forall x | x in r :: x in xs && p(x)
    ensures forall x | x in xs && p(x) :: x in r
    decreases |xs|
  {
    if |xs| == 0 then [] else (if p(xs[0]) then [xs[0]] else []) + Filter(xs[1..], p)
  }

  /** The position `next(x for x in xs if p(x))` takes its element from. */
  function FirstIndex<T>(xs: seq<T>, p: T -> bool): (k: Option<nat>)
    ensures k.Some? ==> k.value < |xs| && p(xs[k.value]) && forall j | 0 <= j < k.value :: !p(xs[j])
    ensures k.None? ==> forall j | 0 <= j < |xs| :: !p(xs[j])
    decreases |xs|
  {
    if |xs| == 0 then None
    else if p(xs[0]) then Some(0)
    else match FirstIndex(xs[1..], p) case None => None case Some(k) => Some(k + 1)
  }

  /** The first element kept by a filter is the first element that
      satisfies the predicate. */
  lemma {:induction false} FilterFirst<T>(xs: seq<T>, p: T -> bool, k: nat)
    requires k < |xs| && p(xs[k]) && forall j | 0 <= j < k :: !p(xs[j])
    ensures |Filter(xs, p)| > 0 && Filter(xs, p)[0] == xs[k]
    decreases k
  {
    if k > 0 {
      FilterFirst(xs[1..], p, k - 1);
    }
  }

  /** The first index satisfying `p` in a sequence with one more element
      at the end. */
  lemma {:induction false} FirstIndexSnoc<T>(xs: seq<T>, x: T, p: T -> bool)
    ensures var f := FirstIndex(xs, p);
      FirstIndex(xs + [x], p) == (if f.Some? then f else if p(x) then Some(|xs|) else None)
    decreases |xs|
  {
    if |xs| > 0 {
      assert (xs + [x])[1..] == xs[1..] + [x];
      FirstIndexSnoc(xs[1..], x, p);
    }
  }

  /** Names the first element of a non-empty sequence, for the proofs that
      a filtered list is empty. */
  lemma HeadIn<T>(s: seq<T>)
    ensures |s| > 0 ==> s[0] in s
  {
  }
}

=== FILE: logic.dfy ===
/** The request-level logic of the BED generator
    (app/bed_generator/logic.py): turning the form and the bulk JSON into
    identifier and coordinate lookups, the MANE Plus Clinical gene set of a
    result list, and the single-file download. */
module Logic {
  import opened Wrappers
  import opened Strings
  import opened Records
  import opened Lists
  import Utils
  import ApiCoordinates
  import BedGenerator
  import GeneratorRoutes

  // ---------------------------------------------------------------------
  // process_form_data
  // ---------------------------------------------------------------------

  const Newline: set<char> := {'\n'}

  /** The `initial_query` dictionary the form path returns. */
  datatype InitialQuery = InitialQuery(identifiers: seq<string>, coordinates: seq<string>, assembly: string,
                                       include5utr: bool, include3utr: bool)

  /** The triple `process_form_data` returns. */
  datatype FormOutcome = FormOutcome(results: seq<Interval>, noData: seq<string>, query: InitialQuery)

  /** `[r for r in items if isinstance(r, dict)]`. */
  function DictsOf(items: seq<Item>): (ds: seq<Interval>)
    ensures |ds| <= |items|
    ensures forall d | d in ds :: Dict(d) in items
    ensures forall k | 0 <= k < |items| && items[k].Dict? :: items[k].d in ds
    decreases |items|
  {
    if |items| == 0 then []
    else
      var last := items[|items| - 1];
      DictsOf(items[..|items| - 1]) + (if last.Dict? then [last.d] else [])
  }

  /** Keeping the dictionaries of consecutive lists keeps those of each. */
  lemma {:induction false} DictsOfConcat(a: seq<Item>, b: seq<Item>)
    ensures DictsOf(a + b) == DictsOf(a) + DictsOf(b)
    decreases |b|
  {
    if |b| > 0 {
      var b' := b[..|b| - 1];
      assert (a + b)[..|a + b| - 1] == a + b';
      assert (a + b)[|a + b| - 1] == b[|b| - 1];
      DictsOfConcat(a, b');
    } else {
      assert a + b == a;
    }
  }

  /** The identifiers of the form: its text split on whitespace. */
  function FormIdentifiers(identifiersText: string): seq<string> {
    if identifiersText != "" then SplitWhitespace(identifiersText) else []
  }

  /** The coordinates of the form: its text split on newlines, unstripped. */
  function FormCoordinates(coordinatesText: string): seq<string> {
    if coordinatesText != "" then Split(coordinatesText, Newline) else []
  }

  /** The identifier lookups of the form path. */
  function FormFound(identifiersText: string, assembly: string, include5utr: bool, include3utr: bool,
                     variant: VariantLookup,
                     tark: Utils.ApiSelection.TarkQuery -> seq<Transcript>): Utils.Outcome
  {
    if identifiersText != "" then Utils.Aggregate(FormIdentifiers(identifiersText), assembly, include5utr, include3utr, variant, tark)
    else Utils.Outcome([], [])
  }

  /** The coordinate lookups of the form path. */
  function FormLocated(coordinatesText: string, assembly: string, overlap: string -> seq<ApiCoordinates.Feature>): seq<Interval> {
    if coordinatesText != "" then Utils.CoordinateResults(FormCoordinates(coordinatesText), assembly, overlap) else []
  }

  /** What `process_form_data` returns for the identifier and coordinate
      text boxes (an empty box is Python's falsy `data`): identifiers split
      on whitespace, coordinates on newlines only and not stripped, and
      only dictionary results kept. */
  function FormData(identifiersText: string, coordinatesText: string, assembly: string,
                    include5utr: bool, include3utr: bool,
                    variant: VariantLookup,
                    tark: Utils.ApiSelection.TarkQuery -> seq<Transcript>,
                    overlap: string -> seq<ApiCoordinates.Feature>): FormOutcome
  {
    var found := FormFound(identifiersText, assembly, include5utr, include3utr, variant, tark);
    FormOutcome(DictsOf(found.results) + FormLocated(coordinatesText, assembly, overlap), found.noData,
                InitialQuery(FormIdentifiers(identifiersText), FormCoordinates(coordinatesText), assembly, include5utr, include3utr))
  }

  /** `process_form_data`. */
  method ProcessFormData(identifiersText: string, coordinatesText: string, assembly: string,
                         include5utr: bool, include3utr: bool,
                         variant: VariantLookup,
                         tark: Utils.ApiSelection.TarkQuery -> seq<Transcript>,
                         overlap: string -> seq<ApiCoordinates.Feature>)
    returns (results: seq<Interval>, noDataIdentifiers: seq<string>, query: InitialQuery)
    ensures FormOutcome(results, noDataIdentifiers, query)
      == FormData(identifiersText, coordinatesText, assembly, include5utr, include3utr, variant, tark, overlap)
  {
    results := [];
    noDataIdentifiers := [];
    query := InitialQuery(FormIdentifiers(identifiersText), FormCoordinates(coordinatesText), assembly, include5utr, include3utr);
    if identifiersText != "" {
      var processed, noData := Utils.ProcessIdentifiers(FormIdentifiers(identifiersText), assembly, include5utr, include3utr, variant, tark);
      results := results + DictsOf(processed);
      noDataIdentifiers := noDataIdentifiers + noData;
    }
    ghost var found := FormFound(identifiersText, assembly, include5utr, include3utr, variant, tark);
    assert results == DictsOf(found.results) && noDataIdentifiers == found.noData;
    if coordinatesText != "" {
      var located := Utils.ProcessCoordinates(FormCoordinates(coordinatesText), assembly, overlap);
      results := results + located;
    } else {
      assert results + FormLocated(coordinatesText, assembly, overlap) == results;
    }
  }

  /** On the form path a resolved rsID is dropped: its variant is not a
      dictionary, and the identifier is not reported as lacking data
      either. */
  lemma FormDropsVariant(identifier: string, assembly: string, include5utr: bool, include3utr: bool,
                         variant: VariantLookup,
                         tark: Utils.ApiSelection.TarkQuery -> seq<Transcript>,
                         overlap: string -> seq<ApiCoordinates.Feature>)
    requires Utils.IsRsId(identifier) && variant(identifier, assembly).Success? && variant(identifier, assembly).value.Some?
    requires SplitWhitespace(identifier) == [identifier]
    ensures var f := FormData(identifier, "", assembly, include5utr, include3utr, variant, tark, overlap);
      f.results == [] && f.noData == []
  {
    Utils.AggregateStep([], identifier, assembly, include5utr, include3utr, variant, tark);
    assert [] + [identifier] == [identifier];
    var v := Variant(variant(identifier, assembly).value.value);
    assert [v][..0] == [];
  }

  /** On the form path a line that fails validation is skipped without an
      error. */
  lemma FormSkipsInvalid(line: string, assembly: string, include5utr: bool, include3utr: bool,
                         variant: VariantLookup,
                         tark: Utils.ApiSelection.TarkQuery -> seq<Transcript>,
                         overlap: string -> seq<ApiCoordinates.Feature>)
    requires line != "" && Free(line, Newline) && ApiCoordinates.ValidateCoordinates(line).Some?
    ensures FormData("", line, assembly, include5utr, include3utr, variant, tark, overlap).results == []
  {
    SplitFree(line, Newline);
    assert FormCoordinates(line) == [line];
    assert [line][..0] == [];
    assert ApiCoordinates.CoordinateInfo(line, assembly, overlap).Failure?;
    assert Utils.CoordinateResults([line], assembly, overlap) == [];
    assert FormFound("", assembly, include5utr, include3utr, variant, tark) == Utils.Outcome([], []);
  }

  // ---------------------------------------------------------------------
  // process_bulk_data
  // ---------------------------------------------------------------------

  const CoordinateSeparators: set<char> := {',', '\n'}

  predicate NonBlank(c: string) { c != "" }

  /** The stripped form of every piece. */
  function Stripped(parts: seq<string>): (s: seq<string>)
    ensures |s| == |parts| && forall k | 0 <= k < |parts| :: s[k] == Strip(parts[k])
  {
    seq(|parts|, k requires 0 <= k < |parts| => Strip(parts[k]))
  }

  /** `[c.strip() for c in re.split(r'[,\n]', text) if c.strip()]`. */
  function CoordinateList(text: string): seq<string> {
    Filter(Stripped(Split(text, CoordinateSeparators)), NonBlank)
  }

  /** Every listed coordinate is non-empty and already stripped, and every
      piece of the text that is not blank is listed, stripped. */
  lemma CoordinateListClean(text: string)
    ensures forall c | c in CoordinateList(text) :: c != "" && Strip(c) == c
    ensures forall p | p in Split(text, CoordinateSeparators) && Strip(p) != "" :: Strip(p) in CoordinateList(text)
  {
    var parts := Split(text, CoordinateSeparators);
    var s := Stripped(parts);
    var list := CoordinateList(text);
    assert list == Filter(s, NonBlank);
    forall c | c in list ensures c != "" && Strip(c) == c {
      assert c in s && NonBlank(c);
      var k :| 0 <= k < |s| && s[k] == c;
      assert c == Strip(parts[k]);
      StripPlain(c);
    }
    forall p | p in parts && Strip(p) != "" ensures Strip(p) in list {
      var k :| 0 <= k < |parts| && parts[k] == p;
      assert s[k] == Strip(p);
      assert s[k] in s && NonBlank(s[k]);
    }
  }

  predicate Invalid(coord: string) { ApiCoordinates.ValidateCoordinates(coord).Some? }

  /** The message of the first coordinate that fails validation. */
  function FirstError(coords: seq<string>): (error: Option<string>)
    ensures error.None? <==> forall k | 0 <= k < |coords| :: !Invalid(coords[k])
    ensures error.Some? ==> exists k | 0 <= k < |coords| ::
      error == ApiCoordinates.ValidateCoordinates(coords[k]) && forall j | 0 <= j < k :: !Invalid(coords[j])
  {
    match FirstIndex(coords, Invalid)
    case Some(k) => ApiCoordinates.ValidateCoordinates(coords[k])
    case None => None
  }

  /** The validation loop of `process_bulk_data`: stop at the first
      coordinate with an error. */
  method CheckCoordinates(coords: seq<string>) returns (error: Option<string>)
    ensures error == FirstError(coords)
  {
    var i := 0;
    while i < |coords|
      invariant 0 <= i <= |coords|
      invariant forall j | 0 <= j < i :: !Invalid(coords[j])
    {
      var e := ApiCoordinates.ValidateCoordinates(coords[i]);
      if e.Some? {
        FirstErrorAt(coords, i);
        return e;
      }
      i := i + 1;
    }
    return None;
  }

  /** The first invalid coordinate gives the error. */
  lemma FirstErrorAt(coords: seq<string>, i: nat)
    requires i < |coords| && Invalid(coords[i]) && forall j | 0 <= j < i :: !Invalid(coords[j])
    ensures FirstError(coords) == ApiCoordinates.ValidateCoordinates(coords[i])
  {
    var f := FirstIndex(coords, Invalid);
    assert f == Some(i);
  }

  /** The identifier lookups of the bulk path (skipped for an empty list). */
  function BulkFound(identifiers: seq<string>, assembly: string, include5utr: bool, include3utr: bool,
                     variant: VariantLookup,
                     tark: Utils.ApiSelection.TarkQuery -> seq<Transcript>): Utils.Outcome
  {
    if |identifiers| > 0 then Utils.Aggregate(identifiers, assembly, include5utr, include3utr, variant, tark)
    else Utils.Outcome([], [])
  }

  /** What `process_bulk_data` returns: the identifier results, then (when
      there is coordinate text) the records of every listed coordinate,
      after ALL coordinates passed validation; the first invalid one raises
      ValueError with its message. The flattening loops find no nested
      lists: both lookups return flat lists. */
  function BulkData(identifiers: seq<string>, coordinates: string, assembly: string,
                    include5utr: bool, include3utr: bool,
                    variant: VariantLookup,
                    tark: Utils.ApiSelection.TarkQuery -> seq<Transcript>,
                    overlap: string -> seq<ApiCoordinates.Feature>): (r: Result<Utils.Outcome, Fault>)
    ensures r.Failure? <==> (coordinates != "" && FirstError(CoordinateList(coordinates)).Some?)
    ensures r.Failure? ==> r.error == ValueError(FirstError(CoordinateList(coordinates)).value)
  {
    var found := BulkFound(identifiers, assembly, include5utr, include3utr, variant, tark);
    if coordinates == "" then Success(found)
    else
      var coords := CoordinateList(coordinates);
      match FirstError(coords)
      case Some(e) => Failure(ValueError(e))
      case None =>
        Success(found.(results := found.results + Utils.Dicts(Utils.CoordinateResults(coords, assembly, overlap))))
  }

  /** `process_bulk_data`. */
  method ProcessBulkData(identifiers: seq<string>, coordinates: string, assembly: string,
                         include5utr: bool, include3utr: bool,
                         variant: VariantLookup,
                         tark: Utils.ApiSelection.TarkQuery -> seq<Transcript>,
                         overlap: string -> seq<ApiCoordinates.Feature>)
    returns (r: Result<Utils.Outcome, Fault>)
    ensures r == BulkData(identifiers, coordinates, assembly, include5utr, include3utr, variant, tark, overlap)
  {
    var results: seq<Item> := [];
    var noDataIdentifiers: seq<string> := [];
    if |identifiers| > 0 {
      var processed, noData := Utils.ProcessIdentifiers(identifiers, assembly, include5utr, include3utr, variant, tark);
      results := results + processed;
      noDataIdentifiers := noDataIdentifiers + noData;
    }
    ghost var found := BulkFound(identifiers, assembly, include5utr, include3utr, variant, tark);
    assert Utils.Outcome(results, noDataIdentifiers) == found;
    if coordinates != "" {
      var coords := CoordinateList(coordinates);
      var error := CheckCoordinates(coords);
      if error.Some? {
        return Failure(ValueError(error.value));
      }
      var located := Utils.ProcessCoordinates(coords, assembly, overlap);
      results := results + Utils.Dicts(located);
    }
    return Success(Utils.Outcome(results, noDataIdentifiers));
  }

  /** Blank coordinate text lists no coordinate. */
  lemma CoordinateListEmpty()
    ensures CoordinateList("") == []
  {
    assert Split("", CoordinateSeparators) == [""];
    assert Stripped([""]) == [""];
    assert Filter([""], NonBlank) == [];
  }

  /** The bulk path raises exactly when some listed coordinate is invalid. */
  lemma BulkDataFails(identifiers: seq<string>, coordinates: string, assembly: string,
                      include5utr: bool, include3utr: bool,
                      variant: VariantLookup,
                      tark: Utils.ApiSelection.TarkQuery -> seq<Transcript>,
                      overlap: string -> seq<ApiCoordinates.Feature>)
    ensures var coords := CoordinateList(coordinates);
      var r := BulkData(identifiers, coordinates, assembly, include5utr, include3utr, variant, tark, overlap);
      r.Failure? <==> exists k | 0 <= k < |coords| :: Invalid(coords[k])
  {
    var coords := CoordinateList(coordinates);
    var r := BulkData(identifiers, coordinates, assembly, include5utr, include3utr, variant, tark, overlap);
    if coordinates == "" {
      CoordinateListEmpty();
      assert coords == [];
      assert r.Success?;
    } else {
      var e := FirstError(coords);
      assert r.Failure? <==> e.Some?;
    }
  }

  /** When the bulk path succeeds, its identifier results come first,
      unchanged, and every later result is a dictionary on the region of a
      listed coordinate. */
  lemma BulkDataOrder(identifiers: seq<string>, coordinates: string, assembly: string,
                      include5utr: bool, include3utr: bool,
                      variant: VariantLookup,
                      tark: Utils.ApiSelection.TarkQuery -> seq<Transcript>,
                      overlap: string -> seq<ApiCoordinates.Feature>)
    ensures var r := BulkData(identifiers, coordinates, assembly, include5utr, include3utr, variant, tark, overlap);
      var found := BulkFound(identifiers, assembly, include5utr, include3utr, variant, tark);
      var coords := CoordinateList(coordinates);
      r.Success? ==> (r.value.noData == found.noData
        && r.value.results[..|found.results|] == found.results
        && forall k | |found.results| <= k < |r.value.results| ::
             r.value.results[k].Dict? && OnListedRegion(r.value.results[k].d, coords))
  {
    var r := BulkData(identifiers, coordinates, assembly, include5utr, include3utr, variant, tark, overlap);
    var found := BulkFound(identifiers, assembly, include5utr, include3utr, variant, tark);
    var coords := CoordinateList(coordinates);
    if r.Success? {
      var located := BulkDataValue(identifiers, coordinates, assembly, include5utr, include3utr, variant, tark, overlap);
      if coordinates != "" {
        CoordinateResultsListed(coords, assembly, overlap);
      }
      DictsListed(found.results, located, coords);
    }
  }

  /** A successful bulk result: the identifier outcome with the records
      `located` appended, none of them without coordinate text. */
  lemma BulkDataValue(identifiers: seq<string>, coordinates: string, assembly: string,
                      include5utr: bool, include3utr: bool,
                      variant: VariantLookup,
                      tark: Utils.ApiSelection.TarkQuery -> seq<Transcript>,
                      overlap: string -> seq<ApiCoordinates.Feature>)
    returns (located: seq<Interval>)
    requires BulkData(identifiers, coordinates, assembly, include5utr, include3utr, variant, tark, overlap).Success?
    ensures var found := BulkFound(identifiers, assembly, include5utr, include3utr, variant, tark);
      BulkData(identifiers, coordinates, assembly, include5utr, include3utr, variant, tark, overlap).value
        == found.(results := found.results + Utils.Dicts(located))
    ensures coordinates == "" ==> located == []
    ensures coordinates != "" ==> located == Utils.CoordinateResults(CoordinateList(coordinates), assembly, overlap)
  {
    var found := BulkFound(identifiers, assembly, include5utr, include3utr, variant, tark);
    if coordinates == "" {
      located := [];
      assert found.results + Utils.Dicts(located) == found.results;
    } else {
      located := Utils.CoordinateResults(CoordinateList(coordinates), assembly, overlap);
    }
  }

  /** Records on listed regions, appended as dictionaries after `prefix`. */
  lemma DictsListed(prefix: seq<Item>, located: seq<Interval>, coords: seq<string>)
    requires forall rec | rec in located :: OnListedRegion(rec, coords)
    ensures var all := prefix + Utils.Dicts(located);
      all[..|prefix|] == prefix
      && forall k | |prefix| <= k < |all| :: all[k].Dict? && OnListedRegion(all[k].d, coords)
  {
    var all := prefix + Utils.Dicts(located);
    assert all[..|prefix|] == prefix;
    forall k | |prefix| <= k < |all|
      ensures all[k].Dict? && OnListedRegion(all[k].d, coords)
    {
      assert all[k] == Utils.Dicts(located)[k - |prefix|];
      assert located[k - |prefix|] in located;
    }
  }

  /** A record on the region the written parse gives for one of the
      coordinates. */
  predicate OnListedRegion(rec: Interval, coords: seq<string>) {
    exists c | c in coords :: ApiCoordinates.ParseCoordinate(c).Success?
      && rec.locRegion == ApiCoordinates.ParseCoordinate(c).value.chrom
      && rec.locStart == ApiCoordinates.ParseCoordinate(c).value.start
      && rec.locEnd == ApiCoordinates.ParseCoordinate(c).value.end
  }

  lemma CoordinateResultsListed(coords: seq<string>, assembly: string, overlap: string -> seq<ApiCoordinates.Feature>)
    ensures forall rec | rec in Utils.CoordinateResults(coords, assembly, overlap) :: OnListedRegion(rec, coords)
  {
    Utils.CoordinateResultsValid(coords, assembly, overlap);
  }

  // ---------------------------------------------------------------------
  // get_mane_plus_clinical_identifiers
  // ---------------------------------------------------------------------

  const ManePlusClinical := "MANE PLUS CLINICAL"

  /** A dictionary result whose `mane_transcript_type` is exactly
      `MANE PLUS CLINICAL`. */
  predicate IsManePlusClinical(item: Item) {
    item.Dict? && item.d.maneTranscriptType == Some(ManePlusClinical)
  }

  /** `get_mane_plus_clinical_identifiers`: the gene names of the MANE Plus
      Clinical dictionary results; empty exactly when there is none. */
  function ManePlusClinicalIdentifiers(results: seq<Item>): (genes: set<string>)
    ensures forall k | 0 <= k < |results| && IsManePlusClinical(results[k]) :: results[k].d.gene in genes
    ensures forall g | g in genes :: exists k | 0 <= k < |results| :: IsManePlusClinical(results[k]) && results[k].d.gene == g
    ensures |genes| == 0 <==> forall k | 0 <= k < |results| :: !IsManePlusClinical(results[k])
  {
    var genes := set k | 0 <= k < |results| && IsManePlusClinical(results[k]) :: results[k].d.gene;
    assert forall k | 0 <= k < |results| && IsManePlusClinical(results[k]) :: results[k].d.gene in genes;
    genes
  }

  // ---------------------------------------------------------------------
  // generate_bed_file
  // ---------------------------------------------------------------------

  /** The download name: `{prefix}_{bed_type}.bed`, or `{bed_type}.bed`
      without a prefix (the type keeps its case). */
  function DownloadName(prefix: string, bedType: string): string {
    if prefix != "" then prefix + "_" + bedType + ".bed" else bedType + ".bed"
  }

  /** `generate_bed_file` as written: the raw file is built; for every other
      type the padding lookup runs and then the call of
      `BedGenerator.create_formatted_bed`, which the class does not define,
      raises AttributeError. */
  function GenerateBedFile(bedType: string, results: seq<Interval>, prefix: string, settings: Settings,
                                    addChrPrefix: bool): (r: Result<GeneratorRoutes.OutputFile, Fault>)
    ensures r.Failure? <==> bedType != "raw"
    ensures r.Failure? ==> r.error == AttributeError
    ensures r.Success? ==> r.value == GeneratorRoutes.OutputFile(DownloadName(prefix, "raw"), BedGenerator.CreateRawBed(results, addChrPrefix))
  {
    if bedType == "raw" then Success(GeneratorRoutes.OutputFile(DownloadName(prefix, "raw"), BedGenerator.CreateRawBed(results, addChrPrefix)))
    else Failure(AttributeError)
  }

  /** The layout a file type is written in, matched case-insensitively;
      `exomeDepth` is the `exome_depth` layout. */
  function LayoutKey(bedType: string): string {
    var key := Lower(bedType);
    if key == "exomedepth" then "exome_depth" else key
  }

  /** The settings key of a file type's padding, as `Settings.to_dict`
      spells it. */
  function PaddingKey(bedType: string): string {
    var key := Lower(bedType);
    if key == "exomedepth" then "exomeDepth_padding" else key + "_padding"
  }

  /** `generate_bed_file` as its documentation describes it: the raw file
      unpadded, any other type in its layout padded by its own setting
      (0 when unset); an unknown type raises ValueError from `create_bed`
      unless there are no results. */
  function GenerateBedFileFixed(bedType: string, results: seq<Interval>, prefix: string, settings: Settings,
                           addChrPrefix: bool): (r: Result<GeneratorRoutes.OutputFile, Fault>)
    ensures bedType != "raw" ==>
      (r.Success? <==> (|results| == 0 || BedGenerator.IsFormat(LayoutKey(bedType))))
    ensures r.Failure? ==> r.error == ValueError(BedGenerator.InvalidFormat)
    ensures r.Success? ==> r.value.name == DownloadName(prefix, if bedType == "raw" then "raw" else bedType)
  {
    if bedType == "raw" then GenerateBedFile(bedType, results, prefix, settings, addChrPrefix)
    else
      var padding := SettingsGet(settings, PaddingKey(bedType)).GetOr(0);
      match BedGenerator.CreateBed(results, padding, LayoutKey(bedType), addChrPrefix)
      case Failure(e) =>
        assert !BedGenerator.FormatBedLine(results[0], padding, LayoutKey(bedType), addChrPrefix).Success?;
        Failure(e)
      case Success(content) => Success(GeneratorRoutes.OutputFile(DownloadName(prefix, bedType), content))
  }

  /** The exome-depth download: as written it raises AttributeError, and
      lowercasing its type alone would name neither a layout nor a padding
      setting; the corrected file is the `exome_depth` layout padded by the
      `exomeDepth_padding` setting. */
  lemma ExomeDepthDownload(results: seq<Interval>, prefix: string, settings: Settings, addChrPrefix: bool)
    ensures GenerateBedFile("exomeDepth", results, prefix, settings, addChrPrefix) == Failure(AttributeError)
    ensures !BedGenerator.IsFormat(Lower("exomeDepth"))
    ensures SettingsGet(settings, Lower("exomeDepth") + "_padding").None?
    ensures GenerateBedFileFixed("exomeDepth", results, prefix, settings, addChrPrefix)
      == Success(GeneratorRoutes.OutputFile(DownloadName(prefix, "exomeDepth"),
           BedGenerator.CreateExomeDepthBed(results, settings.exomeDepthPadding, addChrPrefix).value))
  {
    var lowered := Lower("exomeDepth");
    assert lowered == "exomedepth";
    assert lowered + "_padding" == "exomedepth_padding";
    assert "exomedepth_padding"[5] != "exomeDepth_padding"[5];
    assert LayoutKey("exomeDepth") == "exome_depth";
    assert PaddingKey("exomeDepth") == "exomeDepth_padding";
  }

  /** Each of the four padded types, in any letter case, gets its own
      layout and its own padding setting. */
  lemma GenerateBedFileLayouts(bedType: string, results: seq<Interval>, prefix: string, settings: Settings, addChrPrefix: bool)
    requires bedType != "raw"
    ensures Lower(bedType) == "data" ==> (GenerateBedFileFixed(bedType, results, prefix, settings, addChrPrefix).value.content
      == BedGenerator.CreateDataBed(results, settings.dataPadding, addChrPrefix).value)
    ensures Lower(bedType) == "sambamba" ==> (GenerateBedFileFixed(bedType, results, prefix, settings, addChrPrefix).value.content
      == BedGenerator.CreateSambambaBed(results, settings.sambambaPadding, addChrPrefix).value)
    ensures Lower(bedType) == "cnv" ==> (GenerateBedFileFixed(bedType, results, prefix, settings, addChrPrefix).value.content
      == BedGenerator.CreateCnvBed(results, settings.cnvPadding, addChrPrefix).value)
  {
    var key := Lower(bedType);
    if key == "data" {
      assert PaddingKey(bedType) == "data_padding";
    } else if key == "sambamba" {
      assert PaddingKey(bedType) == "sambamba_padding";
    } else if key == "cnv" {
      assert PaddingKey(bedType) == "cnv_padding";
    }
  }
}

=== FILE: records.dfy ===
/** The records the BED generator passes around: TARK transcripts as they
    arrive, the flat result dictionaries built from them, the Ensembl variant
    dataclass, and the Python exceptions the modelled code can raise.

    A Python dictionary whose keys differ between producers becomes one flat
    datatype; an `Option` field is `None` where the key is absent (or, where
    the comment says so, holds Python's `None`). */
module Records {
  import opened Wrappers
  import opened Strings

  /** The exceptions that escape the modelled code. */
  datatype Fault = TypeError | ValueError(message: string) | KeyError | IndexError | AttributeError

  /** A `{'message', 'identifier', 'type'}` warning dictionary. */
  datatype Warning = Warning(message: string, identifier: string, kind: string)

  /** A `{'start', 'end'}` UTR dictionary; a bound is `None` where TARK gave null. */
  datatype UtrBounds = UtrBounds(start: Option<int>, end: Option<int>)

  /** The `strand` of a coordinate record: Ensembl's integer, or a placeholder text. */
  datatype Scalar = SInt(i: int) | SText(t: string)

  /** One result dictionary (one exon of a transcript, or one gene overlapping
      a coordinate). `entrezId` is always present and `None` is Python's None;
      `warning` is `None` when the key is absent or holds ''. */
  datatype Interval = Interval(
    locRegion: string,
    locStart: int,
    locEnd: int,
    accession: string,
    gene: string,
    entrezId: Option<string>,
    locStrand: Option<int> := None,
    exonId: Option<string> := None,
    exonNumber: Option<int> := None,
    transcriptBiotype: Option<string> := None,
    maneTranscript: Option<string> := None,
    maneTranscriptType: Option<string> := None,
    ensemblId: Option<string> := None,
    status: Option<string> := None,
    warning: Option<Warning> := None,
    identifier: Option<string> := None,
    fivePrimeUtr: Option<UtrBounds> := None,
    threePrimeUtr: Option<UtrBounds> := None,
    biotype: Option<string> := None,
    strand: Option<Scalar> := None,
    alert: Option<string> := None,
    isGenomicCoordinate: bool := false,
    originalLocStart: Option<int> := None,
    originalLocEnd: Option<int> := None)

  /** The `VariantInfo` dataclass built from an Ensembl VEP response. */
  datatype VariantInfo = VariantInfo(
    rsid: string,
    accession: string,
    gene: string,
    entrezId: string,
    locRegion: string,
    locStart: int,
    locEnd: int,
    alleleString: string,
    mostSevereConsequence: string,
    transcriptBiotype: string)

  /** `fetch_variant_info(rsid, assembly)`: the variant, `None` when
      Ensembl answers nothing, or the exception its post-processing of the
      answer raises (an empty `consequence_terms` list, say). */
  type VariantLookup = (string, string) -> Result<Option<VariantInfo>, Fault>

  /** An element of a results list: a dictionary or a variant dataclass. */
  datatype Item = Dict(d: Interval) | Variant(v: VariantInfo)

  /** TARK's `stable_id_version`: a JSON number, a string, or null. */
  datatype Version = VInt(n: int) | VText(t: string) | VNull

  /** `str(v)`. */
  function VersionStr(v: Version): string {
    match v
    case VInt(n) => IntToString(n)
    case VText(t) => t
    case VNull => "None"
  }

  /** The start of the message of the ValueError `int()` raises on a
      string that is not a decimal integer. */
  const IntLiteralError := "invalid literal for int() with base 10"

  /** `int(v)`: an integer, or the exception Python raises. */
  function VersionInt(v: Version): (r: Result<int, Fault>)
    ensures v.VInt? ==> r == Success(v.n)
    ensures v.VNull? ==> r == Failure(TypeError)
  {
    match v
    case VInt(n) => Success(n)
    case VText(t) => (match PyInt(t) case Some(n) => Success(n) case None => Failure(ValueError(IntLiteralError)))
    case VNull => Failure(TypeError)
  }

  /** `int(str(v))` gives back an integer version. */
  lemma VersionStrInt(n: int)
    ensures VersionInt(VText(VersionStr(VInt(n)))) == Success(n)
  {
    IntToStringRoundTrip(n);
    StripPlain(IntToString(n));
  }

  /** The `get_version` key of the fallback selection: `int()` of the
      version, or 0 where `int()` raises. */
  function VersionKey(v: Version): (k: int)
    ensures VersionInt(v).Success? ==> k == VersionInt(v).value
    ensures VersionInt(v).Failure? ==> k == 0
  {
    match VersionInt(v)
    case Success(n) => n
    case Failure(_) => 0
  }

  /** A gene entry of a TARK transcript; fields are `None` where null. */
  datatype Gene = Gene(name: Option<string>, stableId: Option<string>, ensemblId: Option<string> := None)

  /** An exon entry of a TARK transcript. */
  datatype Exon = Exon(locRegion: string, locStart: int, locEnd: int, locStrand: int, stableId: string)

  /** A transcript of a TARK search response (with `genes` and `exons`
      expanded). `maneTranscript`, `maneTranscriptType` and `biotype` are
      `None` where the key is absent or null; `warning` is the dictionary the
      selection step attaches. */
  datatype Transcript = Transcript(
    assembly: string,
    stableId: string,
    stableIdVersion: Version,
    genes: seq<Gene>,
    exons: seq<Exon>,
    maneTranscript: Option<string> := None,
    maneTranscriptType: Option<string> := None,
    biotype: Option<string> := None,
    fivePrimeUtrStart: Option<int> := None,
    fivePrimeUtrEnd: Option<int> := None,
    threePrimeUtrStart: Option<int> := None,
    threePrimeUtrEnd: Option<int> := None,
    warning: Option<Warning> := None)

  /** Python truthiness of an optional string. */
  predicate Truthy(s: Option<string>) { s.Some? && s.value != "" }

  /** `f"{t['stable_id']}.{t['stable_id_version']}"`. */
  function AccessionOf(t: Transcript): string {
    t.stableId + "." + VersionStr(t.stableIdVersion)
  }

  /** A RefSeq transcript: `stable_id` starts with NM or NR. */
  predicate IsRefSeq(t: Transcript) {
    StartsWith(t.stableId, "NM") || StartsWith(t.stableId, "NR")
  }

  /** A row of the `bed_entry` table; the nullable columns are `Option`s. */
  datatype BedEntry = BedEntry(
    bedFileId: int,
    chromosome: string,
    start: int,
    end: int,
    entrezId: Option<string>,
    gene: string,
    accession: string,
    exonId: Option<string>,
    exonNumber: Option<int>,
    transcriptBiotype: Option<string>,
    maneTranscript: Option<string>,
    maneTranscriptType: Option<string>,
    warning: Option<Warning>)

  /** The padding settings row, read through `Settings.to_dict`
      (app/models.py:83-89): four keys and no others. */
  datatype Settings = Settings(dataPadding: int, sambambaPadding: int, exomeDepthPadding: int, cnvPadding: int)

  /** `settings.to_dict().get(key)`. */
  function SettingsGet(s: Settings, key: string): (v: Option<int>)
    ensures v.Some? <==> key in {"data_padding", "sambamba_padding", "exomeDepth_padding", "cnv_padding"}
  {
    if key == "data_padding" then Some(s.dataPadding)
    else if key == "sambamba_padding" then Some(s.sambambaPadding)
    else if key == "exomeDepth_padding" then Some(s.exomeDepthPadding)
    else if key == "cnv_padding" then Some(s.cnvPadding)
    else None
  }
}

=== FILE: strings.dfy ===
/** The handful of Python string operations the BED generator relies on:
    `str(int)`, `int(str)`, `sep.join`, `str.split`, `str.strip`,
    `str.lstrip`, `str.lower`/`str.upper` (on ASCII letters) and the
    meaning of a regular expression's final `$`. */
module Strings {
  import opened Wrappers

  // ---------------------------------------------------------------------
  // Digits and decimal numbers
  // ---------------------------------------------------------------------

  predicate IsDigit(c: char) { '0' <= c <= '9' }

  predicate AllDigits(s: string) { forall i | 0 <= i < |s| :: IsDigit(s[i]) }

  function DigitValue(c: char): (d: nat)
    requires IsDigit(c)
    ensures d < 10
  {
    c as int - '0' as int
  }

  function DigitChar(d: nat): (c: char)
    requires d < 10
    ensures IsDigit(c) && DigitValue(c) == d
  {
    ('0' as int + d) as char
  }

  /** The number a run of decimal digits denotes (leading zeros allowed, as
      Python's `int()` allows them). */
  function DigitsValue(s: string): nat
    requires AllDigits(s)
    decreases |s|
  {
    if |s| == 0 then 0 else 10 * DigitsValue(s[..|s| - 1]) + DigitValue(s[|s| - 1])
  }

  /** A digit string as `str(n)` writes it: non-empty, no leading zero. */
  predicate Canonical(s: string) {
    |s| >= 1 && AllDigits(s) && (s[0] == '0' ==> |s| == 1)
  }

  /** `str(n)` for a natural number. */
  function NatToString(n: nat): (s: string)
    ensures Canonical(s)
    ensures n > 0 ==> s[0] != '0'
    decreases n
  {
    if n < 10 then [DigitChar(n)] else NatToString(n / 10) + [DigitChar(n % 10)]
  }

  /** `str(i)` for any integer. */
  function IntToString(i: int): (s: string)
    ensures |s| >= 1
    ensures forall k | 0 <= k < |s| :: s[k] == '-' || IsDigit(s[k])
  {
    if i < 0 then "-" + NatToString(-i) else NatToString(i)
  }

  /** A decimal integer: an optional sign followed by ASCII digits; `None`
      where Python's `int()` raises ValueError. */
  function ParseInt(s: string): Option<int> {
    if |s| >= 2 && s[0] == '-' && AllDigits(s[1..]) then Some(0 - DigitsValue(s[1..]) as int)
    else if |s| >= 2 && s[0] == '+' && AllDigits(s[1..]) then Some(DigitsValue(s[1..]))
    else if |s| >= 1 && AllDigits(s) then Some(DigitsValue(s))
    else None
  }

  lemma {:induction false} NatToStringValue(n: nat)
    ensures DigitsValue(NatToString(n)) == n
    decreases n
  {
    var s := NatToString(n);
    if n >= 10 {
      NatToStringValue(n / 10);
      assert s[..|s| - 1] == NatToString(n / 10);
    }
  }

  /** `int(str(i)) == i`. */
  lemma IntToStringRoundTrip(i: int)
    ensures ParseInt(IntToString(i)) == Some(i)
  {
    var s := IntToString(i);
    if i < 0 {
      NatToStringValue(-i);
      assert s[1..] == NatToString(-i);
    } else {
      NatToStringValue(i);
    }
  }

  lemma {:induction false} LeadingDigitBound(s: string)
    requires AllDigits(s) && |s| >= 1
    ensures DigitsValue(s) >= DigitValue(s[0])
    decreases |s|
  {
    if |s| > 1 {
      LeadingDigitBound(s[..|s| - 1]);
    }
  }

  /** `str(int(s)) == s` for a digit string without a leading zero. */
  lemma {:induction false} CanonicalRoundTrip(s: string)
    requires Canonical(s)
    ensures NatToString(DigitsValue(s)) == s
    decreases |s|
  {
    if |s| > 1 {
      var t := s[..|s| - 1];
      assert Canonical(t) && t[0] == s[0];
      LeadingDigitBound(t);
      CanonicalRoundTrip(t);
      var n := DigitsValue(s);
      assert n / 10 == DigitsValue(t) && n % 10 == DigitValue(s[|s| - 1]);
      assert s == t + [s[|s| - 1]];
    }
  }

  // ---------------------------------------------------------------------
  // join / split
  // ---------------------------------------------------------------------

  /** No character of `s` is in `seps`. */
  predicate Free(s: string, seps: set<char>) { forall i | 0 <= i < |s| :: s[i] !in seps }

  lemma FreeConcat(x: string, y: string, seps: set<char>)
    requires Free(x, seps) && Free(y, seps)
    ensures Free(x + y, seps)
  {
    forall i | 0 <= i < |x + y| ensures (x + y)[i] !in seps {
      if i >= |x| { assert (x + y)[i] == y[i - |x|]; }
    }
  }

  /** `sep.join(xs)` for a one-character separator. */
  function Join(xs: seq<string>, sep: char): string {
    if |xs| == 0 then "" else if |xs| == 1 then xs[0] else xs[0] + [sep] + Join(xs[1..], sep)
  }

  /** `s.split(sep)` (and `re.split('[...]', s)` for a character class):
      the pieces between separators, always at least one. */
  function Split(s: string, seps: set<char>): (parts: seq<string>)
    ensures |parts| >= 1
    decreases |s|
  {
    if |s| == 0 then [""]
    else
      var rest := Split(s[1..], seps);
      if s[0] in seps then [""] + rest else [[s[0]] + rest[0]] + rest[1..]
  }

  lemma {:induction false} SplitFree(x: string, seps: set<char>)
    requires Free(x, seps)
    ensures Split(x, seps) == [x]
    decreases |x|
  {
    if |x| > 0 {
      SplitFree(x[1..], seps);
      assert [x[0]] + x[1..] == x;
    }
  }

  lemma {:induction false} SplitAt(x: string, y: string, sep: char, seps: set<char>)
    requires Free(x, seps) && sep in seps
    ensures Split(x + [sep] + y, seps) == [x] + Split(y, seps)
    decreases |x|
  {
    var s := x + [sep] + y;
    if |x| == 0 {
      assert s[1..] == y;
    } else {
      assert s[1..] == x[1..] + [sep] + y;
      SplitAt(x[1..], y, sep, seps);
      assert [x[0]] + x[1..] == x;
    }
  }

  /** A text holding a separator splits into at least two pieces. */
  lemma {:induction false} SplitSeparated(s: string, seps: set<char>, c: char)
    requires c in s && c in seps
    ensures |Split(s, seps)| >= 2
    decreases |s|
  {
    if s[0] != c {
      assert c in s[1..];
      SplitSeparated(s[1..], seps, c);
    }
  }

  /** Splitting undoes joining when no piece contains a separator. */
  lemma {:induction false} SplitJoin(xs: seq<string>, sep: char, seps: set<char>)
    requires |xs| >= 1 && sep in seps
    requires forall k | 0 <= k < |xs| :: Free(xs[k], seps)
    ensures Split(Join(xs, sep), seps) == xs
    decreases |xs|
  {
    if |xs| == 1 {
      SplitFree(xs[0], seps);
    } else {
      SplitJoin(xs[1..], sep, seps);
      SplitAt(xs[0], Join(xs[1..], sep), sep, seps);
    }
  }

  // ---------------------------------------------------------------------
  // Whitespace: str.split() and str.strip()
  // ---------------------------------------------------------------------

  /** The ASCII characters for which Python's `str.isspace()` holds. */
  predicate IsSpace(c: char) {
    c == ' ' || (9 <= c as int <= 13) || (28 <= c as int <= 31)
  }

  predicate NoSpace(s: string) { forall i | 0 <= i < |s| :: !IsSpace(s[i]) }

  /** End of the run of non-space characters starting at `i`. */
  function TokenEnd(s: string, i: nat): (k: nat)
    requires i <= |s|
    ensures i <= k <= |s|
    ensures forall j | i <= j < k :: !IsSpace(s[j])
    ensures k < |s| ==> IsSpace(s[k])
    decreases |s| - i
  {
    if i < |s| && !IsSpace(s[i]) then TokenEnd(s, i + 1) else i
  }

  /** `s.split()`: the maximal runs of non-whitespace characters. */
  function SplitWhitespace(s: string): (ts: seq<string>)
    ensures forall k | 0 <= k < |ts| :: |ts[k]| > 0 && NoSpace(ts[k])
    decreases |s|
  {
    if |s| == 0 then []
    else if IsSpace(s[0]) then SplitWhitespace(s[1..])
    else
      var k := TokenEnd(s, 0);
      [s[..k]] + SplitWhitespace(s[k..])
  }

  lemma {:induction false} TokenEndOf(x: string, y: string, i: nat)
    requires i <= |x| && NoSpace(x)
    requires |y| == 0 || IsSpace(y[0])
    ensures TokenEnd(x + y, i) == |x|
    decreases |x| - i
  {
    if i < |x| {
      TokenEndOf(x, y, i + 1);
    }
  }

  /** Splitting on whitespace undoes joining with single spaces. */
  lemma {:induction false} SplitWhitespaceJoin(ts: seq<string>)
    requires forall k | 0 <= k < |ts| :: |ts[k]| > 0 && NoSpace(ts[k])
    ensures SplitWhitespace(Join(ts, ' ')) == ts
    decreases |ts|
  {
    if |ts| == 1 {
      TokenEndOf(ts[0], "", 0);
      assert ts[0] + "" == ts[0];
      assert ts[0][..|ts[0]|] == ts[0];
    } else if |ts| > 1 {
      var rest := [' '] + Join(ts[1..], ' ');
      var s := Join(ts, ' ');
      assert s == ts[0] + rest;
      TokenEndOf(ts[0], rest, 0);
      assert s[..|ts[0]|] == ts[0];
      assert s[|ts[0]|..] == rest;
      assert rest[1..] == Join(ts[1..], ' ');
      SplitWhitespaceJoin(ts[1..]);
    }
  }

  function StripLeft(s: string): (r: string)
    ensures |r| == 0 || !IsSpace(r[0])
    ensures |r| <= |s| && r == s[|s| - |r|..]
    decreases |s|
  {
    if |s| > 0 && IsSpace(s[0]) then StripLeft(s[1..]) else s
  }

  function StripRight(s: string): (r: string)
    ensures |r| == 0 || !IsSpace(r[|r| - 1])
    ensures |r| <= |s| && r == s[..|r|]
    decreases |s|
  {
    if |s| > 0 && IsSpace(s[|s| - 1]) then StripRight(s[..|s| - 1]) else s
  }

  /** `s.strip()`: a slice of `s` with no whitespace at either end. */
  function Strip(s: string): (r: string)
    ensures |r| == 0 || (!IsSpace(r[0]) && !IsSpace(r[|r| - 1]))
  {
    StripRight(StripLeft(s))
  }

  lemma StripPlain(s: string)
    requires |s| == 0 || (!IsSpace(s[0]) && !IsSpace(s[|s| - 1]))
    ensures Strip(s) == s
  {
  }

  /** `int(s)` on a string: surrounding whitespace is ignored. */
  function PyInt(s: string): Option<int> {
    ParseInt(Strip(s))
  }

  /** `int()` of a digit run, possibly followed by a newline. */
  lemma PyIntDigits(digits: string, tail: string)
    requires |digits| >= 1 && AllDigits(digits) && (tail == "" || tail == "\n")
    ensures PyInt(digits + tail) == Some(DigitsValue(digits))
  {
    StripDigits(digits, tail);
    ParseDigits(digits);
  }

  lemma StripDigits(digits: string, tail: string)
    requires |digits| >= 1 && AllDigits(digits) && (tail == "" || tail == "\n")
    ensures Strip(digits + tail) == digits
  {
    assert IsDigit(digits[0]) && IsDigit(digits[|digits| - 1]);
    if |tail| == 1 {
      StripNewline(digits);
    } else {
      assert digits + tail == digits;
      StripPlain(digits);
    }
  }

  lemma ParseDigits(digits: string)
    requires |digits| >= 1 && AllDigits(digits)
    ensures ParseInt(digits) == Some(DigitsValue(digits))
  {
    assert IsDigit(digits[0]);
  }

  lemma StripNewline(s: string)
    requires |s| >= 1 && !IsSpace(s[0]) && !IsSpace(s[|s| - 1])
    ensures Strip(s + "\n") == s
  {
    StripLeftPlain(s + "\n");
    StripRightNewline(s);
  }

  lemma StripLeftPlain(s: string)
    requires |s| >= 1 && !IsSpace(s[0])
    ensures StripLeft(s) == s
  {
  }

  lemma StripRightNewline(s: string)
    requires |s| >= 1 && !IsSpace(s[|s| - 1])
    ensures StripRight(s + "\n") == s
  {
    var t := s + "\n";
    assert t[..|t| - 1] == s;
    assert StripRight(s) == s;
  }

  /** `s.lstrip(chars)`. */
  function LStripChars(s: string, chars: set<char>): (r: string)
    ensures |r| == 0 || r[0] !in chars
    ensures |r| <= |s| && r == s[|s| - |r|..]
    decreases |s|
  {
    if |s| > 0 && s[0] in chars then LStripChars(s[1..], chars) else s
  }

  // ---------------------------------------------------------------------
  // Case and prefixes
  // ---------------------------------------------------------------------

  function LowerChar(c: char): char {
    if 'A' <= c <= 'Z' then (c as int + 32) as char else c
  }

  function UpperChar(c: char): char {
    if 'a' <= c <= 'z' then (c as int - 32) as char else c
  }

  /** `s.lower()` on ASCII letters. */
  function Lower(s: string): (r: string)
    ensures |r| == |s| && forall i | 0 <= i < |s| :: r[i] == LowerChar(s[i])
  {
    seq(|s|, i requires 0 <= i < |s| => LowerChar(s[i]))
  }

  /** `s.upper()` on ASCII letters. */
  function Upper(s: string): (r: string)
    ensures |r| == |s| && forall i | 0 <= i < |s| :: r[i] == UpperChar(s[i])
  {
    seq(|s|, i requires 0 <= i < |s| => UpperChar(s[i]))
  }

  predicate StartsWith(s: string, p: string) { |p| <= |s| && s[..|p|] == p }

  /** The part of `s` a pattern ending in `$` must match: Python's `$` also
      matches just before a final newline, and none of the patterns modelled
      here can match a newline themselves. */
  function RegexBody(s: string): (b: string)
    ensures b == s || (s == b + "\n")
  {
    if |s| > 0 && s[|s| - 1] == '\n' then s[..|s| - 1] else s
  }
}

=== FILE: transcript_processing.dfy ===
/** The older copy of the transcript logic, app/bed_generator/transcript_processing.py.
    It differs from api.py in the details modelled here:
    - the requested version is compared as `str()` text and only the first
      match is kept, flagged `version_specified` and stripped of its MANE
      type;
    - the GRCh37 anchor must be a GRCh38 MANE SELECT NM transcript, and the
      warning names the anchor with its version;
    - records carry an Ensembl id, a status and no warning;
    - the final debug print indexes the last record, so a first transcript
      without exons raises an IndexError.
    As written, the file cannot be imported (line 13 imports a name
    utils.py does not define), so nothing in the application reaches it. */
module TranscriptProcessing {
  import opened Wrappers
  import opened Strings
  import opened Records
  import opened Lists
  import ApiSelection

  // ---------------------------------------------------------------------
  // select_transcripts
  // ---------------------------------------------------------------------

  const VersionMessage := "Version specified by user"
  const AnchorPrefix := "Transcript selected based on GRCh38 MANE transcript "

  /** The RefSeq transcripts of the assembly whose `str(version)` is the
      requested text, in response order. */
  function Versioned(data: seq<Transcript>, assembly: string, version: string): (vt: seq<Transcript>)
    ensures forall t | t in vt :: t in data && t.assembly == assembly && IsRefSeq(t) && VersionStr(t.stableIdVersion) == version
    ensures forall t | t in data && t.assembly == assembly && IsRefSeq(t) && VersionStr(t.stableIdVersion) == version :: t in vt
  {
    Filter(data, (t: Transcript) => t.assembly == assembly && IsRefSeq(t) && VersionStr(t.stableIdVersion) == version)
  }

  /** The transcript the user asked for: flagged `version_specified`, with
      its `mane_transcript_type` popped. */
  function VersionPicked(t: Transcript): (r: Transcript)
    ensures r.warning == Some(Warning(VersionMessage, AccessionOf(t), "version_specified"))
    ensures r.maneTranscriptType.None?
    ensures r.(warning := t.warning, maneTranscriptType := t.maneTranscriptType) == t
  {
    t.(warning := Some(Warning(VersionMessage, AccessionOf(t), "version_specified")), maneTranscriptType := None)
  }

  /** The anchor of a GRCh37 selection: a GRCh38 MANE SELECT NM transcript. */
  predicate IsGrch38ManeSelectNm(t: Transcript) {
    t.assembly == "GRCh38" && t.maneTranscriptType == Some("MANE SELECT") && StartsWith(t.stableId, "NM")
  }

  /** `select_transcripts` of transcript_processing.py. */
  function SelectTranscripts(data: seq<Transcript>, assembly: string, version: Option<string>): (r: Result<seq<Transcript>, Fault>)
    ensures r.Failure? ==> assembly == "GRCh37"
    ensures r.Success? ==> |r.value| <= 1 || (assembly == "GRCh38" && forall t | t in r.value :: ApiSelection.IsMane(t))
  {
    var vt := if Truthy(version) then Versioned(data, assembly, version.value) else [];
    if |vt| > 0 then Success([VersionPicked(vt[0])])
    else SelectUnversioned(data, assembly)
  }

  /** The choice `select_transcripts` makes when no transcript has the
      requested version: the MANE transcripts (GRCh38), the namesakes of
      the GRCh38 MANE SELECT NM anchor (GRCh37), else the highest version. */
  function SelectUnversioned(data: seq<Transcript>, assembly: string): (r: Result<seq<Transcript>, Fault>)
    ensures r.Failure? ==> assembly == "GRCh37"
    ensures r.Success? ==> |r.value| <= 1 || (assembly == "GRCh38" && forall t | t in r.value :: ApiSelection.IsMane(t))
  {
    var at := ApiSelection.AssemblyTranscripts(data, assembly);
    var mane := ApiSelection.ManeTranscripts(at);
    var anchor := FirstIndex(data, IsGrch38ManeSelectNm);
    var matching := if anchor.Some? then ApiSelection.WithStableId(at, data[anchor.value].stableId) else [];
    if assembly == "GRCh38" && |mane| > 0 then Success(mane)
    else if assembly == "GRCh37" && |matching| > 0 then
      ApiSelection.AnchoredPick(matching, AnchorPrefix + AccessionOf(data[anchor.value]))
    else if |at| > 0 then Success([ApiSelection.Flagged(ApiSelection.MaxByVersionKey(at), ApiSelection.HighestVersionMessage)])
    else Success([])
  }

  /** A requested version that some RefSeq transcript of the assembly has
      selects exactly the first such transcript, flagged and without MANE
      type, whatever the assembly. */
  lemma VersionSpecified(data: seq<Transcript>, assembly: string, version: string, k: nat)
    requires version != ""
    requires k < |data| && data[k].assembly == assembly && IsRefSeq(data[k]) && VersionStr(data[k].stableIdVersion) == version
    requires forall j | 0 <= j < k :: !(data[j].assembly == assembly && IsRefSeq(data[j]) && VersionStr(data[j].stableIdVersion) == version)
    ensures SelectTranscripts(data, assembly, Some(version)) == Success([VersionPicked(data[k])])
  {
    FilterFirst(data, (t: Transcript) => t.assembly == assembly && IsRefSeq(t) && VersionStr(t.stableIdVersion) == version, k);
  }

  /** Where no requested version matches, both copies choose the same
      GRCh38 transcripts: the MANE ones if any, else the highest version. */
  lemma AgreesOnGrch38(data: seq<Transcript>, version: Option<string>)
    requires !Truthy(version) || forall t | t in data :: !(t.assembly == "GRCh38" && IsRefSeq(t) && VersionStr(t.stableIdVersion) == version.value)
    ensures SelectTranscripts(data, "GRCh38", version) == ApiSelection.ChooseTranscripts(data, "GRCh38")
  {
    if Truthy(version) {
      HeadIn(Versioned(data, "GRCh38", version.value));
    }
  }

  /** The GRCh37 choice: when the first GRCh38 MANE SELECT NM transcript
      has GRCh37 RefSeq namesakes, the one with the greatest integer version
      is returned alone, its warning naming the anchor with its version;
      a version `int()` rejects makes the selection fail. */
  lemma Grch37Anchored(data: seq<Transcript>, k: nat, i: nat)
    requires k < |data| && IsGrch38ManeSelectNm(data[k]) && forall j | 0 <= j < k :: !IsGrch38ManeSelectNm(data[j])
    requires i < |data| && data[i].assembly == "GRCh37" && IsRefSeq(data[i]) && data[i].stableId == data[k].stableId
    ensures var same := ApiSelection.WithStableId(ApiSelection.AssemblyTranscripts(data, "GRCh37"), data[k].stableId);
      |same| > 0 && SelectTranscripts(data, "GRCh37", None) == ApiSelection.AnchoredPick(same, AnchorPrefix + AccessionOf(data[k]))
  {
    var at := ApiSelection.AssemblyTranscripts(data, "GRCh37");
    assert data[i] in at;
    var same := ApiSelection.WithStableId(at, data[k].stableId);
    assert data[i] in same;
    assert FirstIndex(data, IsGrch38ManeSelectNm) == Some(k);
    SelectAnchored(data, k);
  }

  /** The GRCh37 branch of `SelectUnversioned`,
      once the anchor is known and has namesakes. */
  lemma SelectAnchored(data: seq<Transcript>, k: nat)
    requires FirstIndex(data, IsGrch38ManeSelectNm) == Some(k)
    requires |ApiSelection.WithStableId(ApiSelection.AssemblyTranscripts(data, "GRCh37"), data[k].stableId)| > 0
    ensures SelectUnversioned(data, "GRCh37") == ApiSelection.AnchoredPick(
      ApiSelection.WithStableId(ApiSelection.AssemblyTranscripts(data, "GRCh37"), data[k].stableId), AnchorPrefix + AccessionOf(data[k]))
  {
  }

  /** The highest-version fallback (lines 60-78): GRCh38 without MANE
      transcripts, GRCh37 whose first GRCh38 MANE SELECT NM anchor is
      missing or has no GRCh37 namesake, and any other assembly return the
      first transcript of greatest `get_version` alone, flagged for review,
      or nothing when the assembly has no RefSeq transcript. */
  lemma UnversionedFallback(data: seq<Transcript>, assembly: string)
    requires assembly == "GRCh38" ==> |ApiSelection.ManeTranscripts(ApiSelection.AssemblyTranscripts(data, assembly))| == 0
    requires assembly == "GRCh37" && FirstIndex(data, IsGrch38ManeSelectNm).Some? ==>
      |ApiSelection.WithStableId(ApiSelection.AssemblyTranscripts(data, "GRCh37"), data[FirstIndex(data, IsGrch38ManeSelectNm).value].stableId)| == 0
    ensures var r := SelectUnversioned(data, assembly);
      var at := ApiSelection.AssemblyTranscripts(data, assembly);
      (|at| == 0 ==> r == Success([]))
      && (|at| > 0 ==> exists k | 0 <= k < |at| :: (r == Success([ApiSelection.Flagged(at[k], ApiSelection.HighestVersionMessage)])
            && (forall j | 0 <= j < |at| :: VersionKey(at[j].stableIdVersion) <= VersionKey(at[k].stableIdVersion))
            && (forall j | 0 <= j < k :: VersionKey(at[j].stableIdVersion) < VersionKey(at[k].stableIdVersion))))
  {
    var at := ApiSelection.AssemblyTranscripts(data, assembly);
    if |at| > 0 {
      var u := ApiSelection.MaxByVersionKey(at);
      var k :| 0 <= k < |at| && u == at[k] && forall j | 0 <= j < k :: VersionKey(at[j].stableIdVersion) < VersionKey(u.stableIdVersion);
      assert SelectUnversioned(data, assembly) == Success([ApiSelection.Flagged(at[k], ApiSelection.HighestVersionMessage)]);
    }
  }

  // ---------------------------------------------------------------------
  // process_transcripts
  // ---------------------------------------------------------------------

  /** `ensembl_id` (and `entrez_id`): the first gene with an Ensembl id or
      a stable id gives its Ensembl id, else its stable id. */
  function GeneId(genes: seq<Gene>): (id: Option<string>)
    ensures id.None? <==> forall k | 0 <= k < |genes| :: !Truthy(genes[k].ensemblId) && !Truthy(genes[k].stableId)
    ensures id.Some? ==> id.value != "" && exists k | 0 <= k < |genes| :: id == genes[k].ensemblId || id == genes[k].stableId
    ensures id.Some? ==> exists k | 0 <= k < |genes| :: ((Truthy(genes[k].ensemblId) || Truthy(genes[k].stableId))
      && (forall j | 0 <= j < k :: !Truthy(genes[j].ensemblId) && !Truthy(genes[j].stableId))
      && id == (if Truthy(genes[k].ensemblId) then genes[k].ensemblId else genes[k].stableId))
  {
    match FirstIndex(genes, (g: Gene) => Truthy(g.ensemblId) || Truthy(g.stableId))
    case None => None
    case Some(k) => if Truthy(genes[k].ensemblId) then genes[k].ensemblId else genes[k].stableId
  }

  /** The status of a record: the MANE category named in title case
      (compared without regard to case) when the MANE type is non-empty,
      otherwise the transcript's warning message, else `None`. */
  function Status(maneType: Option<string>, warning: Option<Warning>): Option<string> {
    if Truthy(maneType) then
      var upper := Upper(maneType.value);
      if upper == "MANE SELECT" then Some("MANE Select transcript")
      else if upper == "MANE PLUS CLINICAL" then Some("MANE Plus Clinical transcript")
      else None
    else if warning.Some? then Some(warning.value.message)
    else None
  }

  /** The record of exon `k` (numbered from 1). `maneTranscriptType`,
      `ensemblId`, `entrezId` and `status` hold Python's `None` where they
      are `None`; the MANE fields are read only for GRCh38 transcripts. */
  function ExonRecord(t: Transcript, k: nat, identifier: string): Interval
    requires k < |t.exons|
  {
    var exon := t.exons[k];
    var grch38 := t.assembly == "GRCh38";
    var maneType := if grch38 then Some(t.maneTranscriptType.GetOr("")) else None;
    Interval(
      locRegion := exon.locRegion, locStart := exon.locStart, locEnd := exon.locEnd,
      locStrand := Some(exon.locStrand),
      accession := AccessionOf(t),
      ensemblId := GeneId(t.genes),
      gene := ApiSelection.FirstGeneName(t.genes, identifier),
      entrezId := GeneId(t.genes),
      exonId := Some(exon.stableId),
      exonNumber := Some(k + 1),
      transcriptBiotype := Some(t.biotype.GetOr("")),
      maneTranscript := Some(if grch38 then t.maneTranscript.GetOr("") else ""),
      maneTranscriptType := maneType,
      status := Status(maneType, t.warning),
      identifier := Some(identifier),
      fivePrimeUtr := Some(UtrBounds(t.fivePrimeUtrStart, t.fivePrimeUtrEnd)),
      threePrimeUtr := Some(UtrBounds(t.threePrimeUtrStart, t.threePrimeUtrEnd)))
  }

  /** The MANE fields and the status of a record: empty MANE transcript
      and no MANE type off GRCh38, where the status is the warning message;
      on GRCh38 a MANE SELECT or MANE PLUS CLINICAL type (in any case)
      names the category. */
  lemma ExonRecordStatus(t: Transcript, k: nat, identifier: string)
    requires k < |t.exons|
    ensures var r := ExonRecord(t, k, identifier);
      (t.assembly != "GRCh38" ==> (r.maneTranscript == Some("") && r.maneTranscriptType.None?
         && r.status == (if t.warning.Some? then Some(t.warning.value.message) else None)))
      && (t.assembly == "GRCh38" && t.maneTranscriptType.Some? && Upper(t.maneTranscriptType.value) == "MANE SELECT" ==>
            r.status == Some("MANE Select transcript"))
      && (t.assembly == "GRCh38" && t.maneTranscriptType.Some? && Upper(t.maneTranscriptType.value) == "MANE PLUS CLINICAL" ==>
            r.status == Some("MANE Plus Clinical transcript"))
      && (t.assembly == "GRCh38" && t.maneTranscriptType.None? ==>
            r.status == (if t.warning.Some? then Some(t.warning.value.message) else None))
  {
    var m := t.maneTranscriptType;
    if t.assembly == "GRCh38" && m.Some? && (Upper(m.value) == "MANE SELECT" || Upper(m.value) == "MANE PLUS CLINICAL") {
      assert m.value != "";
    }
  }

  /** A transcript picked by version reports the user's choice: its MANE
      type was popped, so its records carry the `version_specified`
      message as status. */
  lemma VersionPickedStatus(t: Transcript, k: nat, identifier: string)
    requires k < |t.exons|
    ensures ExonRecord(VersionPicked(t), k, identifier).status == Some(VersionMessage)
  {
  }

  /** One record per exon, in exon order, numbered 1, 2, ...; each lies
      on its exon and carries the transcript's accession, the first gene
      name (else the identifier) and the gene id of `GeneId`. */
  function ExonRecords(t: Transcript, identifier: string): (rs: seq<Interval>)
    ensures |rs| == |t.exons|
    ensures forall k | 0 <= k < |rs| :: rs[k] == ExonRecord(t, k, identifier)
    ensures forall k | 0 <= k < |rs| ::
      rs[k].exonNumber == Some(k + 1) && rs[k].exonId == Some(t.exons[k].stableId)
      && rs[k].locRegion == t.exons[k].locRegion && rs[k].locStart == t.exons[k].locStart
      && rs[k].locEnd == t.exons[k].locEnd && rs[k].locStrand == Some(t.exons[k].locStrand)
      && rs[k].accession == AccessionOf(t) && rs[k].gene == ApiSelection.FirstGeneName(t.genes, identifier)
      && rs[k].ensemblId == GeneId(t.genes) && rs[k].entrezId == GeneId(t.genes) && rs[k].identifier == Some(identifier)
  {
    seq(|t.exons|, k requires 0 <= k < |t.exons| => ExonRecord(t, k, identifier))
  }

  /** What `process_transcripts` returns: the exon records of the present
      transcripts in order, or the IndexError of `results[-1]` when a
      present transcript leaves the results empty. */
  function TranscriptRecords(ts: seq<Option<Transcript>>, identifier: string): Result<seq<Interval>, Fault>
    decreases |ts|
  {
    if |ts| == 0 then Success([])
    else
      match TranscriptRecords(ts[..|ts| - 1], identifier)
      case Failure(e) => Failure(e)
      case Success(prev) =>
        match ts[|ts| - 1]
        case None => Success(prev)
        case Some(t) =>
          var rs := prev + ExonRecords(t, identifier);
          if |rs| == 0 then Failure(IndexError) else Success(rs)
  }

  /** `process_transcripts` of transcript_processing.py. */
  method ProcessTranscripts(ts: seq<Option<Transcript>>, identifier: string) returns (r: Result<seq<Interval>, Fault>)
    ensures r == TranscriptRecords(ts, identifier)
  {
    var results: seq<Interval> := [];
    var i := 0;
    while i < |ts|
      invariant 0 <= i <= |ts|
      invariant TranscriptRecords(ts[..i], identifier) == Success(results)
    {
      assert ts[..i + 1][..i] == ts[..i];
      match ts[i] {
        case None =>
        case Some(t) =>
          results := AppendExonRecords(results, t, identifier);
          if |results| == 0 {
            FailureSticks(ts, i + 1, identifier);
            return Failure(IndexError);
          }
      }
      i := i + 1;
    }
    assert ts[..i] == ts;
    r := Success(results);
  }

  /** The inner loop of `process_transcripts`: one record per exon of `t`,
      appended in exon order. */
  method AppendExonRecords(results: seq<Interval>, t: Transcript, identifier: string) returns (r: seq<Interval>)
    ensures r == results + ExonRecords(t, identifier)
  {
    r := results;
    var index := 0;
    while index < |t.exons|
      invariant 0 <= index <= |t.exons|
      invariant r == results + ExonRecords(t, identifier)[..index]
    {
      assert ExonRecords(t, identifier)[..index + 1] == ExonRecords(t, identifier)[..index] + [ExonRecord(t, index, identifier)];
      r := r + [ExonRecord(t, index, identifier)];
      index := index + 1;
    }
    assert ExonRecords(t, identifier)[..index] == ExonRecords(t, identifier);
  }

  predicate IsPresent(o: Option<Transcript>) { o.Some? }

  /** The IndexError happens exactly when the first present transcript has
      no exons; otherwise there is one record per exon of every present
      transcript. */
  lemma {:induction false} TranscriptRecordsIndexError(ts: seq<Option<Transcript>>, identifier: string)
    ensures var r := TranscriptRecords(ts, identifier);
      var first := FirstIndex(ts, IsPresent);
      (r.Failure? <==> first.Some? && |ts[first.value].value.exons| == 0)
      && (r.Failure? ==> r.error == IndexError)
      && (r.Success? ==> |r.value| == ApiSelection.ExonTotal(ts))
    decreases |ts|
  {
    if |ts| > 0 {
      var init := ts[..|ts| - 1];
      TranscriptRecordsIndexError(init, identifier);
      FirstIndexSnoc(init, ts[|ts| - 1], IsPresent);
      assert init + [ts[|ts| - 1]] == ts;
      NoneFirstTotal(init);
      var first := FirstIndex(init, IsPresent);
      if first.Some? {
        ExonTotalAtLeast(init, first.value);
      }
    }
  }

  /** Without a present transcript, no exons. */
  lemma {:induction false} NoneFirstTotal(ts: seq<Option<Transcript>>)
    ensures FirstIndex(ts, IsPresent).None? ==> ApiSelection.ExonTotal(ts) == 0
    decreases |ts|
  {
    if |ts| > 0 {
      var init := ts[..|ts| - 1];
      NoneFirstTotal(init);
      FirstIndexSnoc(init, ts[|ts| - 1], IsPresent);
      assert init + [ts[|ts| - 1]] == ts;
    }
  }

  /** Every present transcript's exons count towards the total. */
  lemma {:induction false} ExonTotalAtLeast(ts: seq<Option<Transcript>>, i: nat)
    ensures i < |ts| && ts[i].Some? ==> ApiSelection.ExonTotal(ts) >= |ts[i].value.exons|
    decreases |ts|
  {
    if i < |ts| - 1 {
      ExonTotalAtLeast(ts[..|ts| - 1], i);
    }
  }

  /** A failure is never undone by later transcripts. */
  lemma {:induction false} FailureSticks(ts: seq<Option<Transcript>>, n: nat, identifier: string)
    ensures n <= |ts| && TranscriptRecords(ts[..n], identifier).Failure? ==>
      TranscriptRecords(ts, identifier) == TranscriptRecords(ts[..n], identifier)
    decreases |ts|
  {
    if n < |ts| {
      FailureSticks(ts[..|ts| - 1], n, identifier);
      assert ts[..|ts| - 1][..n] == ts[..n];
    } else {
      assert ts[..|ts|] == ts;
    }
  }

  // ---------------------------------------------------------------------
  // process_grch38_mane_select and process_base_accession
  // ---------------------------------------------------------------------

  predicate IsGrch38ManeSelect(t: Transcript) {
    t.assembly == "GRCh38" && t.maneTranscriptType == Some("MANE SELECT")
  }

  /** The GRCh37 transcripts of the response with the given stable id. */
  function Grch37Namesakes(data: seq<Transcript>, id: string): (r: seq<Transcript>)
    ensures forall t | t in r :: t in data && t.assembly == "GRCh37" && t.stableId == id
    ensures forall t | t in data && t.assembly == "GRCh37" && t.stableId == id :: t in r
  {
    Filter(data, (t: Transcript) => t.assembly == "GRCh37" && t.stableId == id)
  }

  /** The records of one transcript carrying the mapping warning, or the
      exception `process_transcripts` raises. */
  function MappedRecords(s: Transcript, warning: Warning, baseAccession: string): (r: Result<Option<seq<Interval>>, Fault>)
    ensures r.Success? ==> r.value.Some?
  {
    match TranscriptRecords([Some(s.(warning := Some(warning)))], baseAccession)
    case Failure(e) => Failure(e)
    case Success(rs) => Success(Some(rs))
  }

  /** `process_grch38_mane_select`: the GRCh37 namesake with the highest
      integer version of the first GRCh38 MANE SELECT transcript, with an
      `assembly_mapping` warning; `None` when there is no such pair. */
  function Grch38ManeSelect(data: seq<Transcript>, baseAccession: string, identifier: string): (r: Result<Option<seq<Interval>>, Fault>)
    ensures (forall t | t in data :: !IsGrch38ManeSelect(t)) ==> r == Success(None)
    ensures r != Success(None) ==> exists t | t in data :: IsGrch38ManeSelect(t)
  {
    match FirstIndex(data, IsGrch38ManeSelect)
    case None => Success(None)
    case Some(k) =>
      var matching := Grch37Namesakes(data, data[k].stableId);
      if |matching| == 0 then Success(None)
      else match ApiSelection.MaxByIntVersion(matching)
        case Failure(e) => Failure(e)
        case Success(s) =>
          var message := ApiSelection.ManeMappingPrefix + data[k].stableId + ApiSelection.ManeMappingSuffix;
          MappedRecords(s, Warning(message, identifier, "assembly_mapping"), baseAccession)
  }

  /** `process_base_accession`: the GRCh37 transcript with the highest
      integer version, with an `assembly_mapping` warning; `None` when the
      response has no GRCh37 transcript. */
  function BaseAccession(data: seq<Transcript>, baseAccession: string, identifier: string): Result<Option<seq<Interval>>, Fault> {
    match ApiSelection.Grch37Pick(data)
    case Failure(e) => Failure(e)
    case Success(None) => Success(None)
    case Success(Some(s)) => MappedRecords(s, Warning(ApiSelection.BaseMappingMessage, identifier, "assembly_mapping"), baseAccession)
  }

  /** The records a mapping gives: one per exon of a GRCh37 transcript,
      each with the mapping message as status; the IndexError of an
      exon-less transcript. */
  lemma MappedRecordsShape(s: Transcript, warning: Warning, baseAccession: string)
    requires s.assembly == "GRCh37"
    ensures var r := MappedRecords(s, warning, baseAccession);
      (r.Failure? <==> |s.exons| == 0)
      && (r.Success? ==> (r.value.Some? && |r.value.value| == |s.exons|
          && forall k | 0 <= k < |s.exons| ::
               r.value.value[k].accession == AccessionOf(s) && r.value.value[k].exonNumber == Some(k + 1)
               && r.value.value[k].status == Some(warning.message)))
  {
    SingleTranscript(s.(warning := Some(warning)), baseAccession);
  }

  /** `process_transcripts` of one transcript. */
  lemma SingleTranscript(t: Transcript, identifier: string)
    ensures TranscriptRecords([Some(t)], identifier)
      == if |t.exons| == 0 then Failure(IndexError) else Success(ExonRecords(t, identifier))
  {
    var ts := [Some(t)];
    assert ts[..0] == [] && ts[0] == Some(t);
    assert TranscriptRecords(ts[..0], identifier) == Success([]);
    assert [] + ExonRecords(t, identifier) == ExonRecords(t, identifier);
  }

  /** `process_grch38_mane_select` finds nothing exactly when the response
      has no GRCh38 MANE SELECT transcript or its first one has no GRCh37
      namesake; otherwise it maps the namesake of greatest version. */
  lemma Grch38ManeSelectPick(data: seq<Transcript>, baseAccession: string, identifier: string, k: nat)
    requires k < |data| && IsGrch38ManeSelect(data[k]) && forall j | 0 <= j < k :: !IsGrch38ManeSelect(data[j])
    ensures var r := Grch38ManeSelect(data, baseAccession, identifier);
      (r == Success(None) <==> forall t | t in data :: !(t.assembly == "GRCh37" && t.stableId == data[k].stableId))
      && (r.Success? && r.value.Some? ==>
            exists s | s in data :: s.assembly == "GRCh37" && s.stableId == data[k].stableId
              && (forall t | t in data && t.assembly == "GRCh37" && t.stableId == data[k].stableId ::
                    VersionKey(t.stableIdVersion) <= VersionKey(s.stableIdVersion))
              && r == MappedRecords(s, Warning(ApiSelection.ManeMappingPrefix + data[k].stableId + ApiSelection.ManeMappingSuffix,
                                               identifier, "assembly_mapping"), baseAccession))
  {
    ManeSelectNone(data, baseAccession, identifier, k);
    ManeSelectMapped(data, baseAccession, identifier, k);
  }

  lemma ManeSelectNone(data: seq<Transcript>, baseAccession: string, identifier: string, k: nat)
    requires k < |data| && IsGrch38ManeSelect(data[k]) && forall j | 0 <= j < k :: !IsGrch38ManeSelect(data[j])
    ensures Grch38ManeSelect(data, baseAccession, identifier) == Success(None)
      <==> forall t | t in data :: !(t.assembly == "GRCh37" && t.stableId == data[k].stableId)
  {
    assert FirstIndex(data, IsGrch38ManeSelect) == Some(k);
    var matching := Grch37Namesakes(data, data[k].stableId);
    HeadIn(matching);
  }

  lemma ManeSelectMapped(data: seq<Transcript>, baseAccession: string, identifier: string, k: nat)
    requires k < |data| && IsGrch38ManeSelect(data[k]) && forall j | 0 <= j < k :: !IsGrch38ManeSelect(data[j])
    ensures var r := Grch38ManeSelect(data, baseAccession, identifier);
      r.Success? && r.value.Some? ==>
        exists s | s in data :: s.assembly == "GRCh37" && s.stableId == data[k].stableId
          && (forall t | t in data && t.assembly == "GRCh37" && t.stableId == data[k].stableId ::
                VersionKey(t.stableIdVersion) <= VersionKey(s.stableIdVersion))
          && r == MappedRecords(s, Warning(ApiSelection.ManeMappingPrefix + data[k].stableId + ApiSelection.ManeMappingSuffix,
                                           identifier, "assembly_mapping"), baseAccession)
  {
    assert FirstIndex(data, IsGrch38ManeSelect) == Some(k);
    var matching := Grch37Namesakes(data, data[k].stableId);
    if |matching| > 0 && ApiSelection.MaxByIntVersion(matching).Success? {
      var s := ApiSelection.MaxByIntVersion(matching).value;
      forall t | t in data && t.assembly == "GRCh37" && t.stableId == data[k].stableId
        ensures VersionKey(t.stableIdVersion) <= VersionKey(s.stableIdVersion)
      {
        assert t in matching;
        var j :| 0 <= j < |matching| && matching[j] == t;
      }
    }
  }

  /** `process_base_accession` finds nothing exactly when the response has
      no GRCh37 transcript; otherwise it maps the one of greatest version. */
  lemma BaseAccessionPick(data: seq<Transcript>, baseAccession: string, identifier: string)
    ensures var r := BaseAccession(data, baseAccession, identifier);
      (r == Success(None) <==> forall t | t in data :: t.assembly != "GRCh37")
      && (r.Success? && r.value.Some? ==>
            exists s | s in data :: s.assembly == "GRCh37"
              && (forall t | t in data && t.assembly == "GRCh37" :: VersionKey(t.stableIdVersion) <= VersionKey(s.stableIdVersion))
              && r == MappedRecords(s, Warning(ApiSelection.BaseMappingMessage, identifier, "assembly_mapping"), baseAccession))
  {
    var pick := ApiSelection.Grch37Pick(data);
    Grch37PickNone(data);
    if pick.Success? && pick.value.Some? {
      var s := pick.value.value;
      Grch37PickGreatest(data);
      assert BaseAccession(data, baseAccession, identifier)
        == MappedRecords(s, Warning(ApiSelection.BaseMappingMessage, identifier, "assembly_mapping"), baseAccession);
    }
  }

  lemma Grch37PickNone(data: seq<Transcript>)
    ensures ApiSelection.Grch37Pick(data) == Success(None) <==> forall t | t in data :: t.assembly != "GRCh37"
  {
    HeadIn(ApiSelection.Grch37Items(data));
  }

  /** The GRCh37 pick has the greatest version of all GRCh37 transcripts. */
  lemma Grch37PickGreatest(data: seq<Transcript>)
    ensures var pick := ApiSelection.Grch37Pick(data);
      pick.Success? && pick.value.Some? ==>
        forall t | t in data && t.assembly == "GRCh37" :: VersionKey(t.stableIdVersion) <= VersionKey(pick.value.value.stableIdVersion)
  {
    var items := ApiSelection.Grch37Items(data);
    if |items| > 0 && ApiSelection.MaxByIntVersion(items).Success? {
      var s := ApiSelection.MaxByIntVersion(items).value;
      forall t | t in data && t.assembly == "GRCh37"
        ensures VersionKey(t.stableIdVersion) <= VersionKey(s.stableIdVersion)
      {
        assert t in items;
        var j :| 0 <= j < |items| && items[j] == t;
      }
    }
  }
}

=== FILE: utils.dfy ===
/** The result-shaping helpers of app/bed_generator/utils.py: the UTR
    trimming applied to every TARK record, the rsID classification of an
    identifier, and the aggregation of many lookups into one results list
    and one list of identifiers without data.

    The lookups are taken as parameters: `variant` stands for the Ensembl
    VEP query of `fetch_variant_info` (its record, or `None`), `tark` and
    `overlap` for the TARK and Ensembl searches. The thread pool is a
    sequential loop over the inputs in order. */
module Utils {
  import opened Wrappers
  import opened Strings
  import opened Records
  import ApiSelection
  import ApiCoordinates

  // ---------------------------------------------------------------------
  // Identifier classification
  // ---------------------------------------------------------------------

  /** `re.match(r'^RS\d+$', identifier, re.IGNORECASE)`. */
  predicate IsRsId(identifier: string) {
    var body := RegexBody(identifier);
    |body| >= 3 && LowerChar(body[0]) == 'r' && LowerChar(body[1]) == 's' && AllDigits(body[2..])
  }

  /** `RS`, `rs`, `Rs` or `rS` followed by digits is an rsID, with or
      without a final newline; a text without that prefix is not. */
  lemma RsIdClassified(prefix: string, digits: string, other: string)
    requires |prefix| == 2 && Lower(prefix) == "rs"
    requires |digits| >= 1 && AllDigits(digits)
    requires |other| >= 2 && Lower(other[..2]) != "rs" && other[|other| - 1] != '\n'
    ensures IsRsId(prefix + digits) && IsRsId(prefix + digits + "\n")
    ensures !IsRsId(other)
  {
    var s := prefix + digits;
    assert LowerChar(prefix[0]) == 'r' && LowerChar(prefix[1]) == 's';
    assert RegexBody(s) == s;
    assert (s + "\n")[..|s|] == s;
    assert RegexBody(s + "\n") == s;
    assert s[2..] == digits;
    assert RegexBody(other) == other;
  }

  // ---------------------------------------------------------------------
  // process_tark_data
  // ---------------------------------------------------------------------

  /** `r.get('loc_strand') == 1`. */
  predicate PositiveStrand(r: Interval) { r.locStrand == Some(1) }

  /** The 5' UTR's `end`, the only bound of that UTR the trimming reads. */
  function FivePrimeEnd(r: Interval): Option<int> {
    if r.fivePrimeUtr.Some? then r.fivePrimeUtr.value.end else None
  }

  /** The 3' UTR's `start`, the only bound of that UTR the trimming reads. */
  function ThreePrimeStart(r: Interval): Option<int> {
    if r.threePrimeUtr.Some? then r.threePrimeUtr.value.start else None
  }

  function Max(a: int, b: int): int { if a >= b then a else b }

  function Min(a: int, b: int): int { if a <= b then a else b }

  /** `max(x, bound)` where a `None` bound leaves `x` alone. */
  function RaiseTo(x: int, bound: Option<int>): (y: int)
    ensures y >= x && (bound.Some? ==> y >= bound.value)
    ensures y == x || bound == Some(y)
  {
    if bound.Some? then Max(x, bound.value) else x
  }

  /** `min(x, bound)` where a `None` bound leaves `x` alone. */
  function LowerTo(x: int, bound: Option<int>): (y: int)
    ensures y <= x && (bound.Some? ==> y <= bound.value)
    ensures y == x || bound == Some(y)
  {
    if bound.Some? then Min(x, bound.value) else x
  }

  /** The UTR bounds that cut the record: the 5' UTR's end unless the 5'
      UTR is included, the 3' UTR's start unless the 3' UTR is included. */
  function FiveCut(r: Interval, include5utr: bool): Option<int> {
    if include5utr then None else FivePrimeEnd(r)
  }

  function ThreeCut(r: Interval, include3utr: bool): Option<int> {
    if include3utr then None else ThreePrimeStart(r)
  }

  /** The record with its bounds trimmed: on strand 1 the 5' cut raises the
      start and the 3' cut lowers the end; on any other strand (-1 or
      missing) the 5' cut lowers the end and the 3' cut raises the start.
      A UTR bound that is `None` cuts nothing. Only the two bounds change. */
  function Clamped(r: Interval, include5utr: bool, include3utr: bool): (c: Interval)
    ensures c == r.(locStart := c.locStart, locEnd := c.locEnd)
    ensures r.locStart <= c.locStart && c.locEnd <= r.locEnd
    ensures PositiveStrand(r) ==>
      c.locStart == RaiseTo(r.locStart, FiveCut(r, include5utr)) && c.locEnd == LowerTo(r.locEnd, ThreeCut(r, include3utr))
    ensures !PositiveStrand(r) ==>
      c.locStart == RaiseTo(r.locStart, ThreeCut(r, include3utr)) && c.locEnd == LowerTo(r.locEnd, FiveCut(r, include5utr))
  {
    var five := FiveCut(r, include5utr);
    var three := ThreeCut(r, include3utr);
    if PositiveStrand(r) then r.(locStart := RaiseTo(r.locStart, five), locEnd := LowerTo(r.locEnd, three))
    else r.(locStart := RaiseTo(r.locStart, three), locEnd := LowerTo(r.locEnd, five))
  }

  /** `process_tark_data` with a missing UTR bound read as "no UTR to
      exclude": the trimmed record, or `None` when its interval is empty. */
  function TrimmedFixed(r: Interval, include5utr: bool, include3utr: bool): (t: Option<Interval>)
    ensures t.None? <==> Clamped(r, include5utr, include3utr).locStart >= Clamped(r, include5utr, include3utr).locEnd
    ensures t.Some? ==> t.value == Clamped(r, include5utr, include3utr) && t.value.locStart < t.value.locEnd
  {
    var c := Clamped(r, include5utr, include3utr);
    if c.locStart < c.locEnd then Some(c) else None
  }

  /** `process_tark_data`: overwrites the record's bounds one UTR at a
      time and keeps the record only if its interval is still non-empty;
      an excluded UTR whose bound is `None` raises TypeError. */
  method ProcessTarkData(r: Interval, include5utr: bool, include3utr: bool) returns (t: Result<Option<Interval>, Fault>)
    ensures t == Trimmed(r, include5utr, include3utr)
  {
    var rec := r;
    if rec.locStrand == Some(1) {
      if !include5utr && rec.fivePrimeUtr.Some? {
        var bound := rec.fivePrimeUtr.value.end;
        if bound.None? {
          return Failure(TypeError);
        }
        rec := rec.(locStart := Max(rec.locStart, bound.value));
      }
      if !include3utr && rec.threePrimeUtr.Some? {
        var bound := rec.threePrimeUtr.value.start;
        if bound.None? {
          return Failure(TypeError);
        }
        rec := rec.(locEnd := Min(rec.locEnd, bound.value));
      }
    } else {
      if !include5utr && rec.fivePrimeUtr.Some? {
        var bound := rec.fivePrimeUtr.value.end;
        if bound.None? {
          return Failure(TypeError);
        }
        rec := rec.(locEnd := Min(rec.locEnd, bound.value));
      }
      if !include3utr && rec.threePrimeUtr.Some? {
        var bound := rec.threePrimeUtr.value.start;
        if bound.None? {
          return Failure(TypeError);
        }
        rec := rec.(locStart := Max(rec.locStart, bound.value));
      }
    }
    if rec.locStart < rec.locEnd {
      t := Success(Some(rec));
    } else {
      t := Success(None);
    }
  }

  /** Including both UTRs trims nothing: the record is kept, unchanged,
      exactly when its interval is non-empty. */
  lemma TrimmedIncludeAll(r: Interval)
    ensures Trimmed(r, true, true) == Success(if r.locStart < r.locEnd then Some(r) else None)
  {
  }

  /** UTRs that lie inside the record are cut off: on strand 1 the record
      then starts where the 5' UTR ends and ends where the 3' UTR starts;
      on any other strand the 3' UTR's start becomes the start and the 5'
      UTR's end the end. */
  lemma TrimmedInsideUtrs(r: Interval, fiveEnd: int, threeStart: int)
    requires FivePrimeEnd(r) == Some(fiveEnd) && ThreePrimeStart(r) == Some(threeStart)
    ensures PositiveStrand(r) && r.locStart <= fiveEnd < threeStart <= r.locEnd ==>
      Trimmed(r, false, false) == Success(Some(r.(locStart := fiveEnd, locEnd := threeStart)))
    ensures !PositiveStrand(r) && r.locStart <= threeStart < fiveEnd <= r.locEnd ==>
      Trimmed(r, false, false) == Success(Some(r.(locStart := threeStart, locEnd := fiveEnd)))
  {
  }

  /** `process_tark_data` as written: `max`/`min` against a UTR bound that
      is `None` raises a TypeError. The UTR dictionaries are always
      present on TARK records (a transcript without UTRs has both bounds
      `None`), so the guard `r.get('five_prime_utr')` never skips them. */
  function Trimmed(r: Interval, include5utr: bool, include3utr: bool): (t: Result<Option<Interval>, Fault>)
    ensures t.Failure? <==> ReadsMissingBound(r, include5utr, include3utr)
    ensures t.Failure? ==> t.error == TypeError
  {
    var five := !include5utr && r.fivePrimeUtr.Some?;
    var three := !include3utr && r.threePrimeUtr.Some?;
    if (five && r.fivePrimeUtr.value.end.None?) || (three && r.threePrimeUtr.value.start.None?) then Failure(TypeError)
    else
      var start := r.locStart;
      var end := r.locEnd;
      var (s, e) :=
        if PositiveStrand(r) then
          (if five then Max(start, r.fivePrimeUtr.value.end.value) else start,
           if three then Min(end, r.threePrimeUtr.value.start.value) else end)
        else
          (if three then Max(start, r.threePrimeUtr.value.start.value) else start,
           if five then Min(end, r.fivePrimeUtr.value.end.value) else end);
      Success(if s < e then Some(r.(locStart := s, locEnd := e)) else None)
  }

  /** Excluding a UTR whose bound the trimming reads is `None`. */
  predicate ReadsMissingBound(r: Interval, include5utr: bool, include3utr: bool) {
    (!include5utr && r.fivePrimeUtr.Some? && r.fivePrimeUtr.value.end.None?)
    || (!include3utr && r.threePrimeUtr.Some? && r.threePrimeUtr.value.start.None?)
  }

  /** The trimming as written fails on a record of a transcript without a
      5' UTR as soon as that UTR is excluded, whatever the strand; the
      intended trimming leaves such a record as if the UTR were included. */
  lemma MissingUtrRaises(r: Interval, include3utr: bool)
    requires r.fivePrimeUtr == Some(UtrBounds(None, None))
    ensures Trimmed(r, false, include3utr) == Failure(TypeError)
    ensures TrimmedFixed(r, false, include3utr) == TrimmedFixed(r, true, include3utr)
  {
  }

  /** Where no bound read is missing, the trimming as written and the
      intended one agree. */
  lemma TrimmedAgrees(r: Interval, include5utr: bool, include3utr: bool)
    requires !ReadsMissingBound(r, include5utr, include3utr)
    ensures Trimmed(r, include5utr, include3utr) == Success(TrimmedFixed(r, include5utr, include3utr))
  {
  }

  // ---------------------------------------------------------------------
  // process_utr
  // ---------------------------------------------------------------------

  datatype UtrKey = FivePrimeUtr | ThreePrimeUtr

  datatype Bound = Start | End

  /** `r[f'loc_{bound}']`. */
  function Loc(r: Interval, bound: Bound): int {
    match bound case Start => r.locStart case End => r.locEnd
  }

  /** `r.get(utr_key, {})`: the UTR, or `None` for the empty dictionary. */
  function UtrOf(r: Interval, key: UtrKey): Option<UtrBounds> {
    match key case FivePrimeUtr => r.fivePrimeUtr case ThreePrimeUtr => r.threePrimeUtr
  }

  /** `utr.get(bound)`. */
  function UtrBound(u: Option<UtrBounds>, bound: Bound): Option<int> {
    match u
    case None => None
    case Some(b) => match bound case Start => b.start case End => b.end
  }

  /** The bound is moved: the UTR is excluded, its `bound` is truthy (not
      `None`, not 0) and the record's bound equals it exactly. */
  predicate UtrReplaces(r: Interval, key: UtrKey, bound: Bound, includeUtr: bool) {
    var b := UtrBound(UtrOf(r, key), bound);
    !includeUtr && b.Some? && b.value != 0 && Loc(r, bound) == b.value
  }

  /** `process_utr`: the UTR's `opposite` bound (`None` where that bound is
      null) when the record's bound sits on an excluded UTR's bound,
      otherwise the record's own bound. */
  function ProcessUtr(r: Interval, key: UtrKey, bound: Bound, opposite: Bound, includeUtr: bool): (p: Option<int>)
    ensures includeUtr ==> p == Some(Loc(r, bound))
    ensures p != Some(Loc(r, bound)) ==> UtrReplaces(r, key, bound, includeUtr) && p == UtrBound(UtrOf(r, key), opposite)
    ensures UtrReplaces(r, key, bound, includeUtr) ==> p == UtrBound(UtrOf(r, key), opposite)
  {
    if UtrReplaces(r, key, bound, includeUtr) then UtrBound(UtrOf(r, key), opposite) else Some(Loc(r, bound))
  }

  /** On strand 1, a record starting exactly where its excluded 5' UTR
      starts is moved to that UTR's end by `process_utr`, the same start
      the trimming gives it. */
  lemma ProcessUtrMatchesTrim(r: Interval)
    requires PositiveStrand(r) && r.fivePrimeUtr.Some?
    requires r.fivePrimeUtr.value.start == Some(r.locStart) && r.locStart != 0
    requires r.fivePrimeUtr.value.end.Some? && r.fivePrimeUtr.value.end.value >= r.locStart
    ensures ProcessUtr(r, FivePrimeUtr, Start, End, false) == Some(Clamped(r, false, true).locStart)
  {
  }

  // ---------------------------------------------------------------------
  // process_data
  // ---------------------------------------------------------------------

  /** What a lookup gives: a TARK list, a variant, or Python's `None`. */
  datatype Fetched = TarkData(records: seq<Interval>) | VariantData(info: VariantInfo) | NoData

  /** Records trimmed one after another, as both loops over a TARK list
      do: the kept records, and the exception that stopped the loop. */
  datatype Partial = Partial(kept: seq<Interval>, error: Option<Fault>)

  /** The records trimmed in order until a trimming raises: the kept ones
      of the records before it, and its exception (`None` when no trimming
      raised). */
  function TrimEach(rs: seq<Interval>, include5utr: bool, include3utr: bool): (p: Partial)
    ensures p.error.None? <==> forall k | 0 <= k < |rs| :: !ReadsMissingBound(rs[k], include5utr, include3utr)
    ensures p.error.Some? ==> p.error.value == TypeError
    ensures |p.kept| <= |rs|
    decreases |rs|
  {
    if |rs| == 0 then Partial([], None)
    else
      var init := rs[..|rs| - 1];
      var prev := TrimEach(init, include5utr, include3utr);
      assert forall k | 0 <= k < |init| :: init[k] == rs[k];
      if prev.error.Some? then prev
      else match Trimmed(rs[|rs| - 1], include5utr, include3utr)
        case Failure(e) => Partial(prev.kept, Some(e))
        case Success(t) => Partial(prev.kept + (if t.Some? then [t.value] else []), None)
  }

  /** One more record: once a trimming has raised the rest are skipped,
      otherwise the record's trimmed form, if any, goes on the end or its
      exception stops the loop. */
  lemma TrimEachNext(rs: seq<Interval>, j: nat, include5utr: bool, include3utr: bool)
    requires j < |rs|
    ensures var prev := TrimEach(rs[..j], include5utr, include3utr);
      var next := TrimEach(rs[..j + 1], include5utr, include3utr);
      var t := Trimmed(rs[j], include5utr, include3utr);
      (prev.error.Some? ==> next == prev)
      && (prev.error.None? && t.Failure? ==> next == Partial(prev.kept, Some(t.error)))
      && (prev.error.None? && t.Success? ==> next == Partial(prev.kept + (if t.value.Some? then [t.value.value] else []), None))
  {
    assert rs[..j + 1][..j] == rs[..j];
  }

  /** After a trimming has raised, later records change nothing. */
  lemma {:induction false} TrimEachStopped(rs: seq<Interval>, j: nat, include5utr: bool, include3utr: bool)
    requires j <= |rs| && TrimEach(rs[..j], include5utr, include3utr).error.Some?
    ensures TrimEach(rs, include5utr, include3utr) == TrimEach(rs[..j], include5utr, include3utr)
    decreases |rs| - j
  {
    if j < |rs| {
      TrimEachNext(rs, j, include5utr, include3utr);
      TrimEachStopped(rs, j + 1, include5utr, include3utr);
    } else {
      assert rs[..j] == rs;
    }
  }

  /** The kept records are trimmed forms of input records, each with a
      non-empty interval; when no trimming raised, every record whose
      trimmed form is not `None` is kept. */
  lemma TrimEachMembers(rs: seq<Interval>, include5utr: bool, include3utr: bool)
    ensures var p := TrimEach(rs, include5utr, include3utr);
      (forall x | x in p.kept :: x.locStart < x.locEnd
         && exists k | 0 <= k < |rs| :: Trimmed(rs[k], include5utr, include3utr) == Success(Some(x)))
      && (p.error.None? ==> forall k | 0 <= k < |rs| ::
            Trimmed(rs[k], include5utr, include3utr).Success?
            && (Trimmed(rs[k], include5utr, include3utr).value.Some? ==>
                  Trimmed(rs[k], include5utr, include3utr).value.value in p.kept))
  {
    TrimEachFrom(rs, include5utr, include3utr);
    TrimEachKeeps(rs, include5utr, include3utr);
    forall x | x in TrimEach(rs, include5utr, include3utr).kept
      ensures x.locStart < x.locEnd
    {
      var k :| 0 <= k < |rs| && Trimmed(rs[k], include5utr, include3utr) == Success(Some(x));
      TrimmedAgrees(rs[k], include5utr, include3utr);
    }
  }

  /** Every kept record is the trimmed form of some input record. */
  lemma {:induction false} TrimEachFrom(rs: seq<Interval>, include5utr: bool, include3utr: bool)
    ensures forall x | x in TrimEach(rs, include5utr, include3utr).kept ::
      exists k | 0 <= k < |rs| :: Trimmed(rs[k], include5utr, include3utr) == Success(Some(x))
    decreases |rs|
  {
    if |rs| > 0 {
      var init := rs[..|rs| - 1];
      var prev := TrimEach(init, include5utr, include3utr);
      TrimEachFrom(init, include5utr, include3utr);
      forall x | x in TrimEach(rs, include5utr, include3utr).kept
        ensures exists k | 0 <= k < |rs| :: Trimmed(rs[k], include5utr, include3utr) == Success(Some(x))
      {
        if x in prev.kept {
          var k :| 0 <= k < |init| && Trimmed(init[k], include5utr, include3utr) == Success(Some(x));
          assert init[k] == rs[k];
        } else {
          assert Trimmed(rs[|rs| - 1], include5utr, include3utr) == Success(Some(x));
        }
      }
    }
  }

  /** When no trimming raised, every record whose trimmed form is not
      `None` is kept. */
  lemma {:induction false} TrimEachKeeps(rs: seq<Interval>, include5utr: bool, include3utr: bool)
    ensures var p := TrimEach(rs, include5utr, include3utr);
      p.error.None? ==> forall k | 0 <= k < |rs| ::
        Trimmed(rs[k], include5utr, include3utr).Success?
        && (Trimmed(rs[k], include5utr, include3utr).value.Some? ==>
              Trimmed(rs[k], include5utr, include3utr).value.value in p.kept)
    decreases |rs|
  {
    var p := TrimEach(rs, include5utr, include3utr);
    if |rs| > 0 && p.error.None? {
      var init := rs[..|rs| - 1];
      TrimEachKeeps(init, include5utr, include3utr);
      forall k | 0 <= k < |rs|
        ensures Trimmed(rs[k], include5utr, include3utr).Success?
        ensures Trimmed(rs[k], include5utr, include3utr).value.Some? ==>
          Trimmed(rs[k], include5utr, include3utr).value.value in p.kept
      {
        if k < |init| {
          assert init[k] == rs[k];
        }
      }
    }
  }

  /** When a trimming raises, the kept records are exactly those of the
      records before the first one that reads a missing bound. */
  lemma TrimEachRaises(rs: seq<Interval>, include5utr: bool, include3utr: bool)
    ensures var p := TrimEach(rs, include5utr, include3utr);
      p.error.Some? ==> exists j | 0 <= j < |rs| :: (ReadsMissingBound(rs[j], include5utr, include3utr)
        && TrimEach(rs[..j], include5utr, include3utr).error.None?
        && p == Partial(TrimEach(rs[..j], include5utr, include3utr).kept, Some(TypeError)))
  {
    var p := TrimEach(rs, include5utr, include3utr);
    if p.error.Some? {
      var j := FirstRaising(rs, include5utr, include3utr);
      TrimEachNext(rs, j, include5utr, include3utr);
      TrimEachStopped(rs, j + 1, include5utr, include3utr);
    }
  }

  /** The position of the first record that reads a missing bound. */
  lemma FirstRaising(rs: seq<Interval>, include5utr: bool, include3utr: bool) returns (j: nat)
    requires TrimEach(rs, include5utr, include3utr).error.Some?
    ensures j < |rs| && ReadsMissingBound(rs[j], include5utr, include3utr)
    ensures TrimEach(rs[..j], include5utr, include3utr).error.None?
  {
    j := 0;
    while !ReadsMissingBound(rs[j], include5utr, include3utr)
      invariant j < |rs| && forall k | 0 <= k < j :: !ReadsMissingBound(rs[k], include5utr, include3utr)
      decreases |rs| - j
    {
      j := j + 1;
    }
    assert forall k | 0 <= k < j :: rs[..j][k] == rs[k];
  }

  /** Trimming never lets a record through with an empty interval or a
      bound outside the one it had, and with both UTRs included it never
      raises and keeps every record with a non-empty interval. */
  lemma {:induction false} TrimEachBounds(rs: seq<Interval>, include5utr: bool, include3utr: bool)
    ensures forall x | x in TrimEach(rs, include5utr, include3utr).kept ::
      exists k | 0 <= k < |rs| :: rs[k].locStart <= x.locStart < x.locEnd <= rs[k].locEnd
    ensures TrimEach(rs, true, true) == Partial(Filtered(rs), None)
    decreases |rs|
  {
    TrimEachMembers(rs, include5utr, include3utr);
    forall x | x in TrimEach(rs, include5utr, include3utr).kept
      ensures exists k | 0 <= k < |rs| :: rs[k].locStart <= x.locStart < x.locEnd <= rs[k].locEnd
    {
      var k :| 0 <= k < |rs| && Trimmed(rs[k], include5utr, include3utr) == Success(Some(x));
      TrimmedAgrees(rs[k], include5utr, include3utr);
    }
    if |rs| > 0 {
      TrimEachBounds(rs[..|rs| - 1], true, true);
      TrimmedIncludeAll(rs[|rs| - 1]);
    }
  }

  /** The records with a non-empty interval, in order. */
  function Filtered(rs: seq<Interval>): seq<Interval>
    decreases |rs|
  {
    if |rs| == 0 then []
    else
      var last := rs[|rs| - 1];
      Filtered(rs[..|rs| - 1]) + (if last.locStart < last.locEnd then [last] else [])
  }

  /** The records as results-list items. */
  function Dicts(rs: seq<Interval>): (items: seq<Item>)
    ensures |items| == |rs| && forall k | 0 <= k < |rs| :: items[k] == Dict(rs[k])
  {
    seq(|rs|, k requires 0 <= k < |rs| => Dict(rs[k]))
  }

  lemma DictsConcat(a: seq<Interval>, b: seq<Interval>)
    ensures Dicts(a + b) == Dicts(a) + Dicts(b)
  {
  }

  /** `process_data`: a TARK list gives its kept trimmed records, and
      raises as a whole when the trimming of any of its records raises; a
      variant gives a one-element list, `None` the empty list. */
  function ProcessData(data: Fetched, include5utr: bool, include3utr: bool): (items: Result<seq<Item>, Fault>)
    ensures data.NoData? ==> items == Success([])
    ensures data.VariantData? ==> items == Success([Variant(data.info)])
    ensures data.TarkData? ==>
      (items.Failure? <==> exists k | 0 <= k < |data.records| :: ReadsMissingBound(data.records[k], include5utr, include3utr))
      && (items.Failure? ==> items.error == TypeError)
      && (items.Success? ==> items.value == Dicts(TrimEach(data.records, include5utr, include3utr).kept))
  {
    match data
    case TarkData(rs) =>
      var p := TrimEach(rs, include5utr, include3utr);
      if p.error.Some? then Failure(p.error.value) else Success(Dicts(p.kept))
    case VariantData(v) => Success([Variant(v)])
    case NoData => Success([])
  }

  // ---------------------------------------------------------------------
  // process_single_identifier and process_identifiers
  // ---------------------------------------------------------------------

  /** `process_single_identifier`: an rsID goes to the variant lookup, any
      other identifier to TARK; a lookup that raises, either of them, gives
      its exception. */
  function FetchIdentifier(identifier: string, assembly: string,
                           variant: VariantLookup,
                           tark: ApiSelection.TarkQuery -> seq<Transcript>): (r: Result<Fetched, Fault>)
    ensures IsRsId(identifier) ==> (r.Failure? <==> variant(identifier, assembly).Failure?)
    ensures IsRsId(identifier) && r.Failure? ==> r.error == variant(identifier, assembly).error
    ensures IsRsId(identifier) && r.Success? ==> !r.value.TarkData?
    ensures !IsRsId(identifier) ==> r.Success? ==> !r.value.VariantData?
  {
    if IsRsId(identifier) then
      match variant(identifier, assembly)
      case Failure(e) => Failure(e)
      case Success(Some(v)) => Success(VariantData(v))
      case Success(None) => Success(NoData)
    else
      match ApiSelection.TarkRecords(identifier, assembly, tark)
      case Failure(e) => Failure(e)
      case Success(None) => Success(NoData)
      case Success(Some(rs)) => Success(TarkData(rs))
  }

  /** Python truthiness of fetched data: `None` and the empty list are
      falsy, a variant record is truthy. */
  predicate Falsy(data: Fetched) { data.NoData? || data == TarkData([]) }

  /** The two lists `process_identifiers` builds. */
  datatype Outcome = Outcome(results: seq<Item>, noData: seq<string>)

  /** What `process_identifiers` returns for the identifiers in order: a
      lookup that raises adds nothing, falsy data adds the identifier to
      the no-data list, a variant is appended, and a TARK list appends the
      kept records trimmed before the first trimming that raises (the
      exception is caught with the lookup's, so the records already
      appended stay and the identifier is not listed as lacking data). */
  function Aggregate(identifiers: seq<string>, assembly: string, include5utr: bool, include3utr: bool,
                     variant: VariantLookup,
                     tark: ApiSelection.TarkQuery -> seq<Transcript>): Outcome
    decreases |identifiers|
  {
    if |identifiers| == 0 then Outcome([], [])
    else
      var prev := Aggregate(identifiers[..|identifiers| - 1], assembly, include5utr, include3utr, variant, tark);
      var identifier := identifiers[|identifiers| - 1];
      Absorb(prev, identifier, FetchIdentifier(identifier, assembly, variant, tark), include5utr, include3utr)
  }

  /** One iteration of `process_identifiers`: what the lookup of
      `identifier` adds to the two lists. */
  function Absorb(prev: Outcome, identifier: string, fetched: Result<Fetched, Fault>, include5utr: bool, include3utr: bool): Outcome {
    match fetched
    case Failure(_) => prev
    case Success(data) =>
      if Falsy(data) then prev.(noData := prev.noData + [identifier])
      else match data
        case TarkData(rs) => prev.(results := prev.results + Dicts(TrimEach(rs, include5utr, include3utr).kept))
        case VariantData(v) => prev.(results := prev.results + [Variant(v)])
        case NoData => prev
  }

  /** `process_single_identifier`. */
  method ProcessSingleIdentifier(identifier: string, assembly: string,
                                 variant: VariantLookup,
                                 tark: ApiSelection.TarkQuery -> seq<Transcript>)
    returns (r: Result<Fetched, Fault>)
    ensures r == FetchIdentifier(identifier, assembly, variant, tark)
  {
    if IsRsId(identifier) {
      var info := variant(identifier, assembly);
      r := match info
        case Failure(e) => Failure(e)
        case Success(Some(v)) => Success(VariantData(v))
        case Success(None) => Success(NoData);
    } else {
      var records := ApiSelection.FetchDataFromTark(identifier, assembly, tark);
      r := match records
        case Failure(e) => Failure(e)
        case Success(None) => Success(NoData)
        case Success(Some(rs)) => Success(TarkData(rs));
    }
  }

  /** The inner loop of `process_identifiers`: the TARK records are
      trimmed in order and the kept ones appended to the results, until a
      trimming raises; its exception is returned, with the records
      appended before it. */
  method AppendTrimmed(results: seq<Item>, rs: seq<Interval>, include5utr: bool, include3utr: bool)
    returns (out: seq<Item>, error: Option<Fault>)
    ensures out == results + Dicts(TrimEach(rs, include5utr, include3utr).kept)
    ensures error == TrimEach(rs, include5utr, include3utr).error
  {
    out := results;
    var j := 0;
    while j < |rs|
      invariant 0 <= j <= |rs|
      invariant TrimEach(rs[..j], include5utr, include3utr).error.None?
      invariant out == results + Dicts(TrimEach(rs[..j], include5utr, include3utr).kept)
    {
      var t := ProcessTarkData(rs[j], include5utr, include3utr);
      TrimEachNext(rs, j, include5utr, include3utr);
      if t.Failure? {
        TrimEachStopped(rs, j + 1, include5utr, include3utr);
        return out, Some(t.error);
      }
      AppendTrimmedStep(results, rs, j, include5utr, include3utr);
      if t.value.Some? {
        out := out + [Dict(t.value.value)];
      }
      j := j + 1;
    }
    assert rs[..|rs|] == rs;
    error := None;
  }

  /** One step of `AppendTrimmed` that does not raise: the record's
      trimmed form, if any, goes on the end. */
  lemma AppendTrimmedStep(results: seq<Item>, rs: seq<Interval>, j: nat, include5utr: bool, include3utr: bool)
    requires j < |rs| && TrimEach(rs[..j], include5utr, include3utr).error.None?
    requires Trimmed(rs[j], include5utr, include3utr).Success?
    ensures var t := Trimmed(rs[j], include5utr, include3utr).value;
      var before := results + Dicts(TrimEach(rs[..j], include5utr, include3utr).kept);
      var after := results + Dicts(TrimEach(rs[..j + 1], include5utr, include3utr).kept);
      (t.Some? ==> after == before + [Dict(t.value)]) && (t.None? ==> after == before)
  {
    TrimEachNext(rs, j, include5utr, include3utr);
    var kept := TrimEach(rs[..j], include5utr, include3utr).kept;
    var t := Trimmed(rs[j], include5utr, include3utr).value;
    if t.Some? {
      DictsConcat(kept, [t.value]);
    } else {
      assert kept + [] == kept;
    }
  }

  /** `process_identifiers`, one identifier after another; an exception
      from the trimming is caught and dropped. */
  method ProcessIdentifiers(identifiers: seq<string>, assembly: string, include5utr: bool, include3utr: bool,
                            variant: VariantLookup,
                            tark: ApiSelection.TarkQuery -> seq<Transcript>)
    returns (results: seq<Item>, noDataIdentifiers: seq<string>)
    ensures Outcome(results, noDataIdentifiers) == Aggregate(identifiers, assembly, include5utr, include3utr, variant, tark)
  {
    results := [];
    noDataIdentifiers := [];
    var i := 0;
    while i < |identifiers|
      invariant 0 <= i <= |identifiers|
      invariant Outcome(results, noDataIdentifiers) == Aggregate(identifiers[..i], assembly, include5utr, include3utr, variant, tark)
    {
      var identifier := identifiers[i];
      var fetched := ProcessSingleIdentifier(identifier, assembly, variant, tark);
      AggregateNext(identifiers, i, assembly, include5utr, include3utr, variant, tark);
      results, noDataIdentifiers := AbsorbInto(results, noDataIdentifiers, identifier, fetched, include5utr, include3utr);
      i := i + 1;
    }
    assert identifiers[..|identifiers|] == identifiers;
  }

  /** The body of the loop of `process_identifiers`: the lookup's outcome
      is added to the two lists, the exception of a lookup or a trimming
      caught. */
  method AbsorbInto(results: seq<Item>, noDataIdentifiers: seq<string>, identifier: string,
                    fetched: Result<Fetched, Fault>, include5utr: bool, include3utr: bool)
    returns (results': seq<Item>, noDataIdentifiers': seq<string>)
    ensures Outcome(results', noDataIdentifiers') == Absorb(Outcome(results, noDataIdentifiers), identifier, fetched, include5utr, include3utr)
  {
    results', noDataIdentifiers' := results, noDataIdentifiers;
    if fetched.Success? {
      var data := fetched.value;
      if Falsy(data) {
        noDataIdentifiers' := noDataIdentifiers + [identifier];
      } else if data.TarkData? {
        var caught: Option<Fault>;
        results', caught := AppendTrimmed(results, data.records, include5utr, include3utr);
      } else if data.VariantData? {
        results' := results + [Variant(data.info)];
      }
    }
  }

  /** The loop's step: one more identifier is absorbed into the lists. */
  lemma AggregateNext(identifiers: seq<string>, i: nat, assembly: string, include5utr: bool, include3utr: bool,
                      variant: VariantLookup,
                      tark: ApiSelection.TarkQuery -> seq<Transcript>)
    requires i < |identifiers|
    ensures Aggregate(identifiers[..i + 1], assembly, include5utr, include3utr, variant, tark)
      == Absorb(Aggregate(identifiers[..i], assembly, include5utr, include3utr, variant, tark), identifiers[i],
                FetchIdentifier(identifiers[i], assembly, variant, tark), include5utr, include3utr)
  {
    assert identifiers[..i + 1][..i] == identifiers[..i];
  }

  /** The lookup of `identifier` succeeded with nothing. */
  predicate FoundNothing(identifier: string, assembly: string,
                         variant: VariantLookup,
                         tark: ApiSelection.TarkQuery -> seq<Transcript>)
  {
    var fetched := FetchIdentifier(identifier, assembly, variant, tark);
    fetched.Success? && Falsy(fetched.value)
  }

  /** The no-data list holds exactly the identifiers whose lookup
      succeeded with nothing. */
  lemma {:induction false} AggregateNoData(identifiers: seq<string>, assembly: string, include5utr: bool, include3utr: bool,
                                           variant: VariantLookup,
                                           tark: ApiSelection.TarkQuery -> seq<Transcript>)
    ensures var out := Aggregate(identifiers, assembly, include5utr, include3utr, variant, tark);
      |out.noData| <= |identifiers|
      && (forall id | id in out.noData :: id in identifiers && FoundNothing(id, assembly, variant, tark))
      && (forall id | id in identifiers && FoundNothing(id, assembly, variant, tark) :: id in out.noData)
    decreases |identifiers|
  {
    if |identifiers| > 0 {
      var init := identifiers[..|identifiers| - 1];
      var last := identifiers[|identifiers| - 1];
      assert identifiers == init + [last];
      var prev := Aggregate(init, assembly, include5utr, include3utr, variant, tark);
      var out := Aggregate(identifiers, assembly, include5utr, include3utr, variant, tark);
      AggregateNoData(init, assembly, include5utr, include3utr, variant, tark);
      if FoundNothing(last, assembly, variant, tark) {
        assert out.noData == prev.noData + [last];
      } else {
        assert out.noData == prev.noData;
      }
    }
  }

  /** What one more identifier changes: a lookup that raises changes
      nothing; an rsID adds its variant or, without one, its name to the
      no-data list; a TARK list adds the kept records trimmed before the
      first trimming that raises and leaves the no-data list alone. */
  lemma AggregateStep(identifiers: seq<string>, identifier: string, assembly: string, include5utr: bool, include3utr: bool,
                      variant: VariantLookup,
                      tark: ApiSelection.TarkQuery -> seq<Transcript>)
    ensures var before := Aggregate(identifiers, assembly, include5utr, include3utr, variant, tark);
      var after := Aggregate(identifiers + [identifier], assembly, include5utr, include3utr, variant, tark);
      var fetched := FetchIdentifier(identifier, assembly, variant, tark);
      (fetched.Failure? ==> after == before)
      && (IsRsId(identifier) && variant(identifier, assembly).Success? && variant(identifier, assembly).value.Some? ==>
            after == before.(results := before.results + [Variant(variant(identifier, assembly).value.value)]))
      && (IsRsId(identifier) && variant(identifier, assembly) == Success(None) ==>
            after == before.(noData := before.noData + [identifier]))
      && (fetched.Success? && fetched.value.TarkData? && |fetched.value.records| > 0 ==>
            after == before.(results := before.results + Dicts(TrimEach(fetched.value.records, include5utr, include3utr).kept)))
  {
    assert (identifiers + [identifier])[..|identifiers|] == identifiers;
  }

  /** The defect seen from `process_identifiers`: when the first TARK record
      of an identifier reads a missing UTR bound, the identifier adds
      nothing to the results and is not reported as lacking data either. */
  lemma IdentifierLost(identifiers: seq<string>, identifier: string, assembly: string, include5utr: bool, include3utr: bool,
                       variant: VariantLookup,
                       tark: ApiSelection.TarkQuery -> seq<Transcript>, rs: seq<Interval>)
    requires FetchIdentifier(identifier, assembly, variant, tark) == Success(TarkData(rs))
    requires |rs| > 0 && ReadsMissingBound(rs[0], include5utr, include3utr)
    ensures Aggregate(identifiers + [identifier], assembly, include5utr, include3utr, variant, tark)
      == Aggregate(identifiers, assembly, include5utr, include3utr, variant, tark)
  {
    AggregateStep(identifiers, identifier, assembly, include5utr, include3utr, variant, tark);
    TrimEachNext(rs, 0, include5utr, include3utr);
    TrimEachStopped(rs, 1, include5utr, include3utr);
    assert rs[..0] == [];
  }

  // ---------------------------------------------------------------------
  // process_coordinates
  // ---------------------------------------------------------------------

  /** What `process_coordinates` returns: the records of every coordinate
      whose lookup succeeds, in input order; an invalid coordinate adds
      nothing. */
  function CoordinateResults(coordinates: seq<string>, assembly: string, overlap: string -> seq<ApiCoordinates.Feature>): seq<Interval>
    decreases |coordinates|
  {
    if |coordinates| == 0 then []
    else
      var prev := CoordinateResults(coordinates[..|coordinates| - 1], assembly, overlap);
      prev + Found(ApiCoordinates.CoordinateInfo(coordinates[|coordinates| - 1], assembly, overlap))
  }

  /** The records a lookup adds: none when it raised. */
  function Found(info: Result<seq<Interval>, Fault>): seq<Interval> {
    match info
    case Failure(_) => []
    case Success(data) => data
  }

  /** `process_coordinates`, one coordinate after another. */
  method ProcessCoordinates(coordinates: seq<string>, assembly: string, overlap: string -> seq<ApiCoordinates.Feature>)
    returns (results: seq<Interval>)
    ensures results == CoordinateResults(coordinates, assembly, overlap)
  {
    results := [];
    var i := 0;
    while i < |coordinates|
      invariant 0 <= i <= |coordinates|
      invariant results == CoordinateResults(coordinates[..i], assembly, overlap)
    {
      var data := ApiCoordinates.FetchCoordinateInfo(coordinates[i], assembly, overlap);
      CoordinateResultsStep(coordinates, i, assembly, overlap);
      if data.Success? && |data.value| > 0 {
        results := results + data.value;
      } else {
        assert Found(data) == [];
      }
      i := i + 1;
    }
    assert coordinates[..|coordinates|] == coordinates;
  }

  /** One more coordinate appends what its lookup found. */
  lemma CoordinateResultsStep(coordinates: seq<string>, i: nat, assembly: string, overlap: string -> seq<ApiCoordinates.Feature>)
    requires i < |coordinates|
    ensures CoordinateResults(coordinates[..i + 1], assembly, overlap)
      == CoordinateResults(coordinates[..i], assembly, overlap) + Found(ApiCoordinates.CoordinateInfo(coordinates[i], assembly, overlap))
  {
    assert coordinates[..i + 1][..i] == coordinates[..i];
  }

  /** `rec` lies on the locus the written parse gives for the valid
      coordinate `c`, with start <= end. */
  predicate FromCoordinate(rec: Interval, c: string) {
    ApiCoordinates.ValidateCoordinates(c).None?
    && ApiCoordinates.OnLocus(rec, ApiCoordinates.ParseCoordinate(c).value)
    && rec.locStart <= rec.locEnd
  }

  /** Every record returned lies on the region the written parse gives for
      a valid coordinate of the input, with start <= end. */
  lemma {:induction false} CoordinateResultsValid(coordinates: seq<string>, assembly: string, overlap: string -> seq<ApiCoordinates.Feature>)
    ensures forall rec | rec in CoordinateResults(coordinates, assembly, overlap) ::
      exists c | c in coordinates :: FromCoordinate(rec, c)
    decreases |coordinates|
  {
    if |coordinates| > 0 {
      var init := coordinates[..|coordinates| - 1];
      var c := coordinates[|coordinates| - 1];
      CoordinateResultsValid(init, assembly, overlap);
      var found := Found(ApiCoordinates.CoordinateInfo(c, assembly, overlap));
      assert CoordinateResults(coordinates, assembly, overlap) == CoordinateResults(init, assembly, overlap) + found;
      forall rec | rec in found
        ensures FromCoordinate(rec, c)
      {
        ApiCoordinates.RecordsOnLocus(c, assembly, overlap);
      }
      forall rec | rec in CoordinateResults(coordinates, assembly, overlap)
        ensures exists c' | c' in coordinates :: FromCoordinate(rec, c')
      {
        if rec in found {
          assert c in coordinates;
        } else {
          var c' :| c' in init && FromCoordinate(rec, c');
          assert c' in coordinates;
        }
      }
    }
  }

}

=== FILE: validators.dfy ===
/** The coordinate validator of app/bed_generator/validators.py: the regular
    expression `^(chr)?([1-9][0-9]?|[XYM]):(\d+)-(\d+)$`, matched without
    regard to case, followed by a start <= end check. */
module Validators {
  import opened Wrappers
  import opened Strings

  /** The separators of a coordinate, as `split` arguments. */
  const Colon: set<char> := {':'}
  const Dash: set<char> := {'-'}
  const Delimiters: set<char> := {':', '-'}

  /** The groups of a successful match: the optional `chr` (in the case it
      was written), the chromosome, and the two digit runs. */
  datatype CoordMatch = CoordMatch(prefix: string, chrom: string, start: string, end: string)

  /** `chr` in any case. */
  predicate IsChrPrefix(p: string) {
    |p| == 3 && LowerChar(p[0]) == 'c' && LowerChar(p[1]) == 'h' && LowerChar(p[2]) == 'r'
  }

  /** `[1-9][0-9]?|[XYM]`, case-insensitively. */
  predicate IsChromosome(c: string) {
    (|c| == 1 && '1' <= c[0] <= '9')
    || (|c| == 2 && '1' <= c[0] <= '9' && IsDigit(c[1]))
    || (|c| == 1 && c[0] in {'X', 'Y', 'M', 'x', 'y', 'm'})
  }

  /** `\d+`. */
  predicate IsNumber(s: string) { |s| >= 1 && AllDigits(s) }

  /** The groups of a string the pattern matches. */
  predicate WellFormed(m: CoordMatch) {
    (m.prefix == "" || IsChrPrefix(m.prefix)) && IsChromosome(m.chrom) && IsNumber(m.start) && IsNumber(m.end)
  }

  /** The text the groups match, in order. */
  function Render(m: CoordMatch): string {
    m.prefix + m.chrom + ":" + m.start + "-" + m.end
  }

  /** Groups 2 to 4 of the pattern, matched against the text after the
      optional `chr`. */
  function MatchGroups(rest: string): Option<(string, string, string)> {
    var parts := Split(rest, Colon);
    if |parts| != 2 then None
    else
      var numbers := Split(parts[1], Dash);
      if |numbers| != 2 then None
      else if IsChromosome(parts[0]) && IsNumber(numbers[0]) && IsNumber(numbers[1]) then
        Some((parts[0], numbers[0], numbers[1]))
      else None
  }

  lemma MatchGroupsSound(rest: string)
    ensures var g := MatchGroups(rest);
      g.Some? ==> (IsChromosome(g.value.0) && IsNumber(g.value.1) && IsNumber(g.value.2)
                   && rest == g.value.0 + ":" + g.value.1 + "-" + g.value.2)
  {
    var parts := Split(rest, Colon);
    if |parts| == 2 {
      var numbers := Split(parts[1], Dash);
      if |numbers| == 2 {
        SplitTwo(rest, Colon, ':');
        SplitTwo(parts[1], Dash, '-');
      }
    }
  }

  /** `re.match` of the pattern. The optional `chr` group is taken whenever
      the text begins with it: no chromosome begins with `c`, so leaving it
      out could never lead to a match. The final `$` also matches before a
      trailing newline. */
  function MatchCoordinate(s: string): Option<CoordMatch> {
    var body := RegexBody(s);
    var prefix := if |body| >= 3 && IsChrPrefix(body[..3]) then body[..3] else "";
    match MatchGroups(body[|prefix|..])
    case None => None
    case Some(g) => Some(CoordMatch(prefix, g.0, g.1, g.2))
  }

  /** A match is well formed and its groups make up the whole text (but for
      a final newline). */
  lemma MatchSound(s: string)
    ensures var m := MatchCoordinate(s); m.Some? ==> WellFormed(m.value) && Render(m.value) == RegexBody(s)
  {
    var body := RegexBody(s);
    var prefix := if |body| >= 3 && IsChrPrefix(body[..3]) then body[..3] else "";
    var rest := body[|prefix|..];
    assert body == prefix + rest by {
      assert prefix == body[..|prefix|];
    }
    var g := MatchGroups(rest);
    if g.Some? {
      MatchGroupsSound(rest);
      RenderGroups(prefix, g.value.0, g.value.1, g.value.2);
      assert MatchCoordinate(s) == Some(CoordMatch(prefix, g.value.0, g.value.1, g.value.2));
    }
  }

  lemma RenderGroups(prefix: string, chrom: string, start: string, end: string)
    ensures Render(CoordMatch(prefix, chrom, start, end)) == prefix + (chrom + ":" + start + "-" + end)
  {
  }

  /** Two pieces split at a one-character separator join back. */
  lemma SplitTwo(s: string, seps: set<char>, sep: char)
    requires seps == {sep} && |Split(s, seps)| == 2
    ensures var p := Split(s, seps); s == p[0] + [sep] + p[1]
    decreases |s|
  {
    var p := Split(s, seps);
    if |s| > 0 {
      var rest := Split(s[1..], seps);
      if s[0] in seps {
        SplitFreeRev(s[1..], seps);
        assert s == [] + [sep] + s[1..];
      } else {
        SplitTwo(s[1..], seps, sep);
        assert s == [s[0]] + s[1..];
      }
    }
  }

  /** A text that splits into one piece is that piece. */
  lemma SplitFreeRev(s: string, seps: set<char>)
    requires |Split(s, seps)| == 1
    ensures Split(s, seps)[0] == s
    decreases |s|
  {
    if |s| > 0 {
      SplitFreeRev(s[1..], seps);
      assert s == [s[0]] + s[1..];
    }
  }

  lemma IsNumberFree(s: string, seps: set<char>)
    requires IsNumber(s) && forall c | c in seps :: !IsDigit(c)
    ensures Free(s, seps)
  {
    forall i | 0 <= i < |s| ensures s[i] !in seps {
      assert IsDigit(s[i]);
    }
  }

  lemma MatchGroupsComplete(chrom: string, start: string, end: string)
    requires IsChromosome(chrom) && IsNumber(start) && IsNumber(end)
    ensures MatchGroups(chrom + ":" + start + "-" + end) == Some((chrom, start, end))
  {
    IsNumberFree(start, Delimiters);
    IsNumberFree(end, Delimiters);
    var numbers := start + "-" + end;
    assert Free(chrom, Colon);
    assert Free(numbers, Colon);
    assert chrom + ":" + start + "-" + end == chrom + [':'] + numbers;
    SplitAt(chrom, numbers, ':', Colon);
    SplitFree(numbers, Colon);
    SplitAt(start, end, '-', Dash);
    SplitFree(end, Dash);
  }

  /** The optional group takes the `chr` the text was written with, and
      nothing when there is none. */
  lemma PrefixTaken(m: CoordMatch)
    requires WellFormed(m)
    ensures var body := Render(m);
      (if |body| >= 3 && IsChrPrefix(body[..3]) then body[..3] else "") == m.prefix
  {
    var body := Render(m);
    if m.prefix == "" {
      assert body[0] == m.chrom[0];
    } else {
      assert body[..3] == m.prefix;
    }
  }

  /** Every string the pattern describes is matched, with exactly its
      groups, and so is that string followed by a newline. */
  lemma MatchComplete(m: CoordMatch)
    requires WellFormed(m)
    ensures MatchCoordinate(Render(m)) == Some(m)
    ensures MatchCoordinate(Render(m) + "\n") == Some(m)
  {
    var s := Render(m);
    assert s[|s| - 1] == m.end[|m.end| - 1];
    assert RegexBody(s) == s;
    assert (s + "\n")[..|s|] == s;
    assert RegexBody(s + "\n") == s;
    PrefixTaken(m);
    assert s[|m.prefix|..] == m.chrom + ":" + m.start + "-" + m.end;
    MatchGroupsComplete(m.chrom, m.start, m.end);
  }

  const FormatError := "Invalid format. Use 'chromosome:start-end' (e.g., 1:200-300 or chr1:200-300)."
  const OrderError := "End position cannot be less than start position."

  /** `validate_coordinates`: an error message, or `None` for a valid
      coordinate. The format check comes first; the order check only runs
      on strings that match. */
  function ValidateCoordinates(coordinates: string): (error: Option<string>)
    ensures error == Some(FormatError) <==> MatchCoordinate(coordinates).None?
    ensures error.None? || error == Some(FormatError) || error == Some(OrderError)
  {
    match MatchCoordinate(coordinates)
    case None => Some(FormatError)
    case Some(m) =>
      if DigitsValue(m.start) > DigitsValue(m.end) then Some(OrderError) else None
  }

  /** The validator's verdict on every string the pattern describes: `None`
      exactly when start <= end (start == end included), the order message
      otherwise; a trailing newline changes nothing. */
  lemma ValidateWellFormed(m: CoordMatch)
    requires WellFormed(m)
    ensures ValidateCoordinates(Render(m)) == ValidateCoordinates(Render(m) + "\n")
    ensures ValidateCoordinates(Render(m)) == None <==> DigitsValue(m.start) <= DigitsValue(m.end)
    ensures DigitsValue(m.start) > DigitsValue(m.end) ==> ValidateCoordinates(Render(m)) == Some(OrderError)
  {
    MatchComplete(m);
  }

  /** A string the pattern does not describe gets the format message. */
  lemma ValidateMalformed(s: string)
    requires forall m: CoordMatch | WellFormed(m) :: Render(m) != RegexBody(s)
    ensures ValidateCoordinates(s) == Some(FormatError)
  {
    MatchSound(s);
  }
}

=== FILE: wrappers.dfy ===
/** Option and Result, the two wrappers the model uses for Python's `None`
    and for the exceptions the source raises. */
module Wrappers {

  datatype Option<+T> = None | Some(value: T) {
    function GetOr(default: T): T {
      match this
      case Some(v) => v
      case None => default
    }
  }

  datatype Result<+R, +E> = Success(value: R) | Failure(error: E)
}
